=== FILE: README.md ===
# SafeTube content filter and PIN lock, in Dafny

SafeTube is an Android YouTube client for children. A parent keeps three kinds
of filter rule in a local database:

- blocked **search terms**, checked against what the child types in the search box;
- blocked **keywords**, checked against video titles and descriptions with one of
  three match policies (`EXACT_WORD`, `CONTAINS`, `STARTS_WITH`);
- blocked **channels**, compared with a video's channel id.

The settings are guarded by a four-digit PIN. The PIN is stored as a salted
hash, and failed attempts are counted toward 30-second and 5-minute lockouts.

This project models that core as immutable datatypes and pure functions, and
proves what the code promises about them:

- `text.dfy`: the string primitives the filter is built from, over
  `seq<char>`:
  - `lowercase()` and `trim()`;
  - `String.contains` and `startsWith`;
  - the split on `\s+`;
  - the regex `\b<escaped keyword>\b`, with `\w` word characters and `\b` boundaries.
- `collections.dfy`: Kotlin's `any`, `filter` and `map`.
- `rule_table.dfy`, `entities.dfy`, `blocked_channel_dao.dfy`: the three Room
  tables. A table is the sequence of its rows in primary-key order (the order a
  full scan visits them), plus the
  largest id handed out so far. On top of that sit the DAO queries: insert
  with replace on primary-key conflict, update, delete, the enabled flag,
  active rows, all rows newest first, count, and the channel-id queries.
- `filter_rule.dfy`, `filter_repository.dfy`: the domain rules and the
  repository, including the entity↔domain mappers and the `MatchType`
  fallback to `CONTAINS`.
- `content_filter_engine.dfy`, `match_examples.dfy`: the content filter engine:
  - `matchesKeyword` and the channel, title and description checks;
  - `filterVideos`, `isSearchTermBlocked` and `getFilterStats`;
  - the documented examples of the three match policies.
- `manage_filters.dfy`: the rule-management use case. It trims terms and
  keywords before storing them.
- `search_videos.dfy`: the search use case:
  - the blocked-query short circuit;
  - the mapping of search results to videos;
  - filtering of the returned page.

  The remote search is a function parameter.
- `video.dfy`, `duration.dfy`, `extensions.dfy`: the `Video` record, the
  rendering of ISO 8601 time-only durations
  (`PT(?:(\d+)H)?(?:(\d+)M)?(?:(\d+)S)?`, section 4.4.3.2 of ISO 8601:2004),
  and the relative-time buckets of `toRelativeTime`.
- `results.dfy`: the `Result` sum type.
- `secure_prefs.dfy`: the secure preferences, over a plain key→value map:
  - PIN hash and salt;
  - `getPin`;
  - the auth token;
  - the failed-attempt counter, with Kotlin `Int` wrap-around.

  The salt generator and the hash function are parameters.
- `pin_entry.dfy`, `pin_setup.dfy`, `pin_pad.dfy`: the PIN entry and PIN setup
  screen state machines, and the digit and backspace guards of the PIN pad.
- `start_destination.dfy`: the first-screen decision in `MainActivity`.

Where the documentation and the code disagree, the model follows the code:

- `STARTS_WITH` "news" **does** match "fake news". The code checks every
  `\s+`-separated word, although the comment on the enum says otherwise.
  See `MatchExamples.StartsWithMatchesLaterWord`.
- `channelId` has no unique constraint. Blocking a channel twice stores two
  rows, and deleting by channel id removes both.
- Only the search query is trimmed at search time; stored terms are not. Terms
  and keywords are trimmed when they are added through the use case; channel
  ids are not.
- A store error is not turned into a "blocked" answer; nothing fails closed.

Every member of the table below is a module-level function or lemma, or a
member of a datatype, written `Module.Type.Member`.

## Model

| member | source | states |
|---|---|---|
| Collections.Any | app/src/main/java/com/safetube/domain/filter/ContentFilterEngine.kt:47-49 | `any` is true exactly when some element satisfies the predicate |
| Collections.Filter | app/src/main/java/com/safetube/domain/filter/ContentFilterEngine.kt:30-34 | `filter` keeps exactly the elements that satisfy the predicate, each an element of the input, as an order-preserving subsequence |
| Collections.Map | app/src/main/java/com/safetube/data/repository/FilterRepository.kt:61-63 | `map` gives one image per element, position by position |
| Text.Lower | app/src/main/java/com/safetube/domain/filter/ContentFilterEngine.kt:94-95 | `lowercase()` keeps the length and lower-cases each character on its own |
| Text.Trim | app/src/main/java/com/safetube/domain/filter/ContentFilterEngine.kt:45 | `trim()` returns a slice of the input with only whitespace cut from around it and none left at either end; it is empty exactly when the input is all whitespace |
| Text.TrimLowerCommute | app/src/main/java/com/safetube/domain/filter/ContentFilterEngine.kt:45 | lower-casing then trimming the query is the same as trimming then lower-casing |
| Text.Contains | app/src/main/java/com/safetube/domain/filter/ContentFilterEngine.kt:104-107 | `contains` is true exactly when the keyword occurs at some index of the text |
| Text.StartsWith | app/src/main/java/com/safetube/domain/filter/ContentFilterEngine.kt:112 | `startsWith` is true exactly when the keyword is a prefix of the word |
| Text.Tokens | app/src/main/java/com/safetube/domain/filter/ContentFilterEngine.kt:111 | the split on `\s+` yields at least one piece and no piece holds a `\s` character |
| Text.TokensStartWith | app/src/main/java/com/safetube/domain/filter/ContentFilterEngine.kt:111-113 | some piece of the split starts with the keyword exactly when the keyword is empty, or has no `\s` and occurs at the start of a whitespace-separated word |
| Text.ContainsWholeWord | app/src/main/java/com/safetube/domain/filter/ContentFilterEngine.kt:100-101 | the escaped-keyword regex with `\b` on both sides finds a match exactly when the literal keyword occurs with a word boundary before and after it |
| Text.NoWholeWordInEmpty | app/src/main/java/com/safetube/domain/filter/ContentFilterEngine.kt:100-101 | the `\b...\b` pattern never matches in the empty text, whatever the keyword |
| Text.NonWordEdgeNeedsWordAfter | app/src/main/java/com/safetube/domain/filter/ContentFilterEngine.kt:100 | a keyword ending in a non-word character matches only where a word character follows it |
| Text.NatToString | app/src/main/java/com/safetube/domain/model/Video.kt:55-56 | `%d` of a non-negative value: its shortest decimal digits, reading back to the value |
| Text.Pad2 | app/src/main/java/com/safetube/domain/model/Video.kt:55-56 | `%02d`: at least two decimal digits that read back to the value, zero-padded only up to two (a longer text has no leading zero) |
| Text.IntToString | app/src/main/java/com/safetube/ui/components/PinPad.kt:204 | the decimal text of an `Int` digit appended to the PIN, with a minus sign only for a negative value and no leading zero in the digits |
| Entities.ValueOf | app/src/main/java/com/safetube/data/repository/FilterRepository.kt:145-149 | `MatchType.valueOf` finds the constant whose declared name is exactly the text, and none exactly when no constant has that name |
| Entities.NameRoundTrip | app/src/main/java/com/safetube/data/local/database/entities/BlockedKeywordEntity.kt:23-41 | the three match types have distinct names and `valueOf` inverts `name` |
| FilterRule.NewRuleDefaults | app/src/main/java/com/safetube/domain/model/FilterRule.kt:8-36 | a new rule of each kind is unsaved (id 0) and enabled; a keyword defaults to `CONTAINS`; a channel has no thumbnail and keeps its external id apart from the table id |
| RuleTable.KeyIsUnique | app/src/main/java/com/safetube/data/local/database/entities/BlockedKeywordEntity.kt:12-13 | the primary key identifies a stored row |
| RuleTable.Insert | app/src/main/java/com/safetube/data/local/database/dao/BlockedKeywordDao.kt:24-25 | insert with replace on conflict: id 0 gets an id above every id used so far; another id replaces that row. The row is stored under its id, no other row changes, and the table grows by one exactly when the id was new |
| RuleTable.InsertCount | app/src/main/java/com/safetube/data/local/database/dao/BlockedTermDao.kt:24-25 | inserting with id 0 always adds a row to the count; replacing an existing id never does |
| RuleTable.Update | app/src/main/java/com/safetube/data/local/database/dao/BlockedKeywordDao.kt:27-28 | `@Update` overwrites the row with the same id and changes nothing when the id is absent; other rows stay |
| RuleTable.SetEnabled | app/src/main/java/com/safetube/data/local/database/dao/BlockedTermDao.kt:36-37 | the flag update changes only the `isEnabled` of that row and is a no-op for an absent id |
| RuleTable.DeleteById | app/src/main/java/com/safetube/data/local/database/dao/BlockedTermDao.kt:30-34 | delete by key removes the row with that id, if any, and no other |
| RuleTable.GetActive | app/src/main/java/com/safetube/data/local/database/dao/BlockedKeywordDao.kt:18-19 | `WHERE isEnabled = 1` returns exactly the enabled rows, each once, in scan order (ascending id; the query itself has no `ORDER BY`) |
| RuleTable.GetById | app/src/main/java/com/safetube/data/local/database/dao/BlockedTermDao.kt:21-22 | the lookup by id finds a row exactly when one has that id, and it is that row |
| RuleTable.GetAll | app/src/main/java/com/safetube/data/local/database/dao/BlockedTermDao.kt:15-16 | `ORDER BY createdAt DESC` returns every row once, as a permutation of the table, newest first |
| RuleTable.Count | app/src/main/java/com/safetube/data/local/database/dao/BlockedKeywordDao.kt:39-40 | `COUNT(*)` counts all rows, enabled or not: the size of the full listing and at least the size of the active one |
| BlockedChannelDao.GetByChannelId | app/src/main/java/com/safetube/data/local/database/dao/BlockedChannelDao.kt:24-25 | the lookup by channel id finds a row of that channel exactly when one exists |
| BlockedChannelDao.DeleteByChannelId | app/src/main/java/com/safetube/data/local/database/dao/BlockedChannelDao.kt:39-40 | deleting by channel id removes every row of that channel and no other row |
| BlockedChannelDao.IsChannelBlocked | app/src/main/java/com/safetube/data/local/database/dao/BlockedChannelDao.kt:45-46 | `EXISTS(... channelId AND isEnabled)` is true exactly when an enabled row names the channel |
| BlockedChannelDao.DeletedChannelIsNotBlocked | app/src/main/java/com/safetube/data/local/database/dao/BlockedChannelDao.kt:39-46 | after deleting by channel id that channel is unblocked, and every other channel's answer is unchanged |
| BlockedChannelDao.SetEnabledMonotone | app/src/main/java/com/safetube/data/local/database/dao/BlockedChannelDao.kt:42-46 | disabling a row never blocks a channel and enabling a row never unblocks one |
| BlockedChannelDao.DuplicateChannelRows | app/src/main/java/com/safetube/data/local/database/dao/BlockedChannelDao.kt:27-28 | with no unique constraint on `channelId`, blocking one channel twice stores two rows under two ids, and deleting by channel id removes both |
| FilterRepository.TermMappersInverse | app/src/main/java/com/safetube/data/repository/FilterRepository.kt:128-140 | the term mappers copy every field and are inverse in both directions |
| FilterRepository.KeywordToDomain | app/src/main/java/com/safetube/data/repository/FilterRepository.kt:142-152 | a keyword row reads back with its stored match type when the text names one, and as `CONTAINS` otherwise; the other fields are copied |
| FilterRepository.KeywordMappersRoundTrip | app/src/main/java/com/safetube/data/repository/FilterRepository.kt:142-160 | every domain keyword survives the trip through the table; a row survives the trip through the domain exactly when its match-type text names a constant |
| FilterRepository.DefaultRowsMatchDefaultRules | app/src/main/java/com/safetube/data/local/database/entities/BlockedKeywordEntity.kt:11-18 | a keyword row built with the table's defaults reads back as a keyword built with the domain's defaults (`CONTAINS`, enabled, id 0) |
| FilterRepository.ChannelMapperLossless | app/src/main/java/com/safetube/data/repository/FilterRepository.kt:162-169 | the channel mapper copies every field, an absent thumbnail included, so it loses nothing |
| FilterRepository.GetAllBlockedTerms | app/src/main/java/com/safetube/data/repository/FilterRepository.kt:26-30 | every stored term, once, newest first |
| FilterRepository.GetActiveBlockedTerms | app/src/main/java/com/safetube/data/repository/FilterRepository.kt:32-34 | exactly the enabled term rows, mapped to the domain, each once, in ascending id order, as many as there are enabled rows |
| FilterRepository.AddBlockedTerm | app/src/main/java/com/safetube/data/repository/FilterRepository.kt:36-40 | the term is stored verbatim as a new enabled rule with a fresh id; earlier rules of all kinds stay |
| FilterRepository.UpdateBlockedTerm | app/src/main/java/com/safetube/data/repository/FilterRepository.kt:42-44 | the term rule with that id is overwritten; the other rules stay, the row count is kept, and an unknown id changes nothing |
| FilterRepository.DeleteBlockedTerm | app/src/main/java/com/safetube/data/repository/FilterRepository.kt:46-48 | only the term rule with that id goes |
| FilterRepository.SetBlockedTermEnabled | app/src/main/java/com/safetube/data/repository/FilterRepository.kt:50-52 | only the flag of the term rule with that id changes; the row count is kept and an unknown id changes nothing |
| FilterRepository.GetAllBlockedKeywords | app/src/main/java/com/safetube/data/repository/FilterRepository.kt:55-59 | every stored keyword, mapped, newest first |
| FilterRepository.GetActiveBlockedKeywords | app/src/main/java/com/safetube/data/repository/FilterRepository.kt:61-63 | exactly the enabled keyword rows, mapped to the domain, each once, in ascending id order, as many as there are enabled rows |
| FilterRepository.AddBlockedKeyword | app/src/main/java/com/safetube/data/repository/FilterRepository.kt:65-72 | the keyword is stored verbatim with the match type's name, as a new enabled rule that reads back with the same match type |
| FilterRepository.UpdateBlockedKeyword | app/src/main/java/com/safetube/data/repository/FilterRepository.kt:74-76 | the keyword rule with that id is overwritten; the other rules stay, the row count is kept, and an unknown id changes nothing |
| FilterRepository.DeleteBlockedKeyword | app/src/main/java/com/safetube/data/repository/FilterRepository.kt:78-80 | only the keyword rule with that id goes |
| FilterRepository.SetBlockedKeywordEnabled | app/src/main/java/com/safetube/data/repository/FilterRepository.kt:82-84 | only the flag of the keyword rule with that id changes; the row count is kept and an unknown id changes nothing |
| FilterRepository.GetAllBlockedChannels | app/src/main/java/com/safetube/data/repository/FilterRepository.kt:87-91 | every stored channel rule, once, newest first |
| FilterRepository.GetActiveBlockedChannels | app/src/main/java/com/safetube/data/repository/FilterRepository.kt:93-95 | exactly the enabled channel rows, mapped to the domain, each once, in ascending id order, as many as there are enabled rows |
| FilterRepository.AddBlockedChannel | app/src/main/java/com/safetube/data/repository/FilterRepository.kt:97-109 | a new enabled rule with a fresh id is stored, even when the channel already has one |
| FilterRepository.DeleteBlockedChannel | app/src/main/java/com/safetube/data/repository/FilterRepository.kt:111-113 | only the channel rule with that id goes |
| FilterRepository.DeleteBlockedChannelByChannelId | app/src/main/java/com/safetube/data/repository/FilterRepository.kt:115-117 | every rule for that channel goes and every rule for another channel stays |
| FilterRepository.SetBlockedChannelEnabled | app/src/main/java/com/safetube/data/repository/FilterRepository.kt:119-121 | only the flag of the channel rule with that id changes; the row count is kept and an unknown id changes nothing |
| FilterRepository.IsChannelBlocked | app/src/main/java/com/safetube/data/repository/FilterRepository.kt:123-125 | true exactly when an active channel rule has that channel id |
| ContentFilterEngine.MatchesKeyword | app/src/main/java/com/safetube/domain/filter/ContentFilterEngine.kt:93-116 | after lower-casing both sides: `EXACT_WORD` holds exactly when the keyword occurs with a word boundary on each side, `CONTAINS` exactly when it occurs anywhere, `STARTS_WITH` exactly when it begins some whitespace-separated word |
| ContentFilterEngine.IsChannelBlocked | app/src/main/java/com/safetube/domain/filter/ContentFilterEngine.kt:55-60 | a channel is blocked exactly when some rule has the identical (case-sensitive) channel id |
| ContentFilterEngine.IsTitleBlocked | app/src/main/java/com/safetube/domain/filter/ContentFilterEngine.kt:65-72 | a title is blocked exactly when some keyword of any match type matches it |
| ContentFilterEngine.IsDescriptionBlocked | app/src/main/java/com/safetube/domain/filter/ContentFilterEngine.kt:78-88 | a description is blocked exactly when some `EXACT_WORD` keyword matches it |
| ContentFilterEngine.DescriptionIgnoresLooseKeywords | app/src/main/java/com/safetube/domain/filter/ContentFilterEngine.kt:82-87 | `CONTAINS` and `STARTS_WITH` keywords never block a description |
| ContentFilterEngine.FilterVideosWith | app/src/main/java/com/safetube/domain/filter/ContentFilterEngine.kt:30-34 | the kept videos are an order-preserving subsequence holding exactly the videos no rule blocks |
| ContentFilterEngine.FilterVideosIdempotent | app/src/main/java/com/safetube/domain/filter/ContentFilterEngine.kt:30-34 | filtering the filtered list removes nothing more |
| ContentFilterEngine.FilterVideosConcat | app/src/main/java/com/safetube/domain/filter/ContentFilterEngine.kt:30-34 | filtering a concatenation is concatenating the filtered parts |
| ContentFilterEngine.NoRulesKeepsAll | app/src/main/java/com/safetube/domain/filter/ContentFilterEngine.kt:30-34 | with no rules every video is kept, in order |
| ContentFilterEngine.FilterVideos | app/src/main/java/com/safetube/domain/filter/ContentFilterEngine.kt:26-35 | a video is kept exactly when no enabled rule in the store blocks its channel or its title, and no enabled `EXACT_WORD` rule blocks its description; disabled rules have no effect |
| ContentFilterEngine.IsSearchTermBlockedWith | app/src/main/java/com/safetube/domain/filter/ContentFilterEngine.kt:45-49 | blocked exactly when some term, lower-cased, occurs in the query lower-cased and trimmed |
| ContentFilterEngine.IsSearchTermBlocked | app/src/main/java/com/safetube/domain/filter/ContentFilterEngine.kt:43-50 | blocked exactly when some enabled term row of the store occurs in the normalised query |
| ContentFilterEngine.SearchGateEdges | app/src/main/java/com/safetube/domain/filter/ContentFilterEngine.kt:47-49 | with no terms nothing is blocked; an empty term blocks every query |
| ContentFilterEngine.SearchNormalisationOrder | app/src/main/java/com/safetube/domain/filter/ContentFilterEngine.kt:45 | the gate answers the same when the query is trimmed before it is lower-cased |
| ContentFilterEngine.GetFilterStats | app/src/main/java/com/safetube/domain/filter/ContentFilterEngine.kt:121-131 | each count is the number of enabled rules of its kind (the size of the active list), hence at most the size of its table and zero exactly when no rule of that kind is enabled |
| MatchExamples.ExactWordMatchesWord | app/src/main/java/com/safetube/data/local/database/entities/BlockedKeywordEntity.kt:26 | `EXACT_WORD` "news" matches "News" |
| MatchExamples.ExactWordSkipsLongerWord | app/src/main/java/com/safetube/data/local/database/entities/BlockedKeywordEntity.kt:26 | `EXACT_WORD` "news" does not match "Newscaster" |
| MatchExamples.ExactWordMatchesInSentence | app/src/main/java/com/safetube/domain/filter/ContentFilterEngine.kt:98-102 | `EXACT_WORD` "news" matches the word after a space in "fake news" |
| MatchExamples.ContainsExamples | app/src/main/java/com/safetube/data/local/database/entities/BlockedKeywordEntity.kt:32 | `CONTAINS` "news" matches "newscaster" and "fake news" but not "new" |
| MatchExamples.StartsWithMatchesFirstWord | app/src/main/java/com/safetube/data/local/database/entities/BlockedKeywordEntity.kt:38 | `STARTS_WITH` "news" matches "newscaster" |
| MatchExamples.StartsWithMatchesLaterWord | app/src/main/java/com/safetube/domain/filter/ContentFilterEngine.kt:109-114 | `STARTS_WITH` "news" matches "fake news", contrary to the comment at BlockedKeywordEntity.kt:38 |
| MatchExamples.StartsWithSkipsWordInterior | app/src/main/java/com/safetube/domain/filter/ContentFilterEngine.kt:109-114 | `STARTS_WITH` "news" does not match "renews", where it only ends a word |
| MatchExamples.ExactWordNonWordEdgeAtEnd | app/src/main/java/com/safetube/domain/filter/ContentFilterEngine.kt:100-101 | `EXACT_WORD` "c++" does not match "i like c++": no boundary follows the final '+' |
| MatchExamples.ExactWordNonWordEdgeBeforeWord | app/src/main/java/com/safetube/domain/filter/ContentFilterEngine.kt:100-101 | `EXACT_WORD` "c++" matches "c++11" |
| MatchExamples.KeywordIsLiteral | app/src/main/java/com/safetube/domain/filter/ContentFilterEngine.kt:100-106 | the escaped keyword "a.b" is literal: neither `EXACT_WORD` nor `CONTAINS` matches "axb" |
| MatchExamples.ExactWordNeverMatchesEmptyText | app/src/main/java/com/safetube/domain/filter/ContentFilterEngine.kt:98-102 | no `EXACT_WORD` keyword matches the empty text |
| MatchExamples.EmptyKeyword | app/src/main/java/com/safetube/domain/filter/ContentFilterEngine.kt:93-116 | an empty keyword matches every text under `CONTAINS` and `STARTS_WITH`, and under `EXACT_WORD` exactly the texts holding a word character |
| ManageFilters.AddBlockedTerm | app/src/main/java/com/safetube/domain/usecase/ManageFiltersUseCase.kt:23-25 | the term is stored trimmed, as a new enabled rule with a fresh id; nothing else changes |
| ManageFilters.AddBlockedKeyword | app/src/main/java/com/safetube/domain/usecase/ManageFiltersUseCase.kt:44-46 | the keyword is stored trimmed, with the match type unchanged; nothing else changes |
| ManageFilters.AddBlockedChannel | app/src/main/java/com/safetube/domain/usecase/ManageFiltersUseCase.kt:65-71 | the channel id, name and thumbnail are stored untrimmed, as a new enabled rule |
| ManageFilters.AddedTermBlocksItsOwnSearch | app/src/main/java/com/safetube/domain/usecase/ManageFiltersUseCase.kt:23-25 | once a term is added, searching for the very text typed is blocked |
| ManageFilters.BlankTermBlocksEverySearch | app/src/main/java/com/safetube/domain/usecase/ManageFiltersUseCase.kt:23-25 | an all-whitespace term is stored empty and then blocks every query |
| ManageFilters.AddedContainsKeywordMatchesItself | app/src/main/java/com/safetube/domain/usecase/ManageFiltersUseCase.kt:44-46 | an added `CONTAINS` keyword matches the text it was typed as |
| ManageFilters.BlankLooseKeywordBlocksEveryTitle | app/src/main/java/com/safetube/domain/usecase/ManageFiltersUseCase.kt:44-46 | an all-whitespace `CONTAINS` or `STARTS_WITH` keyword is stored empty and blocks every title |
| ManageFilters.AddedChannelBlocksOnlyItsId | app/src/main/java/com/safetube/domain/usecase/ManageFiltersUseCase.kt:65-71 | adding a channel blocks exactly that id and changes the answer for no other id |
| Videos.NewVideo | app/src/main/java/com/safetube/domain/model/Video.kt:6-19 | a video built from search fields takes the record's defaults: no channel thumbnail, zero counts, no duration |
| Videos.Video.FormattedDuration | app/src/main/java/com/safetube/domain/model/Video.kt:43-58 | "" stays ""; text the pattern does not match comes back unchanged; a matched duration is always rewritten |
| Duration.ParseIso | app/src/main/java/com/safetube/domain/model/Video.kt:47-48 | a match yields well-formed digit groups that reassemble to exactly the input |
| Duration.ParseIsoComplete | app/src/main/java/com/safetube/domain/model/Video.kt:47-48 | every well-formed group triple is matched and read back as itself: the parser inverts composition |
| Duration.GroupValue | app/src/main/java/com/safetube/domain/model/Video.kt:50-52 | `toIntOrNull() ?: 0`: a group's value when it fits an `Int`, 0 when the group is absent or out of range |
| Duration.FormatIsoDuration | app/src/main/java/com/safetube/domain/model/Video.kt:43-48 | "" stays "", text the pattern does not match comes back unchanged, and a match renders as a colon-separated text of at least four characters |
| Duration.FormatShowsGroups | app/src/main/java/com/safetube/domain/model/Video.kt:54-56 | positive hours give `h:mm:ss`, otherwise `m:ss`; every field after the first has at least two digits and is zero-padded only up to two, the first has no leading zero, and each field reads back to its group's value |
| Duration.FormatEmpty | app/src/main/java/com/safetube/domain/model/Video.kt:44 | "" renders as "" |
| Duration.FormatWithDays | app/src/main/java/com/safetube/domain/model/Video.kt:48 | "P1DT2H" does not match and is returned as it is |
| Duration.FormatBarePT | app/src/main/java/com/safetube/domain/model/Video.kt:50-56 | "PT" alone renders as "0:00" |
| Duration.FormatNinetyMinutes | app/src/main/java/com/safetube/domain/model/Video.kt:50-56 | "PT90M" renders as "90:00": minutes are not carried into hours |
| Duration.FormatHoursMinutesSeconds | app/src/main/java/com/safetube/domain/model/Video.kt:54-55 | "PT1H2M3S" renders as "1:02:03" |
| Duration.FormatNeverEcho | app/src/main/java/com/safetube/domain/model/Video.kt:47-56 | a matched duration never renders as itself |
| Extensions.ParseDuration | app/src/main/java/com/safetube/util/Extensions.kt:67-81 | `parseDuration` renders every string exactly as a video with that duration does |
| Extensions.JavaDiv | app/src/main/java/com/safetube/util/Extensions.kt:33-36 | the unit conversions divide and truncate toward zero, negative differences included |
| Extensions.Bucket | app/src/main/java/com/safetube/util/Extensions.kt:38-46 | under a minute, the future included, is "just now"; otherwise the largest fitting unit in whole units: weeks 1..4 below 30 days, months 1..12 below 365 days, then years |
| Extensions.Render | app/src/main/java/com/safetube/util/Extensions.kt:39-45 | "Just now", or exactly the count in shortest decimal form, a space, the unit word, a plural "s" exactly when the count is above 1, and " ago" |
| Extensions.ToRelativeTime | app/src/main/java/com/safetube/util/Extensions.kt:11-50 | unparseable text comes back unchanged; otherwise the rendering of the bucket of the elapsed time: "Just now" under a minute, and an "... ago" phrase from then on |
| Extensions.RelativeExamples | app/src/main/java/com/safetube/util/Extensions.kt:38-46 | a future time, 90 s, 2 days, 10 days and 400 days fall in the buckets just now, 1 minute, 2 days, 1 week and 1 year |
| Results.Result.GetOrNull | app/src/main/java/com/safetube/util/Result.kt:19 | the data exactly for a `Success` |
| Results.Result.GetOrDefault | app/src/main/java/com/safetube/util/Result.kt:21 | the data of a `Success`, the default for `Error` and `Loading` |
| Results.Result.Map | app/src/main/java/com/safetube/util/Result.kt:23-29 | transforms the data of a `Success`; `Error` and `Loading` pass through as they are |
| Results.Result.OnSuccess | app/src/main/java/com/safetube/util/Result.kt:31-34 | returns the receiver; the action runs exactly for a `Success` |
| Results.Result.OnError | app/src/main/java/com/safetube/util/Result.kt:36-39 | returns the receiver; the action runs exactly for an `Error`, with its message and exception |
| Results.Result.OnLoading | app/src/main/java/com/safetube/util/Result.kt:41-44 | returns the receiver; the action runs exactly for `Loading` |
| Results.GetOrDefaultNullable | app/src/main/java/com/safetube/util/Result.kt:21 | with nullable data, a `Success` holding null also yields the default |
| Results.ExactlyOneState | app/src/main/java/com/safetube/util/Result.kt:15-17 | exactly one of `isSuccess`, `isError` and `isLoading` holds |
| Results.MapFunctorLaws | app/src/main/java/com/safetube/util/Result.kt:23-29 | mapping the identity changes nothing, and two maps are one map of the composition |
| SearchVideos.FirstPresent | app/src/main/java/com/safetube/domain/usecase/SearchVideosUseCase.kt:59-62 | an elvis chain yields the first present value, and nothing exactly when all are absent |
| SearchVideos.SnippetText | app/src/main/java/com/safetube/domain/usecase/SearchVideosUseCase.kt:57-65 | `snippet?.field ?: ""`: the field when the snippet and the field are present, "" otherwise |
| SearchVideos.ToDomain | app/src/main/java/com/safetube/domain/usecase/SearchVideosUseCase.kt:54-68 | absent text becomes ""; the thumbnail is the first present of high, medium and default; the video is live exactly when `liveBroadcastContent` is "live"; other fields keep the record's defaults |
| SearchVideos.EmptyDtoMapsToBlankVideo | app/src/main/java/com/safetube/domain/usecase/SearchVideosUseCase.kt:54-68 | a result with neither id nor snippet maps to a video of empty fields, not live |
| SearchVideos.ThumbnailPreference | app/src/main/java/com/safetube/domain/usecase/SearchVideosUseCase.kt:59-62 | the high URL wins when present, then medium, then default, then "" |
| SearchVideos.ResponseVideos | app/src/main/java/com/safetube/domain/usecase/SearchVideosUseCase.kt:37 | missing `items` gives no videos; otherwise one mapped video per item, in order |
| SearchVideos.Invoke | app/src/main/java/com/safetube/domain/usecase/SearchVideosUseCase.kt:19-52 | a blocked query gives an empty page flagged blocked and makes no remote request. Otherwise exactly one request is made. A success keeps the page token and returns, in order, exactly the mapped videos that pass every enabled rule, the same list the content filter gives for the response's videos. An error keeps its message and drops the exception, and loading passes through |
| SearchVideos.InvokeFirstPage | app/src/main/java/com/safetube/domain/usecase/SearchVideosUseCase.kt:19-22 | called with only a query, the use case asks for the first page (no token) of twenty results, and asks nothing when the query is blocked |
| SearchVideos.MissingItemsGiveNoVideos | app/src/main/java/com/safetube/domain/usecase/SearchVideosUseCase.kt:37 | a page without `items` gives an empty, unblocked result that keeps the page token |
| SearchVideos.BlockedQueryIgnoresRemote | app/src/main/java/com/safetube/domain/usecase/SearchVideosUseCase.kt:25-33 | for a blocked query the answer does not depend on the remote search at all |
| SearchVideos.ResultVideosPassRules | app/src/main/java/com/safetube/domain/usecase/SearchVideosUseCase.kt:36-47 | every video handed back passes every enabled channel, title and description rule |
| SecurePrefs.GetString | app/src/main/java/com/safetube/data/local/preferences/SecurePreferences.kt:69-70 | `getString(key, null)`: the stored string, none when the key holds none |
| SecurePrefs.GetInt | app/src/main/java/com/safetube/data/local/preferences/SecurePreferences.kt:155 | `getInt(key, default)`: the stored integer, the default when the key is absent |
| SecurePrefs.SavePin | app/src/main/java/com/safetube/data/local/preferences/SecurePreferences.kt:55-63 | stores the hash of the PIN under the fresh salt, and the salt; every other key is kept |
| SecurePrefs.VerifyPin | app/src/main/java/com/safetube/data/local/preferences/SecurePreferences.kt:68-74 | false without a stored hash or salt; otherwise true exactly when hashing the PIN with the stored salt gives the stored hash |
| SecurePrefs.GetPin | app/src/main/java/com/safetube/data/local/preferences/SecurePreferences.kt:80-84 | the placeholder "0000" exactly when a PIN is set, never the PIN |
| SecurePrefs.ClearPin | app/src/main/java/com/safetube/data/local/preferences/SecurePreferences.kt:96-101 | afterwards no PIN is set and no salt stored; other keys are kept and none is added |
| SecurePrefs.SaveThenVerify | app/src/main/java/com/safetube/data/local/preferences/SecurePreferences.kt:55-74 | a saved PIN verifies and marks the PIN as set |
| SecurePrefs.VerifyOnlySavedPin | app/src/main/java/com/safetube/data/local/preferences/SecurePreferences.kt:68-74 | if the hash separates PINs under one salt, exactly the saved PIN verifies |
| SecurePrefs.ClearedPinNeverVerifies | app/src/main/java/com/safetube/data/local/preferences/SecurePreferences.kt:89-101 | after `clearPin` no PIN verifies and `getPin` has nothing |
| SecurePrefs.GetPinHidesPin | app/src/main/java/com/safetube/data/local/preferences/SecurePreferences.kt:83 | `getPin` answers "0000" whatever PIN was saved |
| SecurePrefs.SaveAuthToken | app/src/main/java/com/safetube/data/local/preferences/SecurePreferences.kt:106-110 | the token reads back; other keys are kept and only the token key may be added |
| SecurePrefs.GetAuthToken | app/src/main/java/com/safetube/data/local/preferences/SecurePreferences.kt:115-117 | present exactly when a string is stored under the token key, and then it is that stored string |
| SecurePrefs.ClearAuthToken | app/src/main/java/com/safetube/data/local/preferences/SecurePreferences.kt:122-126 | the token is gone; other keys are kept and none is added |
| SecurePrefs.GetFailedAttempts | app/src/main/java/com/safetube/data/local/preferences/SecurePreferences.kt:154-156 | the stored count, an `Int`, 0 when none is stored |
| SecurePrefs.Inc32 | app/src/main/java/com/safetube/data/local/preferences/SecurePreferences.kt:133 | Kotlin `Int` `+ 1`: the result is in range and congruent to n + 1 modulo 2^32 |
| SecurePrefs.IncrementFailedAttempts | app/src/main/java/com/safetube/data/local/preferences/SecurePreferences.kt:131-139 | stores and returns the previous count plus one (below the `Int` limit), stamps the failure time, and keeps every other key |
| SecurePrefs.ResetFailedAttempts | app/src/main/java/com/safetube/data/local/preferences/SecurePreferences.kt:144-149 | the count reads 0 and the failure time is removed; other keys are kept and only the count key may be added |
| SecurePrefs.ClearAll | app/src/main/java/com/safetube/data/local/preferences/SecurePreferences.kt:161-163 | nothing is left: no PIN, no token, count 0 |
| SecurePrefs.FailuresCount | app/src/main/java/com/safetube/data/local/preferences/SecurePreferences.kt:131-139 | from a count of 0, n failures in a row leave the count at n |
| PinEntry.LoadPinLength | app/src/main/java/com/safetube/ui/screens/settings/PinEntryViewModel.kt:31-37 | the PIN length is the length of `getPin()`, or the minimum when no PIN is set: 4 either way |
| PinEntry.Init | app/src/main/java/com/safetube/ui/screens/settings/PinEntryViewModel.kt:119-126 | the screen opens empty, unverified, unlocked and without error, in a state satisfying the invariant |
| PinEntry.Sub32 | app/src/main/java/com/safetube/ui/screens/settings/PinEntryViewModel.kt:76 | Kotlin `Int` subtraction: the exact difference whenever it fits |
| PinEntry.RemainingMessage | app/src/main/java/com/safetube/ui/screens/settings/PinEntryViewModel.kt:76 | the message names 10 minus the attempt count |
| PinEntry.StartLockout | app/src/main/java/com/safetube/ui/screens/settings/PinEntryViewModel.kt:84-96 | locks the screen with the duration in whole seconds and clears the PIN and the error |
| PinEntry.Verify | app/src/main/java/com/safetube/ui/screens/settings/PinEntryViewModel.kt:52-82 | success resets the count and verifies. A failure adds one to the count: from 10 failures a 300 s lockout, from 3 a 30 s lockout, below that a cleared PIN and the remaining-attempts message |
| PinEntry.UpdatePinWith | app/src/main/java/com/safetube/ui/screens/settings/PinEntryViewModel.kt:39-50 | ignored while locked or when too long; a partial PIN is shown with the error cleared; a complete PIN leaves the screen verified exactly when it was already verified or the PIN is correct |
| PinEntry.AsWrittenCheck | app/src/main/java/com/safetube/ui/screens/settings/PinEntryViewModel.kt:54-56 | the comparison with `getPin()` accepts exactly "0000" once any PIN is set |
| PinEntry.UpdatePin | app/src/main/java/com/safetube/ui/screens/settings/PinEntryViewModel.kt:39-82 | as written, a complete PIN leaves the screen verified exactly when it was already verified or the PIN is "0000" while a PIN is set |
| PinEntry.UpdatePinChecked | app/src/main/java/com/safetube/data/local/preferences/SecurePreferences.kt:68-74 | the corrected screen: a complete PIN leaves it verified exactly when it was already verified or `verifyPin` accepts the PIN |
| PinEntry.Tick | app/src/main/java/com/safetube/ui/screens/settings/PinEntryViewModel.kt:98-110 | one second of countdown takes one second off a running lockout and unlocks at zero; otherwise nothing changes |
| PinEntry.Ticks | app/src/main/java/com/safetube/ui/screens/settings/PinEntryViewModel.kt:98-110 | the countdown never touches the stored count |
| PinEntry.LockoutLastsItsSeconds | app/src/main/java/com/safetube/ui/screens/settings/PinEntryViewModel.kt:98-110 | a lockout is still on one second before its length has elapsed and off at its end |
| PinEntry.RelockAfterLockout | app/src/main/java/com/safetube/ui/screens/settings/PinEntryViewModel.kt:64-71 | the lockout's end does not reset the count, so after three failures every wrong PIN locks again |
| PinEntry.FirstFailuresWarn | app/src/main/java/com/safetube/ui/screens/settings/PinEntryViewModel.kt:64-79 | the first two failures announce 9 and then 8 attempts left; the third locks |
| PinEntry.AsWrittenAcceptsPlaceholder | app/src/main/java/com/safetube/ui/screens/settings/PinEntryViewModel.kt:54-56 | with "1234" saved, the screen as written accepts "0000" and refuses "1234" |
| PinEntry.CheckedAcceptsExactlySavedPin | app/src/main/java/com/safetube/data/local/preferences/SecurePreferences.kt:68-74 | checked with `verifyPin`, a complete PIN is accepted exactly when it is the saved one |
| PinSetup.Init | app/src/main/java/com/safetube/ui/screens/settings/PinSetupViewModel.kt:74-81 | the screen opens in the entry phase with length 4, no error and no success |
| PinSetup.ProceedToConfirmation | app/src/main/java/com/safetube/ui/screens/settings/PinSetupViewModel.kt:39-47 | remembers the first PIN, clears the entry and enters the confirmation phase |
| PinSetup.ConfirmPin | app/src/main/java/com/safetube/ui/screens/settings/PinSetupViewModel.kt:49-71 | a repeat of the first PIN is saved so that it verifies, and success is reported; a mismatch starts over with the mismatch error and saves nothing |
| PinSetup.UpdatePin | app/src/main/java/com/safetube/ui/screens/settings/PinSetupViewModel.kt:23-71 | too long is ignored; partial is shown with the error cleared; a complete first PIN moves to confirmation with the store unchanged; a mismatched confirmation starts over with the error and the store unchanged; success and a change of the store come only from a matching confirmation |
| PinSetup.SamePinTwiceSaves | app/src/main/java/com/safetube/ui/screens/settings/PinSetupViewModel.kt:23-58 | the same complete PIN typed twice from the start is saved and verifies |
| PinSetup.DifferentPinsStartOver | app/src/main/java/com/safetube/ui/screens/settings/PinSetupViewModel.kt:60-70 | two different complete PINs return to the entry phase with the mismatch error and an unchanged store |
| PinPad.KeyOf | app/src/main/java/com/safetube/ui/components/PinPad.kt:66-91 | -1 is the empty cell, -2 the backspace, and every other value a digit key |
| PinPad.GridCells | app/src/main/java/com/safetube/ui/components/PinPad.kt:54-59 | the grid holds the two sentinels and each digit 0..9, so only 0..9 reach the digit handler |
| PinPad.OnDigit | app/src/main/java/com/safetube/ui/components/PinPad.kt:202-206 | a digit is appended exactly when the PIN is shorter than the length |
| PinPad.OnBackspace | app/src/main/java/com/safetube/ui/components/PinPad.kt:207-211 | backspace drops the last character exactly when the PIN is not empty |
| PinPad.Press | app/src/main/java/com/safetube/ui/components/PinPad.kt:66-91 | a press dispatches to nothing, backspace or the digit handler by cell value |
| PinPad.PressesStayInBounds | app/src/main/java/com/safetube/ui/components/PinPad.kt:199-212 | no run of pad presses makes the PIN longer than the length or puts a non-digit in it |
| StartDestination.Decide | app/src/main/java/com/safetube/ui/MainActivity.kt:52-65 | home exactly when a PIN is set and the user is signed in; PIN setup exactly when signed in without a PIN; sign-in exactly when signed out |
| StartDestination.StartRoute | app/src/main/java/com/safetube/ui/MainActivity.kt:52-65 | the same decision, reading the PIN state from the secure store |
| StartDestination.ClearedStoreNeverStartsHome | app/src/main/java/com/safetube/ui/MainActivity.kt:54-64 | after clearing the PIN or the whole store the app never starts at home, and a signed-out user always starts at sign-in |
| StartDestination.SavedPinStartsHome | app/src/main/java/com/safetube/ui/MainActivity.kt:54-62 | once a PIN is saved, a signed-in user starts at home |

## Left out

- The rule-management use case's update, delete, set-enabled and
  `isChannelBlocked` operations (ManageFiltersUseCase.kt:27-37, 48-58, 73-87)
  hand their arguments to the repository unchanged. They are the
  `FilterRepository` members of the same names.
- `RuleTable.GetActive` and the three `GetActiveBlocked...` listings: the
  `WHERE isEnabled = 1` queries (BlockedTermDao.kt:18, BlockedKeywordDao.kt:18,
  BlockedChannelDao.kt:18) have no `ORDER BY`. Their ascending-id order is
  the order a full scan visits the table, which the model fixes and SQLite
  does not promise.
- The live `Flow` listings (`getAll...`) are modelled as one snapshot of the
  table. Coroutines, `viewModelScope.launch` and `StateFlow` updates run on the
  main dispatcher and are modelled as happening within the call.
- The lockout countdown's `delay(1000)` is a `Tick` event per second.
  Cancelling the previous job and `onCleared` are not modelled.
- Room's SQL engine, Hilt wiring and the exceptions a store call can throw
  are not modelled. A table is the sequence of its rows in primary-key
  order. Ids and timestamps are unbounded integers rather than `Long`.
- The repository has no channel `toEntity`.
  `FilterRepository.ChannelToEntity` is the model's own inverse of the
  channel mapper, used only to state what the channel listings contain.
- `SecurePreferences`:
  - `generateSalt` (`SecureRandom`) and `hashPin` (SHA-256) are the
    parameters `salt` and `hash`;
  - `EncryptedSharedPreferences`, its plain fallback and the master key are
    a plain map;
  - a key holding a value of the wrong kind (a `ClassCastException` in
    Android) is excluded by the store invariant.
- Reading the clock (`System.currentTimeMillis`) is a parameter `now`, for
  the failure stamp and for the default `createdAt`.
- `toRelativeTime`'s `SimpleDateFormat` parsing is the parameter `parsed`:
  the instant in milliseconds, or none when neither format parses.
- `Extensions.Bucket`: differences of at least 2^63 ms, where Java's `long`
  arithmetic overflows, are not modelled.
- `Text.Lower`, `Text.IsWordChar`, `Text.IsRegexSpace`: only ASCII letters
  change case; `\w` and `\s` are their ASCII classes. Non-ASCII case mapping
  and character classes are not modelled.
- `Duration.FormatIsoDuration`, `Extensions.ParseDuration`: `String.format`
  without a `Locale` (Video.kt:55-56, Extensions.kt:78-79) writes digits in
  the device's default locale, which may not be ASCII; the model always
  writes ASCII digits, as `formatCount` does with its explicit `Locale.US`
  (Extensions.kt:57-59).
- `formatCount`, `formattedViewCount` and `getBestThumbnail` format floating
  point or return a field unchanged, and are not modelled.
- The network layer, the JSON DTO plumbing, Google sign-in (`isSignedIn` is a
  parameter) and every Compose screen are not modelled. `PinPad.kt` and
  `MainActivity.kt` contribute only their decision logic.
- The search DTO records (`SearchResultDto`, `Thumbnails`,
  `SearchListResponse`) are modelled with only the fields the use case reads,
  plus the ones named in the records.

## Findings

| source | as written | input that shows it | evidently intended | confidence | as-written member | corrected member |
|---|---|---|---|---|---|---|
| app/src/main/java/com/safetube/ui/screens/settings/PinEntryViewModel.kt:54-56 | the entered PIN is compared with `getPin()`, which is the constant "0000" whenever any PIN is set (SecurePreferences.kt:83) | save "1234" with PIN setup, then type "1234" (refused) or "0000" (accepted) | the entered PIN is checked against the stored salted hash with `verifyPin` | not executed | PinEntry.AsWrittenAcceptsPlaceholder | PinEntry.CheckedAcceptsExactlySavedPin |

=== FILE: blocked_channel_dao.dfy ===
/**
 * The queries of `blocked_channels` that look at the `channelId` column rather
 * than at the primary key. The column carries no unique constraint, so one
 * channel may have several rows.
 */
module BlockedChannelDao {
  import opened Wrappers
  import opened Collections
  import opened RuleTable
  import opened Entities

  /** First row of `rs`, in scan order, whose `channelId` column equals `channelId`. */
  function FirstWithChannel(rs: seq<BlockedChannelEntity>, channelId: string): (r: Option<BlockedChannelEntity>)
    ensures r.Some? <==> exists e :: e in rs && e.data.channelId == channelId
    ensures r.Some? ==> r.value in rs && r.value.data.channelId == channelId
    ensures r.Some? ==> exists i :: 0 <= i < |rs| && rs[i] == r.value && forall j :: 0 <= j < i ==> rs[j].data.channelId != channelId
  {
    if rs == [] then None
    else if rs[0].data.channelId == channelId then Some(rs[0])
    else
      var r := FirstWithChannel(rs[1..], channelId);
      assert forall e :: e in rs ==> e == rs[0] || e in rs[1..];
      if r.Some? then
        var i :| 0 <= i < |rs[1..]| && rs[1..][i] == r.value && forall j :: 0 <= j < i ==> rs[1..][j].data.channelId != channelId;
        assert rs[i + 1] == r.value;
        assert forall j :: 0 < j < i + 1 ==> rs[j] == rs[1..][j - 1];
        r
      else r
  }

  /** `SELECT * ... WHERE channelId = :channelId`: one matching row, the first a scan meets. */
  function GetByChannelId(t: Table<ChannelColumns>, channelId: string): (r: Option<BlockedChannelEntity>)
    requires Valid(t)
    ensures r.Some? <==> exists e :: e in t.rows && e.data.channelId == channelId
    ensures r.Some? ==> r.value in t.rows && r.value.data.channelId == channelId
  {
    FirstWithChannel(t.rows, channelId)
  }

  /** `DELETE ... WHERE channelId = :channelId`: every row of that channel goes, every other row stays. */
  function DeleteByChannelId(t: Table<ChannelColumns>, channelId: string): (t': Table<ChannelColumns>)
    requires Valid(t)
    ensures Valid(t')
    ensures forall r :: r in t'.rows <==> r in t.rows && r.data.channelId != channelId
    ensures t'.lastId == t.lastId
  {
    DeleteWhere(t, (r: BlockedChannelEntity) => r.data.channelId == channelId)
  }

  /** `SELECT EXISTS(... WHERE channelId = :channelId AND isEnabled = 1)`. */
  function IsChannelBlocked(t: Table<ChannelColumns>, channelId: string): (b: bool)
    ensures b <==> exists r :: r in t.rows && r.data.channelId == channelId && r.isEnabled
  {
    var p := (r: BlockedChannelEntity) => r.data.channelId == channelId && r.isEnabled;
    var b := Any(t.rows, p);
    assert b ==> exists i :: 0 <= i < |t.rows| && p(t.rows[i]);
    assert (exists r :: r in t.rows && p(r)) ==> b;
    b
  }

  /** Once its rows are deleted by channel id, a channel is no longer blocked. */
  lemma DeletedChannelIsNotBlocked(t: Table<ChannelColumns>, channelId: string, other: string)
    requires Valid(t)
    ensures !IsChannelBlocked(DeleteByChannelId(t, channelId), channelId)
    ensures other != channelId ==> IsChannelBlocked(DeleteByChannelId(t, channelId), other) == IsChannelBlocked(t, other)
  {
    var t' := DeleteByChannelId(t, channelId);
    if other != channelId && IsChannelBlocked(t, other) {
      var r :| r in t.rows && r.data.channelId == other && r.isEnabled;
      assert r in t'.rows;
    }
  }

  /** Disabling a row never blocks a channel; enabling a row never unblocks one. */
  lemma {:induction false} SetEnabledMonotone(t: Table<ChannelColumns>, id: int, channelId: string)
    requires Valid(t)
    ensures IsChannelBlocked(SetEnabled(t, id, false), channelId) ==> IsChannelBlocked(t, channelId)
    ensures IsChannelBlocked(t, channelId) ==> IsChannelBlocked(SetEnabled(t, id, true), channelId)
  {
    var off := SetEnabled(t, id, false);
    if IsChannelBlocked(off, channelId) {
      var r :| r in off.rows && r.data.channelId == channelId && r.isEnabled;
      if r.id == id {
        var i :| 0 <= i < |off.rows| && off.rows[i] == r;
        var old_ :| old_ in t.rows && old_.id == id;
        KeyIsUnique(off, r, old_.(isEnabled := false));
        assert false;
      }
      assert r in t.rows;
    }
    var on := SetEnabled(t, id, true);
    if IsChannelBlocked(t, channelId) {
      var r :| r in t.rows && r.data.channelId == channelId && r.isEnabled;
      if r.id == id {
        assert r.(isEnabled := true) == r;
        assert r in on.rows;
      } else {
        assert r in on.rows;
      }
    }
  }

  /**
   * Nothing stops a channel from being blocked twice: two inserts with the
   * same channel id leave two rows, and deleting by channel id removes both.
   */
  lemma DuplicateChannelRows(cols: ChannelColumns, now1: int, now2: int)
    ensures var (t1, id1) := Insert(Empty(), Row(0, cols, true, now1));
            var (t2, id2) := Insert(t1, Row(0, cols, true, now2));
            && id1 != id2
            && |t2.rows| == 2
            && DeleteByChannelId(t2, cols.channelId).rows == []
  {
    var (t1, id1) := Insert(Empty<ChannelColumns>(), Row(0, cols, true, now1));
    var (t2, id2) := Insert(t1, Row(0, cols, true, now2));
    assert !Has(t1, id2);
  }
}

=== FILE: collections.dfy ===
/**
 * The three Kotlin collection operations the filtering core is built from:
 * `any`, `filter` and `map` over lists, modelled on sequences, together with
 * the facts about them the rest of the model relies on.
 */
module Collections {

  /** `a` can be obtained from `b` by deleting elements: `a` keeps `b`'s order. */
  ghost predicate IsSubsequence<T>(a: seq<T>, b: seq<T>)
    decreases |b|
  {
    if a == [] then true
    else if b == [] then false
    else if a[0] == b[0] then IsSubsequence(a[1..], b[1..])
    else IsSubsequence(a, b[1..])
  }

  /** `xs.any(p)`: true iff some element satisfies `p`. */
  function Any<T>(xs: seq<T>, p: T -> bool): (b: bool)
    ensures b <==> exists i :: 0 <= i < |xs| && p(xs[i])
  {
    if xs == [] then false
    else if p(xs[0]) then true
    else Any(xs[1..], p)
  }

  /** `xs.filter(p)`: the elements satisfying `p`, in their original order. */
  function Filter<T>(xs: seq<T>, p: T -> bool): (r: seq<T>)
    ensures |r| <= |xs|
    ensures forall x :: x in r ==> x in xs && p(x)
    ensures forall i :: 0 <= i < |xs| && p(xs[i]) ==> xs[i] in r
    ensures IsSubsequence(r, xs)
    ensures forall x :: x in xs ==> multiset(r)[x] == if p(x) then multiset(xs)[x] else 0
  {
    if xs == [] then []
    else
      assert xs == [xs[0]] + xs[1..];
      if p(xs[0]) then [xs[0]] + Filter(xs[1..], p)
      else Filter(xs[1..], p)
  }

  /** `xs.map(f)`: `f` applied to every element, in order. */
  function Map<T, U>(xs: seq<T>, f: T -> U): (r: seq<U>)
    ensures |r| == |xs|
    ensures forall i :: 0 <= i < |xs| ==> r[i] == f(xs[i])
  {
    if xs == [] then [] else [f(xs[0])] + Map(xs[1..], f)
  }

  /** Filtering distributes over concatenation. */
  lemma {:induction false} FilterConcat<T>(a: seq<T>, b: seq<T>, p: T -> bool)
    ensures Filter(a + b, p) == Filter(a, p) + Filter(b, p)
    decreases |a|
  {
    if a == [] {
      assert a + b == b;
    } else {
      assert (a + b)[1..] == a[1..] + b;
      FilterConcat(a[1..], b, p);
    }
  }

  /** Filtering a sequence whose elements all pass changes nothing. */
  lemma {:induction false} FilterAllPass<T>(xs: seq<T>, p: T -> bool)
    requires forall x :: x in xs ==> p(x)
    ensures Filter(xs, p) == xs
    decreases |xs|
  {
    if xs != [] {
      assert xs[0] in xs;
      assert forall x :: x in xs[1..] ==> x in xs;
      FilterAllPass(xs[1..], p);
    }
  }

  /** Filtering twice with the same predicate is filtering once. */
  lemma FilterIdempotent<T>(xs: seq<T>, p: T -> bool)
    ensures Filter(Filter(xs, p), p) == Filter(xs, p)
  {
    FilterAllPass(Filter(xs, p), p);
  }

  /** A predicate that lets everything through leaves the sequence as it is. */
  lemma FilterTrue<T>(xs: seq<T>, p: T -> bool)
    requires forall x :: p(x)
    ensures Filter(xs, p) == xs
  {
    FilterAllPass(xs, p);
  }

  /** `any` over a concatenation is `any` over either part. */
  lemma AnyConcat<T>(a: seq<T>, b: seq<T>, p: T -> bool)
    ensures Any(a + b, p) == (Any(a, p) || Any(b, p))
  {
    if Any(a + b, p) {
      var i :| 0 <= i < |a + b| && p((a + b)[i]);
      if i < |a| {
        assert p(a[i]);
      } else {
        assert p(b[i - |a|]);
      }
    }
    if Any(a, p) {
      var i :| 0 <= i < |a| && p(a[i]);
      assert (a + b)[i] == a[i];
    }
    if Any(b, p) {
      var i :| 0 <= i < |b| && p(b[i]);
      assert (a + b)[|a| + i] == b[i];
    }
  }

  /** The elements of `xs.map(f)` are exactly the images of the elements of `xs`. */
  lemma MapMembers<T, U>(xs: seq<T>, f: T -> U)
    ensures forall x :: x in xs ==> f(x) in Map(xs, f)
    ensures forall y :: y in Map(xs, f) ==> exists x :: x in xs && f(x) == y
  {
    var ys := Map(xs, f);
    forall x | x in xs ensures f(x) in ys {
      var i :| 0 <= i < |xs| && xs[i] == x;
      assert ys[i] == f(x);
    }
    forall y | y in ys ensures exists x :: x in xs && f(x) == y {
      var i :| 0 <= i < |ys| && ys[i] == y;
      assert xs[i] in xs;
    }
  }

  /** When `g` undoes `f` and `f` undoes `g`, `y` is in `xs.map(f)` exactly when `g(y)` is in `xs`. */
  lemma MapInverseMembers<T, U>(xs: seq<T>, f: T -> U, g: U -> T)
    requires forall x :: g(f(x)) == x
    requires forall y :: f(g(y)) == y
    ensures forall y :: y in Map(xs, f) <==> g(y) in xs
  {
    MapMembers(xs, f);
    forall y | g(y) in xs ensures y in Map(xs, f) {
      assert f(g(y)) == y;
    }
  }
}

=== FILE: content_filter_engine.dfy ===
/**
 * The content filter: the three keyword match policies, the checks of a
 * video's channel, title and description, the filtering of a list of videos,
 * the search-term gate and the rule statistics.
 *
 * The `...With` functions take the active rule lists as snapshots; the
 * functions without the suffix read them from the store first, as the engine
 * does on every call.
 */
module ContentFilterEngine {
  import opened Wrappers
  import opened Collections
  import opened Text
  import opened RuleTable
  import opened Entities
  import opened FilterRule
  import opened Videos
  import opened FilterRepository

  // ---------------------------------------------------------------------------
  // matchesKeyword
  // ---------------------------------------------------------------------------

  /**
   * Both sides are lower-cased, then: `EXACT_WORD` looks for the keyword as a
   * literal with a word boundary on each side; `CONTAINS` looks for it
   * anywhere; `STARTS_WITH` looks for a `\s`-separated word of the text that
   * begins with it.
   */
  function MatchesKeyword(text: string, keyword: BlockedKeyword): (b: bool)
    ensures keyword.matchType == ExactWord ==> (b <==> HasWholeWord(Lower(text), Lower(keyword.keyword)))
    ensures keyword.matchType == Contains ==> (b <==> IsInfix(Lower(keyword.keyword), Lower(text)))
    ensures keyword.matchType == StartsWith ==> (b <==> StartsSomeWord(Lower(text), Lower(keyword.keyword)))
  {
    var t := Lower(text);
    var k := Lower(keyword.keyword);
    match keyword.matchType
    case ExactWord => ContainsWholeWord(t, k)
    case Contains => Text.Contains(t, k)
    case StartsWith =>
      TokensStartWith(t, k);
      AnyStartsWith(Tokens(t), k)
  }

  /** A channel rule names the channel, compared exactly (case-sensitive). */
  function IsChannelBlocked(channelId: string, blockedChannels: seq<BlockedChannel>): (b: bool)
    ensures b <==> exists c :: c in blockedChannels && c.channelId == channelId
  {
    var p := (c: BlockedChannel) => c.channelId == channelId;
    var b := Any(blockedChannels, p);
    assert b ==> exists i :: 0 <= i < |blockedChannels| && p(blockedChannels[i]);
    b
  }

  /** Some keyword, of any match type, matches the title. */
  function IsTitleBlocked(title: string, blockedKeywords: seq<BlockedKeyword>): (b: bool)
    ensures b <==> exists k :: k in blockedKeywords && MatchesKeyword(title, k)
  {
    var p := (k: BlockedKeyword) => MatchesKeyword(title, k);
    var b := Any(blockedKeywords, p);
    assert b ==> exists i :: 0 <= i < |blockedKeywords| && p(blockedKeywords[i]);
    b
  }

  /** Some `EXACT_WORD` keyword matches the description; the other match types are not tried. */
  function IsDescriptionBlocked(description: string, blockedKeywords: seq<BlockedKeyword>): (b: bool)
    ensures b <==> exists k :: k in blockedKeywords && k.matchType == ExactWord && MatchesKeyword(description, k)
  {
    var exact := Filter(blockedKeywords, (k: BlockedKeyword) => k.matchType == ExactWord);
    var p := (k: BlockedKeyword) => MatchesKeyword(description, k);
    var b := Any(exact, p);
    assert forall k :: k in exact <==> k in blockedKeywords && k.matchType == ExactWord;
    assert b ==> exists i :: 0 <= i < |exact| && p(exact[i]);
    b
  }

  /** A keyword that is not `EXACT_WORD` never blocks a description, whatever it matches. */
  lemma DescriptionIgnoresLooseKeywords(description: string, blockedKeywords: seq<BlockedKeyword>)
    requires forall k :: k in blockedKeywords ==> k.matchType != ExactWord
    ensures !IsDescriptionBlocked(description, blockedKeywords)
  {
  }

  // ---------------------------------------------------------------------------
  // filterVideos
  // ---------------------------------------------------------------------------

  /** The video's channel is not blocked and neither its title nor its description matches. */
  predicate Keep(v: Video, blockedKeywords: seq<BlockedKeyword>, blockedChannels: seq<BlockedChannel>) {
    && !IsChannelBlocked(v.channelId, blockedChannels)
    && !IsTitleBlocked(v.title, blockedKeywords)
    && !IsDescriptionBlocked(v.description, blockedKeywords)
  }

  /** The videos that pass every rule, in their original order. */
  function FilterVideosWith(videos: seq<Video>, blockedKeywords: seq<BlockedKeyword>, blockedChannels: seq<BlockedChannel>): (r: seq<Video>)
    ensures IsSubsequence(r, videos)
    ensures forall v :: v in r <==> v in videos && Keep(v, blockedKeywords, blockedChannels)
    ensures forall v :: v in videos ==>
      multiset(r)[v] == if Keep(v, blockedKeywords, blockedChannels) then multiset(videos)[v] else 0
  {
    Filter(videos, (v: Video) => Keep(v, blockedKeywords, blockedChannels))
  }

  /** Filtering twice removes nothing more. */
  lemma FilterVideosIdempotent(videos: seq<Video>, blockedKeywords: seq<BlockedKeyword>, blockedChannels: seq<BlockedChannel>)
    ensures var once := FilterVideosWith(videos, blockedKeywords, blockedChannels);
            FilterVideosWith(once, blockedKeywords, blockedChannels) == once
  {
    FilterIdempotent(videos, (v: Video) => Keep(v, blockedKeywords, blockedChannels));
  }

  /** Filtering a concatenation filters each part. */
  lemma FilterVideosConcat(a: seq<Video>, b: seq<Video>, blockedKeywords: seq<BlockedKeyword>, blockedChannels: seq<BlockedChannel>)
    ensures FilterVideosWith(a + b, blockedKeywords, blockedChannels)
         == FilterVideosWith(a, blockedKeywords, blockedChannels) + FilterVideosWith(b, blockedKeywords, blockedChannels)
  {
    FilterConcat(a, b, (v: Video) => Keep(v, blockedKeywords, blockedChannels));
  }

  /** With no rules, every video is kept. */
  lemma NoRulesKeepsAll(videos: seq<Video>)
    ensures FilterVideosWith(videos, [], []) == videos
  {
    FilterAllPass(videos, (v: Video) => Keep(v, [], []));
  }

  /** An enabled channel rule in the store whose channel id is exactly `channelId`. */
  ghost predicate ChannelRuleFor(s: Store, channelId: string) {
    exists e :: e in s.channels.rows && e.isEnabled && e.data.channelId == channelId
  }

  /** An enabled keyword rule in the store that matches the title. */
  ghost predicate TitleRuleFor(s: Store, title: string) {
    exists e :: e in s.keywords.rows && e.isEnabled && MatchesKeyword(title, KeywordToDomain(e))
  }

  /** An enabled `EXACT_WORD` keyword rule in the store that matches the description. */
  ghost predicate DescriptionRuleFor(s: Store, description: string) {
    exists e :: e in s.keywords.rows && e.isEnabled && KeywordToDomain(e).matchType == ExactWord && MatchesKeyword(description, KeywordToDomain(e))
  }

  /**
   * `filterVideos`: keeps a video exactly when no enabled rule of the store
   * blocks its channel, its title, or (with an `EXACT_WORD` keyword) its
   * description. Disabled rules have no effect.
   */
  function FilterVideos(s: Store, videos: seq<Video>): (r: seq<Video>)
    requires FilterRepository.Valid(s)
    ensures IsSubsequence(r, videos)
    ensures forall v :: v in r <==> v in videos && !ChannelRuleFor(s, v.channelId) && !TitleRuleFor(s, v.title) && !DescriptionRuleFor(s, v.description)
    ensures forall v :: v in videos ==>
      multiset(r)[v] == if !ChannelRuleFor(s, v.channelId) && !TitleRuleFor(s, v.title) && !DescriptionRuleFor(s, v.description)
                        then multiset(videos)[v] else 0
  {
    var ks := GetActiveBlockedKeywords(s);
    var cs := GetActiveBlockedChannels(s);
    KeepIffNoRule(s);
    FilterVideosWith(videos, ks, cs)
  }

  lemma KeepIffNoRule(s: Store)
    requires FilterRepository.Valid(s)
    ensures forall v :: Keep(v, GetActiveBlockedKeywords(s), GetActiveBlockedChannels(s))
                    <==> !ChannelRuleFor(s, v.channelId) && !TitleRuleFor(s, v.title) && !DescriptionRuleFor(s, v.description)
  {
    forall v: Video
      ensures Keep(v, GetActiveBlockedKeywords(s), GetActiveBlockedChannels(s))
          <==> !ChannelRuleFor(s, v.channelId) && !TitleRuleFor(s, v.title) && !DescriptionRuleFor(s, v.description)
    {
      KeepMeansNoRule(s, v);
    }
  }

  lemma KeepMeansNoRule(s: Store, v: Video)
    requires FilterRepository.Valid(s)
    ensures IsChannelBlocked(v.channelId, GetActiveBlockedChannels(s)) <==> ChannelRuleFor(s, v.channelId)
    ensures IsTitleBlocked(v.title, GetActiveBlockedKeywords(s)) <==> TitleRuleFor(s, v.title)
    ensures IsDescriptionBlocked(v.description, GetActiveBlockedKeywords(s)) <==> DescriptionRuleFor(s, v.description)
  {
    ChannelListMeansRule(s, v.channelId);
    TitleListMeansRule(s, v.title);
    DescriptionListMeansRule(s, v.description);
  }

  lemma ChannelListMeansRule(s: Store, channelId: string)
    requires FilterRepository.Valid(s)
    ensures IsChannelBlocked(channelId, GetActiveBlockedChannels(s)) <==> ChannelRuleFor(s, channelId)
  {
    var cs := GetActiveBlockedChannels(s);
    if ChannelRuleFor(s, channelId) {
      var e :| e in s.channels.rows && e.isEnabled && e.data.channelId == channelId;
      assert ChannelToEntity(ChannelToDomain(e)) == e;
      assert ChannelToDomain(e) in cs;
    }
    if IsChannelBlocked(channelId, cs) {
      var c :| c in cs && c.channelId == channelId;
      assert ChannelToEntity(c) in s.channels.rows;
    }
  }

  lemma TitleListMeansRule(s: Store, title: string)
    requires FilterRepository.Valid(s)
    ensures IsTitleBlocked(title, GetActiveBlockedKeywords(s)) <==> TitleRuleFor(s, title)
  {
    var ks := GetActiveBlockedKeywords(s);
    if TitleRuleFor(s, title) {
      var e :| e in s.keywords.rows && e.isEnabled && MatchesKeyword(title, KeywordToDomain(e));
      assert KeywordToDomain(e) in ks;
    }
  }

  lemma DescriptionListMeansRule(s: Store, description: string)
    requires FilterRepository.Valid(s)
    ensures IsDescriptionBlocked(description, GetActiveBlockedKeywords(s)) <==> DescriptionRuleFor(s, description)
  {
    var ks := GetActiveBlockedKeywords(s);
    if IsDescriptionBlocked(description, ks) {
      var k :| k in ks && k.matchType == ExactWord && MatchesKeyword(description, k);
      var e :| e in s.keywords.rows && KeywordToDomain(e) == k;
    }
    if DescriptionRuleFor(s, description) {
      var e :| e in s.keywords.rows && e.isEnabled && KeywordToDomain(e).matchType == ExactWord && MatchesKeyword(description, KeywordToDomain(e));
      assert KeywordToDomain(e) in ks;
    }
  }

  // ---------------------------------------------------------------------------
  // isSearchTermBlocked
  // ---------------------------------------------------------------------------

  /** The query, lower-cased then trimmed, contains some term lower-cased (terms are not trimmed). */
  function IsSearchTermBlockedWith(query: string, blockedTerms: seq<BlockedTerm>): (b: bool)
    ensures b <==> exists t :: t in blockedTerms && IsInfix(Lower(t.term), Trim(Lower(query)))
  {
    var normalized := Trim(Lower(query));
    var p := (t: BlockedTerm) => Text.Contains(normalized, Lower(t.term));
    var b := Any(blockedTerms, p);
    assert b ==> exists i :: 0 <= i < |blockedTerms| && p(blockedTerms[i]);
    b
  }

  /** `isSearchTermBlocked`: some enabled term rule of the store occurs in the normalised query. */
  function IsSearchTermBlocked(s: Store, query: string): (b: bool)
    requires FilterRepository.Valid(s)
    ensures b <==> exists e :: e in s.terms.rows && e.isEnabled && IsInfix(Lower(e.data.term), Trim(Lower(query)))
  {
    ActiveTermsMatchRows(s, query);
    IsSearchTermBlockedWith(query, GetActiveBlockedTerms(s))
  }

  lemma ActiveTermsMatchRows(s: Store, query: string)
    requires FilterRepository.Valid(s)
    ensures (exists t :: t in GetActiveBlockedTerms(s) && IsInfix(Lower(t.term), Trim(Lower(query))))
        <==> exists e :: e in s.terms.rows && e.isEnabled && IsInfix(Lower(e.data.term), Trim(Lower(query)))
  {
    var ts := GetActiveBlockedTerms(s);
    if exists t :: t in ts && IsInfix(Lower(t.term), Trim(Lower(query))) {
      var t :| t in ts && IsInfix(Lower(t.term), Trim(Lower(query)));
      assert TermToEntity(t) in s.terms.rows;
    }
    if exists e :: e in s.terms.rows && e.isEnabled && IsInfix(Lower(e.data.term), Trim(Lower(query))) {
      var e :| e in s.terms.rows && e.isEnabled && IsInfix(Lower(e.data.term), Trim(Lower(query)));
      assert TermToEntity(TermToDomain(e)) == e;
      assert TermToDomain(e) in ts;
    }
  }

  /** With no terms nothing is blocked; an empty term blocks every query. */
  lemma SearchGateEdges(query: string, t: BlockedTerm, ts: seq<BlockedTerm>)
    ensures !IsSearchTermBlockedWith(query, [])
    ensures t in ts && t.term == [] ==> IsSearchTermBlockedWith(query, ts)
  {
    EmptyIsInfix(Trim(Lower(query)));
    assert Lower([]) == [];
  }

  /** The normalisation is the same as trimming first and lower-casing after. */
  lemma SearchNormalisationOrder(query: string, ts: seq<BlockedTerm>)
    ensures IsSearchTermBlockedWith(query, ts) <==> exists t :: t in ts && IsInfix(Lower(t.term), Lower(Trim(query)))
  {
    TrimLowerCommute(query);
  }

  // ---------------------------------------------------------------------------
  // getFilterStats
  // ---------------------------------------------------------------------------

  datatype FilterStats = FilterStats(activeBlockedTerms: int, activeBlockedKeywords: int, activeBlockedChannels: int)

  /** The number of active rules of each kind. */
  function GetFilterStats(s: Store): (r: FilterStats)
    requires FilterRepository.Valid(s)
    ensures 0 <= r.activeBlockedTerms <= |s.terms.rows|
    ensures 0 <= r.activeBlockedKeywords <= |s.keywords.rows|
    ensures 0 <= r.activeBlockedChannels <= |s.channels.rows|
    ensures r.activeBlockedTerms == 0 <==> forall e :: e in s.terms.rows ==> !e.isEnabled
    ensures r.activeBlockedKeywords == 0 <==> forall e :: e in s.keywords.rows ==> !e.isEnabled
    ensures r.activeBlockedChannels == 0 <==> forall e :: e in s.channels.rows ==> !e.isEnabled
    ensures r.activeBlockedTerms == |GetActiveBlockedTerms(s)| == |set e | e in s.terms.rows && e.isEnabled|
    ensures r.activeBlockedKeywords == |GetActiveBlockedKeywords(s)| == |set e | e in s.keywords.rows && e.isEnabled|
    ensures r.activeBlockedChannels == |GetActiveBlockedChannels(s)| == |set e | e in s.channels.rows && e.isEnabled|
  {
    var ts := GetActiveBlockedTerms(s);
    var ks := GetActiveBlockedKeywords(s);
    var cs := GetActiveBlockedChannels(s);
    StatsFacts(s);
    FilterStats(|ts|, |ks|, |cs|)
  }

  lemma StatsFacts(s: Store)
    requires FilterRepository.Valid(s)
    ensures GetActiveBlockedTerms(s) == [] <==> forall e :: e in s.terms.rows ==> !e.isEnabled
    ensures GetActiveBlockedKeywords(s) == [] <==> forall e :: e in s.keywords.rows ==> !e.isEnabled
    ensures GetActiveBlockedChannels(s) == [] <==> forall e :: e in s.channels.rows ==> !e.isEnabled
  {
    var ts := GetActiveBlockedTerms(s);
    var ks := GetActiveBlockedKeywords(s);
    var cs := GetActiveBlockedChannels(s);
    if ts != [] {
      assert ts[0] in ts;
    }
    if ks != [] {
      assert ks[0] in ks;
    }
    if cs != [] {
      assert cs[0] in cs;
    }
    forall e | e in s.terms.rows && e.isEnabled ensures ts != [] {
      assert TermToEntity(TermToDomain(e)) == e;
      assert TermToDomain(e) in ts;
    }
    forall e | e in s.keywords.rows && e.isEnabled ensures ks != [] {
      assert KeywordToDomain(e) in ks;
    }
    forall e | e in s.channels.rows && e.isEnabled ensures cs != [] {
      assert ChannelToEntity(ChannelToDomain(e)) == e;
      assert ChannelToDomain(e) in cs;
    }
  }
}

=== FILE: duration.dfy ===
/**
 * The time-only subset of the ISO 8601 duration format with designators
 * (section 4.4.3.2 of ISO 8601:2004) that the app reads: the pattern
 * `PT(?:(\d+)H)?(?:(\d+)M)?(?:(\d+)S)?`, matched against the whole string,
 * and its rendering as `h:mm:ss` or `m:ss`.
 */
module Duration {
  import opened Wrappers
  import opened Text

  /** `Int.MAX_VALUE`: a digit group above it makes `toIntOrNull` return null. */
  const IntMax: int := 2147483647

  /** The three optional digit groups of the pattern: hours, minutes, seconds. */
  datatype Groups = Groups(hours: Option<string>, minutes: Option<string>, seconds: Option<string>)

  /** A present group is a non-empty run of ASCII digits (`\d+`). */
  ghost predicate GroupOk(g: Option<string>) {
    g.Some? ==> g.value != [] && AllDigits(g.value)
  }

  ghost predicate WellFormed(g: Groups) {
    GroupOk(g.hours) && GroupOk(g.minutes) && GroupOk(g.seconds)
  }

  /** `(?:(\d+)X)?` written out: the digits then the designator, or nothing. */
  function Part(g: Option<string>, designator: char): string {
    if g.Some? then g.value + [designator] else []
  }

  /** The one string the pattern matches with groups `g`. */
  function Compose(g: Groups): string {
    "PT" + Part(g.hours, 'H') + Part(g.minutes, 'M') + Part(g.seconds, 'S')
  }

  /** End of the run of digits that starts at `i`. */
  function DigitRunEnd(t: string, i: nat): (j: nat)
    requires i <= |t|
    ensures i <= j <= |t|
    ensures forall k :: i <= k < j ==> IsDigit(t[k])
    ensures j < |t| ==> !IsDigit(t[j])
    decreases |t| - i
  {
    if i == |t| || !IsDigit(t[i]) then i else DigitRunEnd(t, i + 1)
  }

  /** Reads an optional `(\d+)X` at the front of `t`: the group, and what follows it. */
  function Optional(t: string, x: char): (r: (Option<string>, string))
    requires !IsDigit(x)
    ensures GroupOk(r.0)
    ensures t == Part(r.0, x) + r.1
  {
    var j := DigitRunEnd(t, 0);
    if 0 < j < |t| && t[j] == x then
      assert AllDigits(t[..j]) by {
        forall c | c in t[..j] ensures IsDigit(c) {
          var k :| 0 <= k < j && t[..j][k] == c;
        }
      }
      assert t == t[..j] + [x] + t[j + 1..];
      (Some(t[..j]), t[j + 1..])
    else (None, t)
  }

  /**
   * `matchEntire` of the pattern: the groups, or `None` when the whole string
   * does not match. A digit run must be followed by its designator, so at most
   * one way to match exists and no backtracking is needed.
   */
  function ParseIso(s: string): (r: Option<Groups>)
    ensures r.Some? ==> WellFormed(r.value) && s == Compose(r.value)
  {
    if |s| < 2 || s[..2] != "PT" then None
    else
      var p1 := Optional(s[2..], 'H');
      var p2 := Optional(p1.1, 'M');
      var p3 := Optional(p2.1, 'S');
      if p3.1 == [] then
        ComposeOf(s, p1, p2, p3);
        Some(Groups(p1.0, p2.0, p3.0))
      else None
  }

  lemma ComposeOf(s: string, p1: (Option<string>, string), p2: (Option<string>, string), p3: (Option<string>, string))
    requires |s| >= 2 && s[..2] == "PT"
    requires s[2..] == Part(p1.0, 'H') + p1.1
    requires p1.1 == Part(p2.0, 'M') + p2.1
    requires p2.1 == Part(p3.0, 'S') + p3.1
    requires p3.1 == []
    ensures s == Compose(Groups(p1.0, p2.0, p3.0))
  {
    assert s == s[..2] + s[2..];
    assert p2.1 == Part(p3.0, 'S');
  }

  /** A string that begins with a present group of another designator `y` holds no `(\d+)X` at its front. */
  lemma DigitRunStopsAt(d: string, y: char, more: string)
    requires d != [] && AllDigits(d) && !IsDigit(y)
    ensures DigitRunEnd(d + [y] + more, 0) == |d|
  {
    RunFrom(d + [y] + more, d, y, more, 0);
  }

  lemma {:induction false} RunFrom(t: string, d: string, y: char, more: string, i: nat)
    requires AllDigits(d) && !IsDigit(y) && t == d + [y] + more && i <= |d|
    ensures DigitRunEnd(t, i) == |d|
    decreases |d| - i
  {
    if i < |d| {
      assert t[i] == d[i] && d[i] in d;
      RunFrom(t, d, y, more, i + 1);
    } else {
      assert t[i] == y;
    }
  }

  /** `Optional` reads back what `Part` wrote, when what follows cannot be taken for the group. */
  lemma OptionalReadsPart(g: Option<string>, x: char, rest: string, y: char, more: string)
    requires GroupOk(g) && !IsDigit(x) && !IsDigit(y) && x != y
    requires rest == [] || (exists d :: d != [] && AllDigits(d) && rest == d + [y] + more)
    ensures Optional(Part(g, x) + rest, x) == (g, rest)
  {
    var t := Part(g, x) + rest;
    if g.Some? {
      assert t == g.value + [x] + rest;
      DigitRunStopsAt(g.value, x, rest);
      assert t[..|g.value|] == g.value;
      assert t[|g.value| + 1..] == rest;
    } else if rest != [] {
      var d :| d != [] && AllDigits(d) && rest == d + [y] + more;
      DigitRunStopsAt(d, y, more);
      assert t == rest;
      assert t[|d|] == y;
    }
  }

  /** The pattern matches a string exactly when it is `Compose(g)` for well-formed groups `g`. */
  lemma {:induction false} ParseIsoComplete(g: Groups)
    requires WellFormed(g)
    ensures ParseIso(Compose(g)) == Some(g)
  {
    var s := Compose(g);
    var ps := Part(g.seconds, 'S');
    var pm := Part(g.minutes, 'M');
    var ph := Part(g.hours, 'H');
    assert s == "PT" + (ph + (pm + ps));
    assert s[..2] == "PT";
    assert s[2..] == ph + (pm + ps);
    OptionalReadsPart(g.seconds, 'S', [], 'M', []);
    assert ps + [] == ps;
    if g.seconds.Some? {
      assert ps == g.seconds.value + ['S'] + [];
      OptionalReadsPart(g.minutes, 'M', ps, 'S', []);
    } else {
      OptionalReadsPart(g.minutes, 'M', ps, 'S', []);
    }
    var rest := pm + ps;
    if g.minutes.Some? {
      assert rest == g.minutes.value + ['M'] + ps;
      OptionalReadsPart(g.hours, 'H', rest, 'M', ps);
    } else if g.seconds.Some? {
      assert rest == g.seconds.value + ['S'] + [];
      OptionalReadsPart(g.hours, 'H', rest, 'S', []);
    } else {
      OptionalReadsPart(g.hours, 'H', rest, 'S', []);
    }
  }

  /** `toIntOrNull() ?: 0` on a group: its value, or 0 when it is absent or beyond `Int`. */
  function GroupValue(g: Option<string>): (v: nat)
    requires GroupOk(g)
    ensures v <= IntMax
    ensures g.Some? && DigitsValue(g.value) <= IntMax ==> v == DigitsValue(g.value)
    ensures g.None? || DigitsValue(g.value) > IntMax ==> v == 0
  {
    if g.None? then 0
    else
      var v := DigitsValue(g.value);
      if v <= IntMax then v else 0
  }

  /**
   * `formattedDuration` / `parseDuration`: "" stays "", a string the pattern
   * does not match is returned as it is, and a match is shown as
   * `%d:%02d:%02d` when the hours are positive and `%d:%02d` otherwise.
   */
  function FormatIsoDuration(s: string): (r: string)
    ensures s == [] ==> r == []
    ensures ParseIso(s).None? ==> r == s
    ensures ParseIso(s).Some? && s != [] ==> |r| >= 4 && ':' in r
  {
    if s == [] then []
    else
      match ParseIso(s)
      case None => s
      case Some(g) =>
        var h := GroupValue(g.hours);
        var m := GroupValue(g.minutes);
        var sec := GroupValue(g.seconds);
        if h > 0 then NatToString(h) + ":" + Pad2(m) + ":" + Pad2(sec)
        else NatToString(m) + ":" + Pad2(sec)
  }

  /**
   * `a` is a decimal rendering of `n` with at least `width` digits, zero-padded
   * only up to that width.
   */
  ghost predicate Shows(a: string, n: nat, width: nat) {
    |a| >= width && AllDigits(a) && DigitsValue(a) == n && (|a| > width ==> a[0] != '0')
  }

  /**
   * The rendering of a matched duration: the hours (only when positive), then
   * the minutes, then the seconds, separated by ':', the fields after the first
   * padded to two digits; an out-of-range group shows as 0.
   */
  lemma FormatShowsGroups(g: Groups)
    requires WellFormed(g)
    ensures var r := FormatIsoDuration(Compose(g));
            var h, m, sec := GroupValue(g.hours), GroupValue(g.minutes), GroupValue(g.seconds);
            && (h > 0 ==> exists a, b, c :: r == a + ":" + b + ":" + c && Shows(a, h, 1) && Shows(b, m, 2) && Shows(c, sec, 2))
            && (h == 0 ==> exists b, c :: r == b + ":" + c && Shows(b, m, 1) && Shows(c, sec, 2))
  {
    ParseIsoComplete(g);
    var h, m, sec := GroupValue(g.hours), GroupValue(g.minutes), GroupValue(g.seconds);
    var r := FormatIsoDuration(Compose(g));
    if h > 0 {
      assert Shows(NatToString(h), h, 1) && Shows(Pad2(m), m, 2) && Shows(Pad2(sec), sec, 2);
    } else {
      assert Shows(NatToString(m), m, 1) && Shows(Pad2(sec), sec, 2);
    }
  }

  /** The empty string is returned as it is. */
  lemma FormatEmpty()
    ensures FormatIsoDuration("") == ""
  {
  }

  /** A duration with a date part does not match and is returned as it is. */
  lemma FormatWithDays()
    ensures FormatIsoDuration("P1DT2H") == "P1DT2H"
  {
    assert "P1DT2H"[..2] == "P1";
  }

  /** `PT` alone matches with no group: zero minutes and seconds. */
  lemma FormatBarePT()
    ensures FormatIsoDuration("PT") == "0:00"
  {
    ParseIsoComplete(Groups(None, None, None));
  }

  /** Minutes are not carried into hours. */
  lemma FormatNinetyMinutes()
    ensures FormatIsoDuration("PT90M") == "90:00"
  {
    var g := Groups(None, Some("90"), None);
    NinetyMinutesGroups(g);
    FormatOfGroups(g);
    NinetyMinutesText(90, 0);
  }

  lemma NinetyMinutesGroups(g: Groups)
    requires g == Groups(None, Some("90"), None)
    ensures Compose(g) == "PT90M"
    ensures WellFormed(g)
    ensures GroupValue(g.hours) == 0 && GroupValue(g.minutes) == 90 && GroupValue(g.seconds) == 0
  {
    assert AllDigits("90");
    assert DigitsValue("90") == 90;
  }

  lemma NinetyMinutesText(m: nat, sec: nat)
    requires m == 90 && sec == 0
    ensures NatToString(m) + ":" + Pad2(sec) == "90:00"
  {
    assert NatToString(m) == "90" by {
      assert NatToString(9) == "9";
    }
    assert Pad2(sec) == "00";
  }

  /** Positive hours give three fields, the last two padded. */
  lemma FormatHoursMinutesSeconds()
    ensures FormatIsoDuration("PT1H2M3S") == "1:02:03"
  {
    HoursMinutesSecondsAt("PT1H2M3S");
  }

  lemma HoursMinutesSecondsAt(s: string)
    requires s == "PT1H2M3S"
    ensures FormatIsoDuration(s) == "1:02:03"
  {
    var g := Groups(Some("1"), Some("2"), Some("3"));
    HoursMinutesSecondsGroups(g);
    FormatOfGroups(g);
    HoursMinutesSecondsText(1, 2, 3);
  }

  lemma HoursMinutesSecondsGroups(g: Groups)
    requires g == Groups(Some("1"), Some("2"), Some("3"))
    ensures Compose(g) == "PT1H2M3S"
    ensures WellFormed(g)
    ensures GroupValue(g.hours) == 1 && GroupValue(g.minutes) == 2 && GroupValue(g.seconds) == 3
  {
    assert AllDigits("1") && AllDigits("2") && AllDigits("3");
    assert DigitsValue("1") == 1 && DigitsValue("2") == 2 && DigitsValue("3") == 3;
  }

  lemma HoursMinutesSecondsText(h: nat, m: nat, sec: nat)
    requires h == 1 && m == 2 && sec == 3
    ensures NatToString(h) + ":" + Pad2(m) + ":" + Pad2(sec) == "1:02:03"
  {
    assert NatToString(h) == "1";
    assert Pad2(m) == "02" && Pad2(sec) == "03";
  }

  /** The rendering of composed groups, read through the parser. */
  lemma FormatOfGroups(g: Groups)
    requires WellFormed(g)
    ensures var h, m, sec := GroupValue(g.hours), GroupValue(g.minutes), GroupValue(g.seconds);
      FormatIsoDuration(Compose(g))
        == if h > 0 then NatToString(h) + ":" + Pad2(m) + ":" + Pad2(sec) else NatToString(m) + ":" + Pad2(sec)
  {
    ParseIsoComplete(g);
    assert Compose(g) != [];
  }

  /** A matched duration never renders as itself: the rendering has a ':' and the input has none. */
  lemma FormatNeverEcho(s: string)
    requires s != [] && ParseIso(s).Some?
    ensures FormatIsoDuration(s) != s
  {
    var g := ParseIso(s).value;
    var r := FormatIsoDuration(s);
    var m := GroupValue(g.minutes);
    var sec := GroupValue(g.seconds);
    var h := GroupValue(g.hours);
    if h > 0 {
      ColonIn(NatToString(h) + ":" + Pad2(m), Pad2(sec));
    } else {
      ColonIn(NatToString(m), Pad2(sec));
    }
    NoColonInCompose(g);
  }

  lemma ColonIn(a: string, b: string)
    ensures ':' in a + ":" + b
  {
    assert (a + ":" + b)[|a|] == ':';
  }

  /** No ':' in a string the pattern matches. */
  lemma NoColonInCompose(g: Groups)
    requires WellFormed(g)
    ensures ':' !in Compose(g)
  {
    NoColonInPart(g.hours, 'H');
    NoColonInPart(g.minutes, 'M');
    NoColonInPart(g.seconds, 'S');
  }

  lemma NoColonInPart(g: Option<string>, x: char)
    requires GroupOk(g) && x != ':'
    ensures ':' !in Part(g, x)
  {
    if g.Some? {
      assert !IsDigit(':');
    }
  }
}

=== FILE: entities.dfy ===
/**
 * The rows of the three rule tables (`blocked_terms`, `blocked_keywords`,
 * `blocked_channels`) and the `MatchType` enumeration that the keyword table
 * stores by name.
 */
module Entities {
  import opened Wrappers
  import opened RuleTable

  /** How a blocked keyword is compared with a video's text. */
  datatype MatchType = ExactWord | Contains | StartsWith {
    /** `MatchType.name`: the constant's declared name, the form stored in the table. */
    function Name(): string {
      match this
      case ExactWord => "EXACT_WORD"
      case Contains => "CONTAINS"
      case StartsWith => "STARTS_WITH"
    }
  }

  /**
   * `MatchType.valueOf`: the constant whose declared name is exactly `s`
   * (case-sensitive, no trimming); `None` where the library call throws.
   */
  function ValueOf(s: string): (m: Option<MatchType>)
    ensures m.Some? ==> m.value.Name() == s
    ensures m.None? <==> forall t: MatchType :: t.Name() != s
  {
    if s == "EXACT_WORD" then Some(ExactWord)
    else if s == "CONTAINS" then Some(Contains)
    else if s == "STARTS_WITH" then Some(StartsWith)
    else None
  }

  /** `valueOf` inverts `name`, and `name` tells the constants apart. */
  lemma {:induction false} NameRoundTrip(m: MatchType, n: MatchType)
    ensures ValueOf(m.Name()) == Some(m)
    ensures m.Name() == n.Name() ==> m == n
  {
    match m
    case ExactWord =>
    case Contains =>
    case StartsWith =>
  }

  /** The kind-specific columns of `blocked_terms`. */
  datatype TermColumns = TermColumns(term: string)

  /** The kind-specific columns of `blocked_keywords`; the match type is kept as text, "CONTAINS" by default. */
  datatype KeywordColumns = KeywordColumns(keyword: string, matchType: string := "CONTAINS")

  /** The kind-specific columns of `blocked_channels`; the thumbnail is nullable and absent by default. */
  datatype ChannelColumns = ChannelColumns(channelId: string, channelName: string, channelThumbnail: Option<string> := None)

  type BlockedTermEntity = Row<TermColumns>
  type BlockedKeywordEntity = Row<KeywordColumns>
  type BlockedChannelEntity = Row<ChannelColumns>
}

=== FILE: extensions.dfy ===
/**
 * String helpers of the app: `parseDuration`, and `toRelativeTime` as a
 * function of the elapsed milliseconds. Parsing the date text and reading the
 * clock are outside the model: the parsed instant and "now" are parameters.
 */
module Extensions {
  import opened Wrappers
  import opened Text
  import Duration
  import Videos

  /** `String.parseDuration`: the same rendering as a video's formatted duration. */
  function ParseDuration(s: string): (r: string)
    ensures r == Videos.NewVideo([], [], [], [], [], [], [], false).(duration := s).FormattedDuration()
  {
    Duration.FormatIsoDuration(s)
  }

  const SecondMs: int := 1000
  const MinuteMs: int := 60_000
  const HourMs: int := 3_600_000
  const DayMs: int := 86_400_000

  /** `TimeUnit.MILLISECONDS.toX`: Java's `/` on `long`, which truncates toward zero. */
  function JavaDiv(a: int, b: int): (q: int)
    requires b > 0
    ensures a >= 0 ==> q * b <= a < (q + 1) * b
    ensures a < 0 ==> (q - 1) * b < a <= q * b
    ensures a < 0 ==> q <= 0
  {
    if a >= 0 then a / b else -((-a) / b)
  }

  datatype TimeUnit = Minute | Hour | Day | Week | Month | Year {
    function Word(): string {
      match this
      case Minute => "minute"
      case Hour => "hour"
      case Day => "day"
      case Week => "week"
      case Month => "month"
      case Year => "year"
    }

    /** Milliseconds in one unit; a week is 7 days, a month 30, a year 365. */
    function Ms(): int {
      match this
      case Minute => MinuteMs
      case Hour => HourMs
      case Day => DayMs
      case Week => 604_800_000
      case Month => 2_592_000_000
      case Year => 31_536_000_000
    }
  }

  datatype Relative = JustNow | Ago(n: int, unit: TimeUnit)

  /**
   * The bucket `toRelativeTime` picks for an elapsed time of `diff`
   * milliseconds: under a minute (also any time in the future) is "just now";
   * otherwise the largest unit that fits, counting whole units, with weeks
   * only below 30 days, months only below 365 days.
   */
  function Bucket(diff: int): (r: Relative)
    ensures r == JustNow <==> diff < MinuteMs
    ensures r.Ago? ==> r.n >= 1 && r.n * r.unit.Ms() <= diff < (r.n + 1) * r.unit.Ms()
    ensures r.Ago? && r.unit == Minute ==> diff < HourMs
    ensures r.Ago? && r.unit == Hour ==> HourMs <= diff < DayMs
    ensures r.Ago? && r.unit == Day ==> DayMs <= diff < 7 * DayMs
    ensures r.Ago? && r.unit == Week ==> 7 * DayMs <= diff < 30 * DayMs && r.n <= 4
    ensures r.Ago? && r.unit == Month ==> 30 * DayMs <= diff < 365 * DayMs && r.n <= 12
    ensures r.Ago? && r.unit == Year ==> 365 * DayMs <= diff
  {
    var seconds := JavaDiv(diff, SecondMs);
    var minutes := JavaDiv(diff, MinuteMs);
    var hours := JavaDiv(diff, HourMs);
    var days := JavaDiv(diff, DayMs);
    if seconds < 60 then JustNow
    else if minutes < 60 then Ago(minutes, Minute)
    else if hours < 24 then Ago(hours, Hour)
    else if days < 7 then Ago(days, Day)
    else if days < 30 then
      DivDiv(diff, 7);
      Ago(days / 7, Week)
    else if days < 365 then
      DivDiv(diff, 30);
      Ago(days / 30, Month)
    else
      DivDiv(diff, 365);
      Ago(days / 365, Year)
  }

  /** Whole days, then whole groups of `k` days: the same as whole periods of `k` days. */
  lemma DivDiv(diff: int, k: int)
    requires diff >= 0 && k > 0
    ensures (diff / DayMs) / k == diff / (k * DayMs)
  {
    var days := diff / DayMs;
    var n := days / k;
    assert days * DayMs <= diff < (days + 1) * DayMs;
    assert n * k <= days < (n + 1) * k;
    assert n * k * DayMs <= days * DayMs by {
      MulMono(n * k, days, DayMs);
    }
    assert (days + 1) * DayMs <= (n + 1) * k * DayMs by {
      MulMono(days + 1, (n + 1) * k, DayMs);
    }
    assert n * (k * DayMs) <= diff < (n + 1) * (k * DayMs);
    DivUnique(diff, k * DayMs, n);
  }

  lemma MulMono(a: int, b: int, c: int)
    requires a <= b && c >= 0
    ensures a * c <= b * c
  {
  }

  lemma DivUnique(a: int, b: int, q: int)
    requires b > 0 && q * b <= a < (q + 1) * b
    ensures a / b == q
  {
    var r := a / b;
    assert a == r * b + a % b && 0 <= a % b < b;
    if r < q {
      assert (r + 1) * b == r * b + b;
      MulMono(r + 1, q, b);
    } else if r > q {
      assert (q + 1) * b == q * b + b;
      MulMono(q + 1, r, b);
    }
  }

  /** "Just now", or "<n> <unit> ago" with a plural "s" when `n` is above 1. */
  function Render(r: Relative): (s: string)
    requires r.Ago? ==> r.n >= 0
    ensures r.JustNow? ==> s == "Just now"
    ensures r.Ago? ==> exists d :: Shows(d, r.n) && s == d + " " + r.unit.Word() + (if r.n > 1 then "s" else "") + " ago"
    ensures r.Ago? ==> (IsSuffix("s ago", s) <==> r.n > 1)
  {
    match r
    case JustNow => "Just now"
    case Ago(n, unit) =>
      var d := NatToString(n);
      var plural := if n > 1 then "s" else "";
      var s := d + " " + unit.Word() + plural + " ago";
      assert s[..|d + " " + unit.Word()|] == d + " " + unit.Word();
      assert Shows(d, n);
      PluralSuffix(d + " " + unit.Word(), unit, n > 1);
      s
  }

  /** `d` is the decimal text of `n`, as a `Long` in a string template gives it: no leading zero. */
  ghost predicate Shows(d: string, n: nat) {
    |d| >= 1 && AllDigits(d) && DigitsValue(d) == n && (|d| > 1 ==> d[0] != '0')
  }

  ghost predicate IsSuffix(x: string, s: string) {
    |x| <= |s| && s[|s| - |x|..] == x
  }

  lemma PluralSuffix(head: string, unit: TimeUnit, plural: bool)
    requires |head| >= |unit.Word()| && head[|head| - |unit.Word()|..] == unit.Word()
    ensures IsSuffix("s ago", head + (if plural then "s" else "") + " ago") <==> plural
  {
    var s := head + (if plural then "s" else "") + " ago";
    if !plural {
      assert s[|s| - 5] == head[|head| - 1];
      assert head[|head| - 1] == unit.Word()[|unit.Word()| - 1];
      assert s[|s| - 5..][0] == s[|s| - 5];
    } else {
      assert s[|s| - 5..] == "s ago";
    }
  }

  /**
   * `String.toRelativeTime`: the text itself when neither date format parses
   * it (`parsed` is `None`), otherwise the rendered bucket of `now - parsed`.
   */
  function ToRelativeTime(s: string, parsed: Option<int>, now: int): (r: string)
    ensures parsed.None? ==> r == s
    ensures parsed.Some? && now - parsed.value < MinuteMs ==> r == "Just now"
    ensures parsed.Some? && now - parsed.value >= MinuteMs ==> IsSuffix(" ago", r)
    ensures parsed.Some? ==> r == Render(Bucket(now - parsed.value))
  {
    match parsed
    case None => s
    case Some(t) =>
      var b := Bucket(now - t);
      var r := Render(b);
      if b.Ago? then
        assert r[|r| - 4..] == " ago";
        r
      else r
  }

  /** Worked cases: a future time, 90 seconds, two days, ten days, one year. */
  lemma RelativeExamples()
    ensures Bucket(-5000) == JustNow
    ensures Bucket(90 * SecondMs) == Ago(1, Minute)
    ensures Bucket(2 * DayMs) == Ago(2, Day)
    ensures Bucket(10 * DayMs) == Ago(1, Week)
    ensures Bucket(400 * DayMs) == Ago(1, Year)
  {
  }
}

=== FILE: filter_repository.dfy ===
/**
 * The repository over the three rule tables: it maps table rows to domain
 * rules and back, and forwards every write to the table it concerns. The
 * store is the three tables together; no operation on one kind of rule
 * touches the tables of the other two.
 *
 * The `createdAt` default (`System.currentTimeMillis()`) is the parameter `now`.
 */
module FilterRepository {
  import opened Wrappers
  import opened Collections
  import opened RuleTable
  import opened Entities
  import opened FilterRule
  import BlockedChannelDao

  datatype Store = Store(terms: Table<TermColumns>, keywords: Table<KeywordColumns>, channels: Table<ChannelColumns>)

  ghost predicate Valid(s: Store) {
    RuleTable.Valid(s.terms) && RuleTable.Valid(s.keywords) && RuleTable.Valid(s.channels)
  }

  function EmptyStore(): (s: Store)
    ensures Valid(s)
  {
    Store(Empty(), Empty(), Empty())
  }

  // ---------------------------------------------------------------------------
  // Mappers
  // ---------------------------------------------------------------------------

  function TermToDomain(e: BlockedTermEntity): BlockedTerm {
    BlockedTerm(e.id, e.data.term, e.isEnabled, e.createdAt)
  }

  function TermToEntity(t: BlockedTerm): BlockedTermEntity {
    Row(t.id, TermColumns(t.term), t.isEnabled, t.createdAt)
  }

  /** The term mappers are mutually inverse. */
  lemma TermMappersInverse(t: BlockedTerm, e: BlockedTermEntity)
    ensures TermToDomain(TermToEntity(t)) == t
    ensures TermToEntity(TermToDomain(e)) == e
  {
  }

  /** The stored match type is read back with `valueOf`; text it does not name reads as `CONTAINS`. */
  function KeywordToDomain(e: BlockedKeywordEntity): (k: BlockedKeyword)
    ensures k.id == e.id && k.keyword == e.data.keyword
    ensures k.isEnabled == e.isEnabled && k.createdAt == e.createdAt
    ensures k.matchType.Name() == e.data.matchType || (k.matchType == Contains && ValueOf(e.data.matchType) == None)
  {
    BlockedKeyword(e.id, e.data.keyword, ValueOf(e.data.matchType).GetOr(Contains), e.isEnabled, e.createdAt)
  }

  function KeywordToEntity(k: BlockedKeyword): BlockedKeywordEntity {
    Row(k.id, KeywordColumns(k.keyword, k.matchType.Name()), k.isEnabled, k.createdAt)
  }

  /**
   * A keyword survives the trip to the table and back; a row survives the
   * trip to the domain and back exactly when its match type column names a
   * constant.
   */
  lemma KeywordMappersRoundTrip(k: BlockedKeyword, e: BlockedKeywordEntity)
    ensures KeywordToDomain(KeywordToEntity(k)) == k
    ensures KeywordToEntity(KeywordToDomain(e)) == e <==> ValueOf(e.data.matchType).Some?
  {
    NameRoundTrip(k.matchType, k.matchType);
    if ValueOf(e.data.matchType).None? {
      NameRoundTrip(Contains, Contains);
      assert KeywordToEntity(KeywordToDomain(e)).data.matchType != e.data.matchType;
    }
  }

  /** A keyword row built with the table's defaults reads back as a keyword built with the domain's defaults. */
  lemma DefaultRowsMatchDefaultRules(keyword: string, createdAt: int)
    ensures KeywordToDomain(Row(data := KeywordColumns(keyword), createdAt := createdAt))
         == BlockedKeyword(keyword := keyword, createdAt := createdAt)
  {
    NameRoundTrip(Contains, Contains);
  }

  function ChannelToDomain(e: BlockedChannelEntity): BlockedChannel {
    BlockedChannel(e.id, e.data.channelId, e.data.channelName, e.data.channelThumbnail, e.isEnabled, e.createdAt)
  }

  function ChannelToEntity(c: BlockedChannel): BlockedChannelEntity {
    Row(c.id, ChannelColumns(c.channelId, c.channelName, c.channelThumbnail), c.isEnabled, c.createdAt)
  }

  /** The channel mapper loses nothing: `ChannelToEntity` undoes it. */
  lemma ChannelMapperLossless(e: BlockedChannelEntity, c: BlockedChannel)
    ensures ChannelToEntity(ChannelToDomain(e)) == e
    ensures ChannelToDomain(ChannelToEntity(c)) == c
  {
  }

  // ---------------------------------------------------------------------------
  // Blocked terms
  // ---------------------------------------------------------------------------

  /** Every term rule, newest first. */
  function GetAllBlockedTerms(s: Store): (ts: seq<BlockedTerm>)
    requires Valid(s)
    ensures forall t :: t in ts <==> TermToEntity(t) in s.terms.rows
    ensures forall i, j :: 0 <= i < j < |ts| ==> ts[i].createdAt >= ts[j].createdAt
    ensures |ts| == |s.terms.rows|
  {
    var rs := GetAll(s.terms);
    MapInverseMembers(rs, TermToDomain, TermToEntity);
    Map(rs, TermToDomain)
  }

  /** Exactly the enabled term rules. */
  function GetActiveBlockedTerms(s: Store): (ts: seq<BlockedTerm>)
    requires Valid(s)
    ensures forall t :: t in ts <==> TermToEntity(t) in s.terms.rows && t.isEnabled
    ensures |ts| <= |s.terms.rows|
    ensures |ts| == |set e | e in s.terms.rows && e.isEnabled|
    ensures forall i, j :: 0 <= i < j < |ts| ==> ts[i].id < ts[j].id
  {
    var rs := GetActive(s.terms);
    MapInverseMembers(rs, TermToDomain, TermToEntity);
    Map(rs, TermToDomain)
  }

  /**
   * Stores an enabled term rule with a fresh id and returns the store and the
   * id; every earlier rule of every kind stays as it was.
   */
  function AddBlockedTerm(s: Store, term: string, now: int): (res: (Store, int))
    requires Valid(s)
    ensures Valid(res.0)
    ensures res.1 > s.terms.lastId
    ensures BlockedTerm(res.1, term, true, now) in GetActiveBlockedTerms(res.0)
    ensures forall r :: r in s.terms.rows ==> r in res.0.terms.rows
    ensures SameExcept(s.terms.rows, res.0.terms.rows, res.1)
    ensures |res.0.terms.rows| == |s.terms.rows| + 1
    ensures res.0.keywords == s.keywords && res.0.channels == s.channels
  {
    var (t, id) := Insert(s.terms, Row(0, TermColumns(term), true, now));
    assert forall r :: r in s.terms.rows ==> r.id != id;
    (s.(terms := t), id)
  }

  /** Overwrites the term rule with the same id, if there is one. */
  function UpdateBlockedTerm(s: Store, t: BlockedTerm): (s': Store)
    requires Valid(s)
    ensures Valid(s')
    ensures Has(s.terms, t.id) ==> TermToEntity(t) in s'.terms.rows
    ensures SameExcept(s.terms.rows, s'.terms.rows, t.id)
    ensures !Has(s.terms, t.id) ==> s'.terms == s.terms
    ensures |s'.terms.rows| == |s.terms.rows|
    ensures s'.keywords == s.keywords && s'.channels == s.channels
  {
    s.(terms := Update(s.terms, TermToEntity(t)))
  }

  /** Removes the term rule with that id; the others stay. */
  function DeleteBlockedTerm(s: Store, id: int): (s': Store)
    requires Valid(s)
    ensures Valid(s')
    ensures !Has(s'.terms, id)
    ensures SameExcept(s.terms.rows, s'.terms.rows, id)
    ensures s'.keywords == s.keywords && s'.channels == s.channels
  {
    s.(terms := DeleteById(s.terms, id))
  }

  /** Sets the flag of the term rule with that id; nothing else changes. */
  function SetBlockedTermEnabled(s: Store, id: int, isEnabled: bool): (s': Store)
    requires Valid(s)
    ensures Valid(s')
    ensures forall t :: TermToEntity(t) in s.terms.rows && t.id == id ==> TermToEntity(t.(isEnabled := isEnabled)) in s'.terms.rows
    ensures SameExcept(s.terms.rows, s'.terms.rows, id)
    ensures !Has(s.terms, id) ==> s'.terms == s.terms
    ensures |s'.terms.rows| == |s.terms.rows|
    ensures s'.keywords == s.keywords && s'.channels == s.channels
  {
    s.(terms := SetEnabled(s.terms, id, isEnabled))
  }

  // ---------------------------------------------------------------------------
  // Blocked keywords
  // ---------------------------------------------------------------------------

  /** Every keyword rule, newest first. */
  function GetAllBlockedKeywords(s: Store): (ks: seq<BlockedKeyword>)
    requires Valid(s)
    ensures forall e :: e in s.keywords.rows ==> KeywordToDomain(e) in ks
    ensures forall k :: k in ks ==> exists e :: e in s.keywords.rows && KeywordToDomain(e) == k
    ensures forall i, j :: 0 <= i < j < |ks| ==> ks[i].createdAt >= ks[j].createdAt
    ensures |ks| == |s.keywords.rows|
  {
    var rs := GetAll(s.keywords);
    MapMembers(rs, KeywordToDomain);
    Map(rs, KeywordToDomain)
  }

  /** Exactly the enabled keyword rules, mapped to the domain. */
  function GetActiveBlockedKeywords(s: Store): (ks: seq<BlockedKeyword>)
    requires Valid(s)
    ensures forall e :: e in s.keywords.rows && e.isEnabled ==> KeywordToDomain(e) in ks
    ensures forall k :: k in ks ==> k.isEnabled && exists e :: e in s.keywords.rows && KeywordToDomain(e) == k
    ensures |ks| <= |s.keywords.rows|
    ensures |ks| == |set e | e in s.keywords.rows && e.isEnabled|
    ensures forall i, j :: 0 <= i < j < |ks| ==> ks[i].id < ks[j].id
  {
    var rs := GetActive(s.keywords);
    MapMembers(rs, KeywordToDomain);
    Map(rs, KeywordToDomain)
  }

  /** Stores an enabled keyword rule with a fresh id; the match type is stored by name. */
  function AddBlockedKeyword(s: Store, keyword: string, matchType: MatchType, now: int): (res: (Store, int))
    requires Valid(s)
    ensures Valid(res.0)
    ensures res.1 > s.keywords.lastId
    ensures BlockedKeyword(res.1, keyword, matchType, true, now) in GetActiveBlockedKeywords(res.0)
    ensures forall r :: r in s.keywords.rows ==> r in res.0.keywords.rows
    ensures SameExcept(s.keywords.rows, res.0.keywords.rows, res.1)
    ensures |res.0.keywords.rows| == |s.keywords.rows| + 1
    ensures res.0.terms == s.terms && res.0.channels == s.channels
  {
    var (t, id) := Insert(s.keywords, Row(0, KeywordColumns(keyword, matchType.Name()), true, now));
    assert forall r :: r in s.keywords.rows ==> r.id != id;
    NameRoundTrip(matchType, matchType);
    assert KeywordToDomain(Row(id, KeywordColumns(keyword, matchType.Name()), true, now)) == BlockedKeyword(id, keyword, matchType, true, now);
    (s.(keywords := t), id)
  }

  /** Overwrites the keyword rule with the same id, if there is one. */
  function UpdateBlockedKeyword(s: Store, k: BlockedKeyword): (s': Store)
    requires Valid(s)
    ensures Valid(s')
    ensures Has(s.keywords, k.id) ==> KeywordToEntity(k) in s'.keywords.rows
    ensures SameExcept(s.keywords.rows, s'.keywords.rows, k.id)
    ensures !Has(s.keywords, k.id) ==> s'.keywords == s.keywords
    ensures |s'.keywords.rows| == |s.keywords.rows|
    ensures s'.terms == s.terms && s'.channels == s.channels
  {
    s.(keywords := Update(s.keywords, KeywordToEntity(k)))
  }

  /** Removes the keyword rule with that id; the others stay. */
  function DeleteBlockedKeyword(s: Store, id: int): (s': Store)
    requires Valid(s)
    ensures Valid(s')
    ensures !Has(s'.keywords, id)
    ensures SameExcept(s.keywords.rows, s'.keywords.rows, id)
    ensures s'.terms == s.terms && s'.channels == s.channels
  {
    s.(keywords := DeleteById(s.keywords, id))
  }

  /** Sets the flag of the keyword rule with that id; nothing else changes. */
  function SetBlockedKeywordEnabled(s: Store, id: int, isEnabled: bool): (s': Store)
    requires Valid(s)
    ensures Valid(s')
    ensures forall r :: r in s.keywords.rows && r.id == id ==> r.(isEnabled := isEnabled) in s'.keywords.rows
    ensures SameExcept(s.keywords.rows, s'.keywords.rows, id)
    ensures !Has(s.keywords, id) ==> s'.keywords == s.keywords
    ensures |s'.keywords.rows| == |s.keywords.rows|
    ensures s'.terms == s.terms && s'.channels == s.channels
  {
    s.(keywords := SetEnabled(s.keywords, id, isEnabled))
  }

  // ---------------------------------------------------------------------------
  // Blocked channels
  // ---------------------------------------------------------------------------

  /** Every channel rule, newest first. */
  function GetAllBlockedChannels(s: Store): (cs: seq<BlockedChannel>)
    requires Valid(s)
    ensures forall c :: c in cs <==> ChannelToEntity(c) in s.channels.rows
    ensures forall i, j :: 0 <= i < j < |cs| ==> cs[i].createdAt >= cs[j].createdAt
    ensures |cs| == |s.channels.rows|
  {
    var rs := GetAll(s.channels);
    MapInverseMembers(rs, ChannelToDomain, ChannelToEntity);
    Map(rs, ChannelToDomain)
  }

  /** Exactly the enabled channel rules. */
  function GetActiveBlockedChannels(s: Store): (cs: seq<BlockedChannel>)
    requires Valid(s)
    ensures forall c :: c in cs <==> ChannelToEntity(c) in s.channels.rows && c.isEnabled
    ensures |cs| <= |s.channels.rows|
    ensures |cs| == |set e | e in s.channels.rows && e.isEnabled|
    ensures forall i, j :: 0 <= i < j < |cs| ==> cs[i].id < cs[j].id
  {
    var rs := GetActive(s.channels);
    MapInverseMembers(rs, ChannelToDomain, ChannelToEntity);
    Map(rs, ChannelToDomain)
  }

  /** Stores an enabled channel rule with a fresh id, even when the channel already has one. */
  function AddBlockedChannel(s: Store, channelId: string, channelName: string, channelThumbnail: Option<string>, now: int): (res: (Store, int))
    requires Valid(s)
    ensures Valid(res.0)
    ensures res.1 > s.channels.lastId
    ensures BlockedChannel(res.1, channelId, channelName, channelThumbnail, true, now) in GetActiveBlockedChannels(res.0)
    ensures forall r :: r in s.channels.rows ==> r in res.0.channels.rows
    ensures SameExcept(s.channels.rows, res.0.channels.rows, res.1)
    ensures |res.0.channels.rows| == |s.channels.rows| + 1
    ensures res.0.terms == s.terms && res.0.keywords == s.keywords
  {
    var (t, id) := Insert(s.channels, Row(0, ChannelColumns(channelId, channelName, channelThumbnail), true, now));
    assert forall r :: r in s.channels.rows ==> r.id != id;
    (s.(channels := t), id)
  }

  /** Removes the channel rule with that id; the others stay. */
  function DeleteBlockedChannel(s: Store, id: int): (s': Store)
    requires Valid(s)
    ensures Valid(s')
    ensures !Has(s'.channels, id)
    ensures SameExcept(s.channels.rows, s'.channels.rows, id)
    ensures s'.terms == s.terms && s'.keywords == s.keywords
  {
    s.(channels := DeleteById(s.channels, id))
  }

  /** Removes every rule for that channel; rules for other channels stay. */
  function DeleteBlockedChannelByChannelId(s: Store, channelId: string): (s': Store)
    requires Valid(s)
    ensures Valid(s')
    ensures forall c :: c in GetAllBlockedChannels(s') <==> c in GetAllBlockedChannels(s) && c.channelId != channelId
    ensures s'.terms == s.terms && s'.keywords == s.keywords
  {
    s.(channels := BlockedChannelDao.DeleteByChannelId(s.channels, channelId))
  }

  /** Sets the flag of the channel rule with that id; nothing else changes. */
  function SetBlockedChannelEnabled(s: Store, id: int, isEnabled: bool): (s': Store)
    requires Valid(s)
    ensures Valid(s')
    ensures forall c :: ChannelToEntity(c) in s.channels.rows && c.id == id ==> ChannelToEntity(c.(isEnabled := isEnabled)) in s'.channels.rows
    ensures SameExcept(s.channels.rows, s'.channels.rows, id)
    ensures !Has(s.channels, id) ==> s'.channels == s.channels
    ensures |s'.channels.rows| == |s.channels.rows|
    ensures s'.terms == s.terms && s'.keywords == s.keywords
  {
    s.(channels := SetEnabled(s.channels, id, isEnabled))
  }

  /** Some enabled rule names the channel. */
  function IsChannelBlocked(s: Store, channelId: string): (b: bool)
    requires Valid(s)
    ensures b <==> exists c :: c in GetActiveBlockedChannels(s) && c.channelId == channelId
  {
    var b := BlockedChannelDao.IsChannelBlocked(s.channels, channelId);
    if b then
      var r :| r in s.channels.rows && r.data.channelId == channelId && r.isEnabled;
      assert ChannelToDomain(r) in GetActiveBlockedChannels(s);
      b
    else b
  }
}

=== FILE: filter_rule.dfy ===
/**
 * The domain form of the three kinds of filter rule, as the filtering code
 * sees them. A new rule has id 0 (the table assigns the real one) and is
 * enabled; the creation time, which the app reads from the clock, is always
 * passed explicitly here.
 */
module FilterRule {
  import opened Wrappers
  import opened Entities

  /** A search term; it has no match type, as terms are only ever compared by substring. */
  datatype BlockedTerm = BlockedTerm(id: int := 0, term: string, isEnabled: bool := true, createdAt: int)

  datatype BlockedKeyword = BlockedKeyword(
    id: int := 0,
    keyword: string,
    matchType: MatchType := Contains,
    isEnabled: bool := true,
    createdAt: int)

  /** `id` is the table's key; `channelId` is YouTube's id for the channel. */
  datatype BlockedChannel = BlockedChannel(
    id: int := 0,
    channelId: string,
    channelName: string,
    channelThumbnail: Option<string> := None,
    isEnabled: bool := true,
    createdAt: int)

  /** A rule built from its required fields alone is enabled, unsaved, and a keyword is `CONTAINS`. */
  lemma NewRuleDefaults(text: string, name: string, createdAt: int)
    ensures var t := BlockedTerm(term := text, createdAt := createdAt);
      t.id == 0 && t.isEnabled
    ensures var k := BlockedKeyword(keyword := text, createdAt := createdAt);
      k.id == 0 && k.isEnabled && k.matchType == Contains
    ensures var c := BlockedChannel(channelId := text, channelName := name, createdAt := createdAt);
      c.id == 0 && c.isEnabled && c.channelThumbnail == None && c.channelId == text
  {
  }
}

=== FILE: manage_filters.dfy ===
/**
 * The rule-management use case. Terms and keywords are trimmed before they
 * are stored; channel ids are stored as given. Every other operation hands
 * its arguments to the repository unchanged.
 */
module ManageFilters {
  import opened Wrappers
  import opened Text
  import RuleTable
  import opened Entities
  import opened FilterRule
  import opened FilterRepository
  import ContentFilterEngine

  /** `addBlockedTerm`: stores the trimmed term as a new enabled rule and returns its id. */
  function AddBlockedTerm(s: Store, term: string, now: int): (res: (Store, int))
    requires Valid(s)
    ensures Valid(res.0)
    ensures res.1 > s.terms.lastId
    ensures BlockedTerm(res.1, Trim(term), true, now) in GetActiveBlockedTerms(res.0)
    ensures RuleTable.SameExcept(s.terms.rows, res.0.terms.rows, res.1)
    ensures res.0.keywords == s.keywords && res.0.channels == s.channels
  {
    FilterRepository.AddBlockedTerm(s, Trim(term), now)
  }

  /** `addBlockedKeyword`: stores the trimmed keyword with its policy and returns its id. */
  function AddBlockedKeyword(s: Store, keyword: string, matchType: MatchType, now: int): (res: (Store, int))
    requires Valid(s)
    ensures Valid(res.0)
    ensures res.1 > s.keywords.lastId
    ensures BlockedKeyword(res.1, Trim(keyword), matchType, true, now) in GetActiveBlockedKeywords(res.0)
    ensures RuleTable.SameExcept(s.keywords.rows, res.0.keywords.rows, res.1)
    ensures res.0.terms == s.terms && res.0.channels == s.channels
  {
    FilterRepository.AddBlockedKeyword(s, Trim(keyword), matchType, now)
  }

  /** `addBlockedChannel`: stores the channel id exactly as given, without trimming. */
  function AddBlockedChannel(s: Store, channelId: string, channelName: string, channelThumbnail: Option<string>, now: int): (res: (Store, int))
    requires Valid(s)
    ensures Valid(res.0)
    ensures res.1 > s.channels.lastId
    ensures BlockedChannel(res.1, channelId, channelName, channelThumbnail, true, now) in GetActiveBlockedChannels(res.0)
    ensures RuleTable.SameExcept(s.channels.rows, res.0.channels.rows, res.1)
    ensures res.0.terms == s.terms && res.0.keywords == s.keywords
  {
    FilterRepository.AddBlockedChannel(s, channelId, channelName, channelThumbnail, now)
  }

  /** A string is its own substring. */
  lemma InfixOfItself(s: string)
    ensures IsInfix(s, s)
  {
    assert OccursAt(s, s, 0);
  }

  /**
   * Once a term is added, a search for the same text, in any letter case and
   * with any surrounding whitespace, is blocked.
   */
  lemma AddedTermBlocksItsOwnSearch(s: Store, term: string, now: int)
    requires Valid(s)
    ensures ContentFilterEngine.IsSearchTermBlocked(AddBlockedTerm(s, term, now).0, term)
  {
    var (s', id) := AddBlockedTerm(s, term, now);
    var t := BlockedTerm(id, Trim(term), true, now);
    assert TermToEntity(t) in s'.terms.rows;
    TrimLowerCommute(term);
    InfixOfItself(Lower(Trim(term)));
    assert TermToEntity(t).isEnabled && IsInfix(Lower(TermToEntity(t).data.term), Trim(Lower(term)));
  }

  /**
   * A term made only of whitespace is stored as the empty string, and the
   * empty string occurs in every query: every search is blocked from then on.
   */
  lemma BlankTermBlocksEverySearch(s: Store, term: string, now: int, query: string)
    requires Valid(s)
    requires forall k :: 0 <= k < |term| ==> IsWhitespace(term[k])
    ensures ContentFilterEngine.IsSearchTermBlocked(AddBlockedTerm(s, term, now).0, query)
  {
    var (s', id) := AddBlockedTerm(s, term, now);
    var t := BlockedTerm(id, Trim(term), true, now);
    assert Trim(term) == [];
    assert TermToEntity(t) in s'.terms.rows;
    assert Lower([]) == [];
    EmptyIsInfix(Trim(Lower(query)));
    assert TermToEntity(t).isEnabled && IsInfix(Lower(TermToEntity(t).data.term), Trim(Lower(query)));
  }

  /** The trimmed form of `s`, lower-cased, occurs in `s` lower-cased. */
  lemma TrimmedLowerOccurs(s: string)
    ensures IsInfix(Lower(Trim(s)), Lower(s))
  {
    var r := Trim(s);
    var i :| TrimmedAt(s, r, i);
    SliceOccursLowered(s, r, i);
  }

  /** A slice of `s`, lower-cased, occurs in `s` lower-cased at the same index. */
  lemma SliceOccursLowered(s: string, r: string, i: int)
    requires 0 <= i && i + |r| <= |s| && r == s[i..i + |r|]
    ensures OccursAt(Lower(s), Lower(r), i)
  {
    LowerSlice(s, i, i + |r|);
  }

  /** An added `CONTAINS` keyword matches the text it was typed as. */
  lemma AddedContainsKeywordMatchesItself(s: Store, keyword: string, now: int)
    requires Valid(s)
    ensures exists k :: k in GetActiveBlockedKeywords(AddBlockedKeyword(s, keyword, Contains, now).0)
                     && ContentFilterEngine.MatchesKeyword(keyword, k)
  {
    var (s', id) := AddBlockedKeyword(s, keyword, Contains, now);
    var k := BlockedKeyword(id, Trim(keyword), Contains, true, now);
    TrimmedLowerOccurs(keyword);
    assert ContentFilterEngine.MatchesKeyword(keyword, k);
  }

  /**
   * A keyword made only of whitespace is stored empty; with `CONTAINS` or
   * `STARTS_WITH` it then hides every video by its title.
   */
  lemma BlankLooseKeywordBlocksEveryTitle(s: Store, keyword: string, matchType: MatchType, now: int, title: string)
    requires Valid(s)
    requires matchType != ExactWord
    requires forall k :: 0 <= k < |keyword| ==> IsWhitespace(keyword[k])
    ensures ContentFilterEngine.IsTitleBlocked(title, GetActiveBlockedKeywords(AddBlockedKeyword(s, keyword, matchType, now).0))
  {
    var (s', id) := AddBlockedKeyword(s, keyword, matchType, now);
    var k := BlockedKeyword(id, Trim(keyword), matchType, true, now);
    assert Trim(keyword) == [];
    assert Lower([]) == [];
    EmptyIsInfix(Lower(title));
    assert ContentFilterEngine.MatchesKeyword(title, k);
  }

  /**
   * Adding a channel blocks that exact id and changes the answer for no
   * other id: an id typed with stray spaces blocks nothing else.
   */
  lemma AddedChannelBlocksOnlyItsId(s: Store, channelId: string, channelName: string, channelThumbnail: Option<string>, now: int, other: string)
    requires Valid(s)
    ensures IsChannelBlocked(AddBlockedChannel(s, channelId, channelName, channelThumbnail, now).0, channelId)
    ensures other != channelId ==>
      IsChannelBlocked(AddBlockedChannel(s, channelId, channelName, channelThumbnail, now).0, other) == IsChannelBlocked(s, other)
  {
    var (s', id) := AddBlockedChannel(s, channelId, channelName, channelThumbnail, now);
    assert BlockedChannel(id, channelId, channelName, channelThumbnail, true, now) in GetActiveBlockedChannels(s');
    if other != channelId {
      if IsChannelBlocked(s', other) {
        var c :| c in GetActiveBlockedChannels(s') && c.channelId == other;
        var e := ChannelToEntity(c);
        assert e in s'.channels.rows;
        forall x, y | x in s'.channels.rows && y in s'.channels.rows && x.id == y.id ensures x == y {
          RuleTable.KeyIsUnique(s'.channels, x, y);
        }
        assert ChannelToEntity(BlockedChannel(id, channelId, channelName, channelThumbnail, true, now)) in s'.channels.rows;
        assert e.id != id;
        assert e in s.channels.rows;
        assert c in GetActiveBlockedChannels(s);
      }
      if IsChannelBlocked(s, other) {
        var c :| c in GetActiveBlockedChannels(s) && c.channelId == other;
        assert ChannelToEntity(c) in s'.channels.rows;
        assert c in GetActiveBlockedChannels(s');
      }
    }
  }
}

=== FILE: match_examples.dfy ===
/**
 * The documented behaviour of the three match policies on small inputs, and
 * the consequences of escaping the keyword and wrapping it in `\b`.
 */
module MatchExamples {
  import opened Text
  import opened Entities
  import opened FilterRule
  import opened ContentFilterEngine

  /** An enabled keyword rule with the given text and policy. */
  function Rule(keyword: string, matchType: MatchType): BlockedKeyword {
    BlockedKeyword(0, keyword, matchType, true, 0)
  }

  // Each example takes its text and keyword as parameters pinned by `requires`,
  // so that the verifier reasons about the match rather than unfolding it.

  /** `EXACT_WORD` "news" matches the word "News" on its own. */
  lemma ExactWordMatchesWord(text: string, keyword: string)
    requires text == "News" && keyword == "news"
    ensures MatchesKeyword(text, Rule(keyword, ExactWord))
  {
    assert Lower(text) == keyword;
    LowerOfLowerCase(keyword);
    assert WholeWordAt(keyword, keyword, 0);
  }

  /** `EXACT_WORD` "news" matches between spaces. */
  lemma ExactWordMatchesInSentence(text: string, keyword: string)
    requires text == "fake news" && keyword == "news"
    ensures MatchesKeyword(text, Rule(keyword, ExactWord))
  {
    LowerOfLowerCase(text);
    LowerOfLowerCase(keyword);
    assert text[5..9] == keyword;
    assert WholeWordAt(text, keyword, 5);
  }

  /** `EXACT_WORD` "news" does not match inside the longer word "newscaster". */
  lemma ExactWordSkipsLongerWord(text: string, keyword: string)
    requires text == "Newscaster" && keyword == "news"
    ensures !MatchesKeyword(text, Rule(keyword, ExactWord))
  {
    LowerNewscaster(text);
    LowerOfLowerCase(keyword);
    NewsNotWholeWordIn(Lower(text), keyword);
  }

  lemma LowerNewscaster(text: string)
    requires text == "Newscaster"
    ensures Lower(text) == "newscaster"
  {
    assert forall i :: 0 <= i < |text| ==> Lower(text)[i] == "newscaster"[i];
  }

  lemma NewsNotWholeWordIn(s: string, keyword: string)
    requires s == "newscaster" && keyword == "news"
    ensures !HasWholeWord(s, keyword)
  {
    forall i ensures !WholeWordAt(s, keyword, i) {
      if 0 < i && i + 4 <= |s| {
        assert s[i..i + 4][0] == s[i];
      }
    }
  }

  /** `CONTAINS` "news" matches inside "newscaster" and as a separate word, but not in "new". */
  lemma ContainsExamples()
    ensures MatchesKeyword("newscaster", Rule("news", Contains))
    ensures MatchesKeyword("fake news", Rule("news", Contains))
    ensures !MatchesKeyword("new", Rule("news", Contains))
  {
    ContainsInsideWord("newscaster", "news");
    ContainsSeparateWord("fake news", "news");
    ContainsNotInShorter("new", "news");
  }

  lemma ContainsInsideWord(text: string, keyword: string)
    requires text == "newscaster" && keyword == "news"
    ensures MatchesKeyword(text, Rule(keyword, Contains))
  {
    LowerOfLowerCase(text);
    LowerOfLowerCase(keyword);
    assert OccursAt(text, keyword, 0) by {
      assert text[0..4] == keyword;
    }
  }

  lemma ContainsSeparateWord(text: string, keyword: string)
    requires text == "fake news" && keyword == "news"
    ensures MatchesKeyword(text, Rule(keyword, Contains))
  {
    LowerOfLowerCase(text);
    LowerOfLowerCase(keyword);
    assert OccursAt(text, keyword, 5) by {
      assert text[5..9] == keyword;
    }
  }

  /** `CONTAINS` never matches a text shorter than the keyword. */
  lemma ContainsNotInShorter(text: string, keyword: string)
    requires |text| < |keyword|
    ensures !MatchesKeyword(text, Rule(keyword, Contains))
  {
  }

  /** `STARTS_WITH` "news" matches a word that begins with it, at the start of the text. */
  lemma StartsWithMatchesFirstWord(text: string, keyword: string)
    requires text == "newscaster" && keyword == "news"
    ensures MatchesKeyword(text, Rule(keyword, StartsWith))
  {
    assert StartsSomeWord(text, keyword) by {
      assert text[0..4] == keyword;
      assert NoRegexSpace(keyword);
      assert OccursAt(text, keyword, 0) && WordStart(text, 0);
    }
    LowerOfLowerCase(text);
    LowerOfLowerCase(keyword);
  }

  /** `STARTS_WITH` "news" matches a later word, after a space. */
  lemma StartsWithMatchesLaterWord(text: string, keyword: string)
    requires text == "fake news" && keyword == "news"
    ensures MatchesKeyword(text, Rule(keyword, StartsWith))
  {
    LowerOfLowerCase(text);
    LowerOfLowerCase(keyword);
    NewsStartsSecondWord(text, keyword);
  }

  lemma NewsStartsSecondWord(text: string, keyword: string)
    requires text == "fake news" && keyword == "news"
    ensures StartsSomeWord(text, keyword)
  {
    assert text[5..9] == keyword;
    assert OccursAt(text, keyword, 5) && WordStart(text, 5);
  }

  /** `STARTS_WITH` "news" does not match "renews", where it only ends a word. */
  lemma StartsWithSkipsWordInterior(text: string, keyword: string)
    requires text == "renews" && keyword == "news"
    ensures !MatchesKeyword(text, Rule(keyword, StartsWith))
  {
    LowerOfLowerCase(text);
    LowerOfLowerCase(keyword);
    forall p ensures !(OccursAt(text, keyword, p) && WordStart(text, p)) {
      if 0 <= p && p + 4 <= |text| {
        assert text[p..p + 4][0] == text[p];
      }
    }
  }

  /**
   * Because the keyword is wrapped in `\b`, an `EXACT_WORD` keyword ending in
   * a non-word character cannot match at the end of the text: "c++" does not
   * match "i like c++" ...
   */
  lemma ExactWordNonWordEdgeAtEnd(text: string, keyword: string)
    requires text == "i like c++" && keyword == "c++"
    ensures !MatchesKeyword(text, Rule(keyword, ExactWord))
  {
    LowerOfLowerCase(text);
    LowerOfLowerCase(keyword);
    CppNotWholeWordAtEnd(text, keyword);
  }

  lemma CppNotWholeWordAtEnd(text: string, keyword: string)
    requires text == "i like c++" && keyword == "c++"
    ensures !HasWholeWord(text, keyword)
  {
    forall i ensures !WholeWordAt(text, keyword, i) {
      if 0 <= i && i + 3 <= |text| {
        assert text[i..i + 3][0] == text[i];
      }
    }
  }

  /** ... but it does match when a word character follows, as in "c++11". */
  lemma ExactWordNonWordEdgeBeforeWord(text: string, keyword: string)
    requires text == "c++11" && keyword == "c++"
    ensures MatchesKeyword(text, Rule(keyword, ExactWord))
  {
    LowerOfLowerCase(text);
    LowerOfLowerCase(keyword);
    assert text[0..3] == keyword;
    assert WholeWordAt(text, keyword, 0);
  }

  /** The keyword is escaped, so "." in it is a literal dot, not any character. */
  lemma KeywordIsLiteral(text: string, keyword: string)
    requires text == "axb" && keyword == "a.b"
    ensures !MatchesKeyword(text, Rule(keyword, ExactWord))
    ensures !MatchesKeyword(text, Rule(keyword, Contains))
  {
    LowerOfLowerCase(text);
    LowerOfLowerCase(keyword);
    forall i ensures !OccursAt(text, keyword, i) {
      if i == 0 {
        assert text[0..3][1] == 'x';
      }
    }
  }

  /** `EXACT_WORD` never matches an empty text: it has no word boundary. */
  lemma ExactWordNeverMatchesEmptyText(keyword: string)
    ensures !MatchesKeyword("", Rule(keyword, ExactWord))
  {
    assert Lower("") == "";
    NoWholeWordInEmpty(Lower(keyword));
  }

  /**
   * An empty keyword: `CONTAINS` and `STARTS_WITH` match every text, and
   * `EXACT_WORD` matches exactly the texts with a word boundary somewhere,
   * that is, the texts holding a word character.
   */
  lemma {:induction false} EmptyKeyword(text: string, matchType: MatchType)
    ensures matchType != ExactWord ==> MatchesKeyword(text, Rule("", matchType))
    ensures matchType == ExactWord ==>
      (MatchesKeyword(text, Rule("", matchType)) <==> exists i :: 0 <= i < |text| && IsWordChar(text[i]))
  {
    var t := Lower(text);
    assert Lower("") == "";
    EmptyIsInfix(t);
    assert OccursAt(t, "", 0) && WordStart(t, 0);
    if exists i :: 0 <= i < |text| && IsWordChar(text[i]) {
      var i :| 0 <= i < |text| && IsWordChar(text[i]);
      LowerCharKeepsClass(text[i]);
      FirstWordChar(t, i);
      var p :| 0 <= p <= i && Boundary(t, p);
      assert WholeWordAt(t, "", p);
    }
    if HasWholeWord(t, "") {
      var p :| WholeWordAt(t, "", p);
      var q := if WordAt(t, p) then p else p - 1;
      assert WordAt(t, q);
      LowerCharKeepsClass(text[q]);
      assert 0 <= q < |text| && IsWordChar(text[q]);
    }
  }

  /** A string with a word character at `i` has a word boundary at or before `i`. */
  lemma {:induction false} FirstWordChar(t: string, i: int)
    requires 0 <= i < |t| && IsWordChar(t[i])
    ensures exists p :: 0 <= p <= i && Boundary(t, p)
    decreases i
  {
    if Boundary(t, i) {
    } else {
      FirstWordChar(t, i - 1);
    }
  }
}

=== FILE: pin_entry.dfy ===
/**
 * The PIN entry screen's state machine: digits are collected up to the PIN
 * length, a complete PIN is checked, and failures are counted with a short
 * lockout from the third failure and a long one from the tenth. The
 * coroutines run on the main dispatcher, so a check happens within the call
 * that completes the PIN; the countdown is a `Tick` event per elapsed second.
 */
module PinEntry {
  import opened Wrappers
  import opened Text
  import SP = SecurePrefs

  const PinMinLength := 4
  const PinMaxAttempts := 10
  const ShortLockoutMs := 30_000
  const LongLockoutMs := 300_000

  datatype UiState = UiState(
    pinLength: int := PinMinLength,
    currentPin: string := "",
    error: Option<string> := None,
    pinVerified: bool := false,
    isLockedOut: bool := false,
    lockoutRemainingSeconds: int := 0)

  /** The screen state together with the secure store it reads and writes. */
  datatype Vm = Vm(ui: UiState, prefs: SP.Prefs)

  /**
   * The state the screen keeps: the entered PIN never exceeds the PIN
   * length, and a countdown is running exactly while the screen is locked.
   */
  ghost predicate Inv(vm: Vm) {
    && SP.Valid(vm.prefs)
    && vm.ui.pinLength == PinMinLength
    && |vm.ui.currentPin| <= vm.ui.pinLength
    && (vm.ui.isLockedOut <==> vm.ui.lockoutRemainingSeconds > 0)
    && 0 <= vm.ui.lockoutRemainingSeconds <= LongLockoutMs / 1000
  }

  /**
   * `loadPinLength()`: the length of `getPin()`, or the minimum length when
   * no PIN is set. `getPin()` is "0000" whenever a PIN is set, so the result
   * is 4 either way.
   */
  function LoadPinLength(prefs: SP.Prefs): (n: int)
    ensures n == PinMinLength
  {
    var saved := SP.GetPin(prefs);
    if saved.Some? then |saved.value| else PinMinLength
  }

  /** The screen as it opens. */
  function Init(prefs: SP.Prefs): (vm: Vm)
    requires SP.Valid(prefs)
    ensures Inv(vm)
    ensures vm.ui.currentPin == [] && !vm.ui.pinVerified && !vm.ui.isLockedOut && vm.ui.error == None
  {
    Vm(UiState(pinLength := LoadPinLength(prefs)), prefs)
  }

  /** Kotlin's `Int` subtraction, which wraps around. */
  function Sub32(a: int, b: int): (r: int)
    requires SP.IntMin <= a <= SP.IntMax && SP.IntMin <= b <= SP.IntMax
    ensures SP.IntMin <= r <= SP.IntMax
    ensures SP.IntMin <= a - b <= SP.IntMax ==> r == a - b
  {
    var d := a - b;
    if d > SP.IntMax then d - 0x1_0000_0000
    else if d < SP.IntMin then d + 0x1_0000_0000
    else d
  }

  /** The message shown after a failure that does not lock the screen. */
  function RemainingMessage(attempts: int): (m: string)
    requires SP.IntMin <= attempts <= SP.IntMax
    ensures 0 <= attempts <= PinMaxAttempts ==>
      m == "Incorrect PIN. " + NatToString(PinMaxAttempts - attempts) + " attempts remaining."
  {
    "Incorrect PIN. " + IntToString(Sub32(PinMaxAttempts, attempts)) + " attempts remaining."
  }

  /**
   * `startLockout(durationMs)`: the entered PIN and the error are cleared
   * and the countdown starts at the duration in whole seconds.
   */
  function StartLockout(vm: Vm, durationMs: int): (vm': Vm)
    requires durationMs == ShortLockoutMs || durationMs == LongLockoutMs
    ensures vm'.ui.isLockedOut && vm'.ui.lockoutRemainingSeconds * 1000 == durationMs
    ensures vm'.ui.currentPin == [] && vm'.ui.error == None
    ensures vm'.prefs == vm.prefs && vm'.ui.pinLength == vm.ui.pinLength && vm'.ui.pinVerified == vm.ui.pinVerified
  {
    var seconds := durationMs / 1000;
    vm.(ui := vm.ui.(currentPin := "", isLockedOut := true, lockoutRemainingSeconds := seconds, error := None))
  }

  /**
   * The body of `verifyPin` once the comparison's outcome `correct` is
   * known: success resets the counter and marks the PIN verified; a failure
   * counts, and locks the screen for 300 s from the tenth failure, for 30 s
   * from the third, and otherwise clears the PIN and says how many attempts
   * are left.
   */
  function Verify(vm: Vm, correct: bool, now: int): (vm': Vm)
    requires Inv(vm) && !vm.ui.isLockedOut
    ensures Inv(vm')
    ensures correct ==> vm'.ui.pinVerified && SP.GetFailedAttempts(vm'.prefs) == 0 && !vm'.ui.isLockedOut
    ensures !correct ==> vm'.ui.pinVerified == vm.ui.pinVerified
    ensures !correct ==>
      var attempts := SP.GetFailedAttempts(vm'.prefs);
      && (SP.GetFailedAttempts(vm.prefs) < SP.IntMax ==> attempts == SP.GetFailedAttempts(vm.prefs) + 1)
      && (attempts >= PinMaxAttempts ==> vm'.ui.isLockedOut && vm'.ui.lockoutRemainingSeconds == 300)
      && (3 <= attempts < PinMaxAttempts ==> vm'.ui.isLockedOut && vm'.ui.lockoutRemainingSeconds == 30)
      && (attempts < 3 ==> !vm'.ui.isLockedOut && vm'.ui.currentPin == [] && vm'.ui.error == Some(RemainingMessage(attempts)))
  {
    if correct then
      vm.(prefs := SP.ResetFailedAttempts(vm.prefs), ui := vm.ui.(pinVerified := true))
    else
      var (prefs, attempts) := SP.IncrementFailedAttempts(vm.prefs, now);
      var failed := vm.(prefs := prefs);
      if attempts >= PinMaxAttempts then StartLockout(failed, LongLockoutMs)
      else if attempts >= 3 then StartLockout(failed, ShortLockoutMs)
      else failed.(ui := failed.ui.(currentPin := "", error := Some(RemainingMessage(attempts))))
  }

  /**
   * `updatePin(pin)`, with the outcome of the PIN comparison it would
   * make passed as `correct`: ignored while locked or when too long;
   * otherwise the PIN is shown, the error cleared, and a complete PIN checked.
   */
  function UpdatePinWith(vm: Vm, pin: string, correct: bool, now: int): (vm': Vm)
    requires Inv(vm)
    ensures Inv(vm')
    ensures vm.ui.isLockedOut || |pin| > vm.ui.pinLength ==> vm' == vm
    ensures !vm.ui.isLockedOut && |pin| < vm.ui.pinLength ==>
      vm' == vm.(ui := vm.ui.(currentPin := pin, error := None))
    ensures vm'.ui.pinVerified && !vm.ui.pinVerified ==> correct && |pin| == vm.ui.pinLength
    ensures !vm.ui.isLockedOut && |pin| == vm.ui.pinLength ==>
      && vm' == Verify(vm.(ui := vm.ui.(currentPin := pin, error := None)), correct, now)
      && (vm'.ui.pinVerified <==> vm.ui.pinVerified || correct)
  {
    if vm.ui.isLockedOut || |pin| > vm.ui.pinLength then vm
    else
      var shown := vm.(ui := vm.ui.(currentPin := pin, error := None));
      if |pin| == shown.ui.pinLength then Verify(shown, correct, now) else shown
  }

  /** The comparison as the screen makes it: the entered PIN against `getPin()`. */
  function AsWrittenCheck(prefs: SP.Prefs, pin: string): (b: bool)
    ensures b <==> SP.IsPinSet(prefs) && pin == "0000"
  {
    SP.GetPin(prefs) == Some(pin)
  }

  /** `updatePin(pin)` as the screen does it, comparing with `getPin()`. */
  function UpdatePin(vm: Vm, pin: string, now: int): (vm': Vm)
    requires Inv(vm)
    ensures Inv(vm')
    ensures vm'.ui.pinVerified && !vm.ui.pinVerified ==> pin == "0000" && SP.IsPinSet(vm.prefs)
    ensures !vm.ui.isLockedOut && |pin| == vm.ui.pinLength ==>
      (vm'.ui.pinVerified <==> vm.ui.pinVerified || (pin == "0000" && SP.IsPinSet(vm.prefs)))
  {
    UpdatePinWith(vm, pin, AsWrittenCheck(vm.prefs, pin), now)
  }

  /** `updatePin(pin)` checking the PIN against the stored salted hash with `verifyPin`. */
  function UpdatePinChecked(vm: Vm, pin: string, hash: (string, string) -> string, now: int): (vm': Vm)
    requires Inv(vm)
    ensures Inv(vm')
    ensures vm'.ui.pinVerified && !vm.ui.pinVerified ==> SP.VerifyPin(vm.prefs, pin, hash)
    ensures !vm.ui.isLockedOut && |pin| == vm.ui.pinLength ==>
      (vm'.ui.pinVerified <==> vm.ui.pinVerified || SP.VerifyPin(vm.prefs, pin, hash))
  {
    UpdatePinWith(vm, pin, SP.VerifyPin(vm.prefs, pin, hash), now)
  }

  /**
   * One second of the countdown: the remaining time drops by one, and when
   * the last second is over the screen unlocks. The failure count is kept.
   */
  function Tick(vm: Vm): (vm': Vm)
    requires Inv(vm)
    ensures Inv(vm')
    ensures vm'.prefs == vm.prefs
    ensures vm.ui.isLockedOut ==> vm'.ui.lockoutRemainingSeconds == vm.ui.lockoutRemainingSeconds - 1
    ensures !vm.ui.isLockedOut ==> vm' == vm
  {
    if !vm.ui.isLockedOut then vm
    else if vm.ui.lockoutRemainingSeconds > 1 then
      vm.(ui := vm.ui.(lockoutRemainingSeconds := vm.ui.lockoutRemainingSeconds - 1))
    else
      vm.(ui := vm.ui.(isLockedOut := false, lockoutRemainingSeconds := 0))
  }

  /** `n` seconds of the countdown. */
  function Ticks(vm: Vm, n: nat): (vm': Vm)
    requires Inv(vm)
    ensures Inv(vm')
    ensures vm'.prefs == vm.prefs
    decreases n
  {
    if n == 0 then vm else Ticks(Tick(vm), n - 1)
  }

  /** A lockout lasts exactly its length in seconds: locked one second before, unlocked at the end. */
  lemma {:induction false} LockoutLastsItsSeconds(vm: Vm)
    requires Inv(vm) && vm.ui.isLockedOut
    ensures Ticks(vm, vm.ui.lockoutRemainingSeconds - 1).ui.isLockedOut
    ensures !Ticks(vm, vm.ui.lockoutRemainingSeconds).ui.isLockedOut
    decreases vm.ui.lockoutRemainingSeconds
  {
    var r := vm.ui.lockoutRemainingSeconds;
    if r > 1 {
      LockoutLastsItsSeconds(Tick(vm));
      assert Ticks(vm, r - 1) == Ticks(Tick(vm), r - 2);
    }
  }

  /**
   * The end of a lockout does not reset the count, so once three failures
   * are on record every further wrong PIN locks the screen again.
   */
  lemma RelockAfterLockout(vm: Vm, pin: string, correct: bool, now: int)
    requires Inv(vm) && !vm.ui.isLockedOut
    requires 3 <= SP.GetFailedAttempts(vm.prefs) < SP.IntMax
    requires |pin| == vm.ui.pinLength && !correct
    ensures UpdatePinWith(vm, pin, correct, now).ui.isLockedOut
  {
  }

  /** The first two failures leave the screen unlocked with 9 and then 8 attempts announced. */
  lemma FirstFailuresWarn(vm: Vm, pin: string, now: int)
    requires Inv(vm) && !vm.ui.isLockedOut && SP.GetFailedAttempts(vm.prefs) == 0
    requires |pin| == vm.ui.pinLength
    ensures var vm1 := UpdatePinWith(vm, pin, false, now);
      && vm1.ui.error == Some("Incorrect PIN. " + "9" + " attempts remaining.")
      && UpdatePinWith(vm1, pin, false, now).ui.error == Some("Incorrect PIN. " + "8" + " attempts remaining.")
      && UpdatePinWith(UpdatePinWith(vm1, pin, false, now), pin, false, now).ui.isLockedOut
  {
    var vm1 := UpdatePinWith(vm, pin, false, now);
    FirstTwoMessages();
    assert SP.GetFailedAttempts(vm1.prefs) == 1;
  }

  lemma FirstTwoMessages()
    ensures RemainingMessage(1) == "Incorrect PIN. " + "9" + " attempts remaining."
    ensures RemainingMessage(2) == "Incorrect PIN. " + "8" + " attempts remaining."
  {
    assert NatToString(9) == "9";
    assert NatToString(8) == "8";
  }

  /**
   * As the screen is written, a saved PIN "1234" is refused when typed and
   * the placeholder "0000" is accepted instead.
   */
  lemma AsWrittenAcceptsPlaceholder(p: SP.Prefs, salt: string, hash: (string, string) -> string, now: int)
    requires SP.Valid(p)
    ensures var vm := Init(SP.SavePin(p, "1234", salt, hash));
      && UpdatePin(vm, "0000", now).ui.pinVerified
      && !UpdatePin(vm, "1234", now).ui.pinVerified
  {
    var vm := Init(SP.SavePin(p, "1234", salt, hash));
    assert |"1234"| == 4 && "1234" != "0000";
  }

  /**
   * Checked with `verifyPin`, and with a hash that separates PINs under one
   * salt, a complete PIN is accepted exactly when it is the saved one.
   */
  lemma CheckedAcceptsExactlySavedPin(p: SP.Prefs, saved: string, entered: string, salt: string, hash: (string, string) -> string, now: int)
    requires SP.Valid(p)
    requires forall a, b :: hash(a, salt) == hash(b, salt) ==> a == b
    requires |entered| == PinMinLength
    ensures UpdatePinChecked(Init(SP.SavePin(p, saved, salt, hash)), entered, hash, now).ui.pinVerified <==> entered == saved
  {
    SP.VerifyOnlySavedPin(p, saved, entered, salt, hash);
  }
}

=== FILE: pin_pad.dfy ===
/**
 * The decision logic of the PIN pad: which grid cell is a digit, and when a
 * digit or backspace press changes the entered PIN. The drawing is left out.
 */
module PinPad {
  import opened Wrappers
  import opened Text

  /** The pad's rows; -1 is the empty cell and -2 the backspace key. */
  const Grid: seq<seq<int>> := [[1, 2, 3], [4, 5, 6], [7, 8, 9], [-1, 0, -2]]

  const EmptyCell := -1
  const BackspaceCell := -2

  /** What a cell of the grid is drawn as. */
  datatype Key = Blank | Backspace | Digit(d: int)

  /** The `when (number)` dispatch over a cell's value. */
  function KeyOf(cell: int): (k: Key)
    ensures k.Digit? <==> cell != EmptyCell && cell != BackspaceCell
    ensures k.Digit? ==> k.d == cell
  {
    if cell == EmptyCell then Blank
    else if cell == BackspaceCell then Backspace
    else Digit(cell)
  }

  /** The grid has only the ten digits and the two sentinels, and each digit once. */
  lemma GridCells()
    ensures forall i, j :: 0 <= i < |Grid| && 0 <= j < |Grid[i]| ==>
      Grid[i][j] == EmptyCell || Grid[i][j] == BackspaceCell || 0 <= Grid[i][j] <= 9
    ensures forall d :: 0 <= d <= 9 ==> OnGrid(d)
    ensures forall i, j :: 0 <= i < |Grid| && 0 <= j < |Grid[i]| && KeyOf(Grid[i][j]).Digit? ==> 0 <= KeyOf(Grid[i][j]).d <= 9
  {
    forall d | 0 <= d <= 9
      ensures OnGrid(d)
    {
      if d == 0 {
        assert Grid[3][1] == d;
      } else {
        assert Grid[(d - 1) / 3][(d - 1) % 3] == d;
      }
    }
  }

  /** `onDigitClick(digit)` in `PinInput`: the new PIN to report, if any. */
  function OnDigit(currentPin: string, pinLength: int, digit: int): (r: Option<string>)
    ensures r.Some? <==> |currentPin| < pinLength
    ensures r.Some? ==> r.value == currentPin + IntToString(digit)
  {
    if |currentPin| < pinLength then Some(currentPin + IntToString(digit)) else None
  }

  /** `onBackspaceClick()` in `PinInput`: the PIN without its last character, if any. */
  function OnBackspace(currentPin: string): (r: Option<string>)
    ensures r.Some? <==> currentPin != []
    ensures r.Some? ==> r.value + [currentPin[|currentPin| - 1]] == currentPin
  {
    if currentPin != [] then Some(currentPin[..|currentPin| - 1]) else None
  }

  /** A press of a grid cell: the PIN reported to the screen, if any. */
  function Press(currentPin: string, pinLength: int, cell: int): (r: Option<string>)
    ensures KeyOf(cell) == Blank ==> r == None
    ensures KeyOf(cell) == Backspace ==> r == OnBackspace(currentPin)
    ensures KeyOf(cell).Digit? ==> r == OnDigit(currentPin, pinLength, cell)
  {
    match KeyOf(cell)
    case Blank => None
    case Backspace => OnBackspace(currentPin)
    case Digit(d) => OnDigit(currentPin, pinLength, d)
  }

  /** The cell is one of the pad's. */
  ghost predicate OnGrid(cell: int) {
    exists i, j :: 0 <= i < |Grid| && 0 <= j < |Grid[i]| && Grid[i][j] == cell
  }

  /**
   * The PIN after a run of presses, each report taken as the new PIN (the
   * screens accept every report of at most the PIN length).
   */
  function Presses(currentPin: string, pinLength: int, cells: seq<int>): (pin: string)
    decreases |cells|
  {
    if cells == [] then currentPin
    else
      var next := Press(currentPin, pinLength, cells[0]).GetOr(currentPin);
      Presses(next, pinLength, cells[1..])
  }

  /**
   * Starting from a PIN of digits within the length, no run of presses on
   * the pad makes it longer than the length or puts anything but digits in it.
   */
  lemma {:induction false} PressesStayInBounds(currentPin: string, pinLength: int, cells: seq<int>)
    requires |currentPin| <= pinLength && AllDigits(currentPin)
    requires forall k :: 0 <= k < |cells| ==> OnGrid(cells[k])
    ensures |Presses(currentPin, pinLength, cells)| <= pinLength
    ensures AllDigits(Presses(currentPin, pinLength, cells))
    decreases |cells|
  {
    if cells != [] {
      var cell := cells[0];
      GridCells();
      var next := Press(currentPin, pinLength, cell).GetOr(currentPin);
      if KeyOf(cell).Digit? {
        var i, j :| 0 <= i < |Grid| && 0 <= j < |Grid[i]| && Grid[i][j] == cell;
        assert 0 <= cell <= 9;
        assert IntToString(cell) == [DigitChar(cell)];
      }
      assert |next| <= pinLength && AllDigits(next);
      PressesStayInBounds(next, pinLength, cells[1..]);
    }
  }
}

=== FILE: pin_setup.dfy ===
/**
 * The PIN setup screen's state machine: a complete PIN is asked for twice,
 * and saved only when the second entry repeats the first. Saving runs on
 * the main dispatcher and is modelled as part of the call that completes
 * the confirmation; the fresh salt and the hash are parameters.
 */
module PinSetup {
  import opened Wrappers
  import SP = SecurePrefs

  const PinLength := 4
  const MismatchError := "PINs do not match. Please try again."

  datatype UiState = UiState(
    pinLength: int := PinLength,
    firstPin: string := "",
    currentPin: string := "",
    isConfirming: bool := false,
    error: Option<string> := None,
    pinSetSuccess: bool := false)

  datatype Vm = Vm(ui: UiState, prefs: SP.Prefs)

  /**
   * The screen's invariant: the PIN length never changes, the first PIN is
   * complete exactly in the confirmation phase, and after success a complete
   * PIN is saved.
   */
  ghost predicate Inv(vm: Vm, hash: (string, string) -> string) {
    && SP.Valid(vm.prefs)
    && vm.ui.pinLength == PinLength
    && |vm.ui.currentPin| <= vm.ui.pinLength
    && (vm.ui.isConfirming ==> |vm.ui.firstPin| == vm.ui.pinLength)
    && (!vm.ui.isConfirming ==> vm.ui.firstPin == [])
    && (vm.ui.pinSetSuccess ==> SavedPin(vm.prefs, hash))
  }

  /** Some complete PIN verifies against the store. */
  ghost predicate SavedPin(prefs: SP.Prefs, hash: (string, string) -> string) {
    exists pin :: |pin| == PinLength && SP.VerifyPin(prefs, pin, hash)
  }

  function Init(prefs: SP.Prefs): (vm: Vm)
    ensures vm.ui.pinLength == 4 && !vm.ui.isConfirming && !vm.ui.pinSetSuccess && vm.ui.error == None
    ensures SP.Valid(prefs) ==> forall hash :: Inv(vm, hash)
  {
    Vm(UiState(), prefs)
  }

  /** `proceedToConfirmation(pin)`: remember the first PIN and ask for it again. */
  function ProceedToConfirmation(vm: Vm, pin: string): (vm': Vm)
    ensures vm'.ui.firstPin == pin && vm'.ui.currentPin == [] && vm'.ui.isConfirming
    ensures vm'.prefs == vm.prefs && vm'.ui.pinSetSuccess == vm.ui.pinSetSuccess && vm'.ui.error == vm.ui.error
  {
    vm.(ui := vm.ui.(firstPin := pin, currentPin := "", isConfirming := true))
  }

  /**
   * `confirmPin(pin)`: a repeat of the first PIN is saved and reported as
   * success; anything else starts over with an error.
   */
  function ConfirmPin(vm: Vm, pin: string, salt: string, hash: (string, string) -> string): (vm': Vm)
    requires SP.Valid(vm.prefs)
    ensures SP.Valid(vm'.prefs)
    ensures pin == vm.ui.firstPin ==> vm'.ui.pinSetSuccess && SP.VerifyPin(vm'.prefs, pin, hash)
    ensures pin != vm.ui.firstPin ==>
      && vm'.prefs == vm.prefs
      && vm'.ui.firstPin == [] && vm'.ui.currentPin == [] && !vm'.ui.isConfirming
      && vm'.ui.error == Some(MismatchError)
      && vm'.ui.pinSetSuccess == vm.ui.pinSetSuccess
  {
    if vm.ui.firstPin == pin then
      var prefs := SP.SavePin(vm.prefs, pin, salt, hash);
      SP.SaveThenVerify(vm.prefs, pin, salt, hash);
      Vm(vm.ui.(pinSetSuccess := true), prefs)
    else
      vm.(ui := vm.ui.(firstPin := "", currentPin := "", isConfirming := false, error := Some(MismatchError)))
  }

  /**
   * `updatePin(pin)`: too long is ignored; otherwise the PIN is shown and the
   * error cleared, and a complete PIN moves to confirmation or is confirmed.
   */
  function UpdatePin(vm: Vm, pin: string, salt: string, hash: (string, string) -> string): (vm': Vm)
    requires Inv(vm, hash)
    ensures Inv(vm', hash)
    ensures |pin| > vm.ui.pinLength ==> vm' == vm
    ensures |pin| < vm.ui.pinLength ==> vm' == vm.(ui := vm.ui.(currentPin := pin, error := None))
    ensures vm.ui.isConfirming && |pin| == vm.ui.pinLength && pin == vm.ui.firstPin ==>
      vm'.ui.pinSetSuccess && SP.VerifyPin(vm'.prefs, pin, hash)
    ensures vm'.ui.pinSetSuccess && !vm.ui.pinSetSuccess ==>
      vm.ui.isConfirming && |pin| == vm.ui.pinLength && pin == vm.ui.firstPin
    ensures vm'.prefs != vm.prefs ==> vm'.ui.pinSetSuccess
    ensures !vm.ui.isConfirming && |pin| == vm.ui.pinLength ==>
      && vm'.ui.isConfirming && vm'.ui.firstPin == pin && vm'.ui.currentPin == []
      && vm'.ui.error == None && vm'.prefs == vm.prefs
    ensures vm.ui.isConfirming && |pin| == vm.ui.pinLength && pin != vm.ui.firstPin ==>
      && !vm'.ui.isConfirming && vm'.ui.firstPin == [] && vm'.ui.currentPin == []
      && vm'.ui.error == Some(MismatchError) && vm'.prefs == vm.prefs
  {
    if |pin| > vm.ui.pinLength then vm
    else
      var shown := vm.(ui := vm.ui.(currentPin := pin, error := None));
      if |pin| == shown.ui.pinLength then
        if shown.ui.isConfirming then
          var vm' := ConfirmPin(shown, pin, salt, hash);
          assert pin == vm.ui.firstPin ==> SavedPin(vm'.prefs, hash);
          vm'
        else ProceedToConfirmation(shown, pin)
      else shown
  }

  /** Typing the same complete PIN twice from the start saves it. */
  lemma SamePinTwiceSaves(prefs: SP.Prefs, pin: string, salt1: string, salt2: string, hash: (string, string) -> string)
    requires SP.Valid(prefs) && |pin| == PinLength
    ensures var vm1 := UpdatePin(Init(prefs), pin, salt1, hash);
      && vm1.ui.isConfirming && vm1.prefs == prefs
      && var vm2 := UpdatePin(vm1, pin, salt2, hash);
         vm2.ui.pinSetSuccess && SP.VerifyPin(vm2.prefs, pin, hash)
  {
    assert Inv(Init(prefs), hash);
  }

  /** Two different complete PINs send the screen back to the first entry with the mismatch error. */
  lemma DifferentPinsStartOver(prefs: SP.Prefs, pin: string, other: string, salt: string, hash: (string, string) -> string)
    requires SP.Valid(prefs) && |pin| == PinLength && |other| == PinLength && pin != other
    ensures var vm1 := UpdatePin(Init(prefs), pin, salt, hash);
      var vm2 := UpdatePin(vm1, other, salt, hash);
      && !vm2.ui.pinSetSuccess && !vm2.ui.isConfirming && vm2.ui.firstPin == []
      && vm2.ui.error == Some(MismatchError) && vm2.prefs == prefs
  {
    assert Inv(Init(prefs), hash);
  }
}

=== FILE: results.dfy ===
/**
 * The three-state outcome `Result<T>` every repository and use case returns:
 * `Success(data)`, `Error(message, exception?)` or `Loading`.
 */
module Results {
  import opened Wrappers

  /** The throwable an `Error` may carry; only its message is modelled. */
  datatype Throwable = Throwable(message: Option<string>)

  datatype Result<+T> =
    | Success(data: T)
    | Error(message: string, exception: Option<Throwable>)
    | Loading
  {
    predicate IsSuccess() { Success? }
    predicate IsError() { Error? }
    predicate IsLoading() { Loading? }

    /** `getOrNull()`: the data of a `Success`, nothing otherwise. */
    function GetOrNull(): (o: Option<T>)
      ensures o.Some? <==> IsSuccess()
      ensures IsSuccess() ==> o.value == data
    {
      match this
      case Success(d) => Some(d)
      case _ => None
    }

    /** `getOrDefault(default)`: the data of a `Success`, `default` otherwise. */
    function GetOrDefault(default: T): (v: T)
      ensures IsSuccess() ==> v == data
      ensures !IsSuccess() ==> v == default
    {
      GetOrNull().GetOr(default)
    }

    /** `map(transform)`: transforms the data of a `Success`; `Error` and `Loading` pass through. */
    function Map<R>(transform: T -> R): (r: Result<R>)
      ensures IsSuccess() <==> r.IsSuccess()
      ensures IsSuccess() ==> r.data == transform(data)
      ensures IsError() ==> r == Error(message, exception)
      ensures IsLoading() ==> r == Loading
    {
      match this
      case Success(d) => Success(transform(d))
      case Error(m, e) => Error(m, e)
      case Loading => Loading
    }

    /**
     * `onSuccess(action)`: returns the receiver unchanged; the action's effect,
     * modelled as its value, happens only for a `Success`.
     */
    function OnSuccess<E>(action: T -> E): (r: (Result<T>, Option<E>))
      ensures r.0 == this
      ensures r.1.Some? <==> IsSuccess()
      ensures IsSuccess() ==> r.1.value == action(data)
    {
      (this, if IsSuccess() then Some(action(data)) else None)
    }

    /** `onError(action)`: as `OnSuccess`, for an `Error` and its message and exception. */
    function OnError<E>(action: (string, Option<Throwable>) -> E): (r: (Result<T>, Option<E>))
      ensures r.0 == this
      ensures r.1.Some? <==> IsError()
      ensures IsError() ==> r.1.value == action(message, exception)
    {
      (this, if IsError() then Some(action(message, exception)) else None)
    }

    /** `onLoading(action)`: as `OnSuccess`, for `Loading`. */
    function OnLoading<E>(action: () -> E): (r: (Result<T>, Option<E>))
      ensures r.0 == this
      ensures r.1.Some? <==> IsLoading()
      ensures IsLoading() ==> r.1.value == action()
    {
      (this, if IsLoading() then Some(action()) else None)
    }
  }

  /**
   * `getOrDefault` when the data type is itself nullable: a `Success` whose
   * data is absent yields the default, as `getOrNull() ?: default` does.
   */
  function GetOrDefaultNullable<U>(r: Result<Option<U>>, default: Option<U>): (v: Option<U>)
    ensures r.Success? && r.data.Some? ==> v == r.data
    ensures r.Success? && r.data.None? ==> v == default
    ensures !r.Success? ==> v == default
  {
    match r.GetOrNull()
    case Some(Some(u)) => Some(u)
    case _ => default
  }

  /** Exactly one of `isSuccess`, `isError` and `isLoading` holds. */
  lemma ExactlyOneState<T>(r: Result<T>)
    ensures r.IsSuccess() || r.IsError() || r.IsLoading()
    ensures !(r.IsSuccess() && r.IsError()) && !(r.IsSuccess() && r.IsLoading())
    ensures !(r.IsError() && r.IsLoading())
  {
  }

  /** `map` with the identity changes nothing, and two maps are one map of the composition. */
  lemma MapFunctorLaws<T, U, V>(r: Result<T>, f: T -> U, g: U -> V)
    ensures r.Map(x => x) == r
    ensures r.Map(f).Map(g) == r.Map(x => g(f(x)))
  {
  }
}

=== FILE: rule_table.dfy ===
/**
 * The query semantics shared by the three rule tables (blocked terms, blocked
 * keywords, blocked channels). Every table has an autogenerated integer
 * primary key `id`, an `isEnabled` flag and a `createdAt` timestamp; the
 * kind-specific columns are the row's `data`.
 *
 * A table is the sequence of its rows in primary-key order, which is the order
 * a full scan visits them. The key is declared with `autoGenerate = true`, so
 * the store keeps the largest id ever used (`lastId`) and gives a row
 * inserted with id 0 the id `lastId + 1`; an id is never handed out twice.
 * Inserts replace on a primary-key conflict; there is no other unique
 * constraint.
 */
module RuleTable {
  import opened Wrappers
  import opened Collections

  datatype Row<P> = Row(id: int := 0, data: P, isEnabled: bool := true, createdAt: int)

  datatype Table<P> = Table(rows: seq<Row<P>>, lastId: int)

  /** Ids strictly ascending along the scan order. */
  ghost predicate IdsAscending<P(!new)>(rs: seq<Row<P>>) {
    forall i, j :: 0 <= i < j < |rs| ==> rs[i].id < rs[j].id
  }

  /** Rows are in primary-key order (so ids are unique) and none exceeds the id counter. */
  ghost predicate Valid<P(!new)>(t: Table<P>) {
    && IdsAscending(t.rows)
    && (forall i :: 0 <= i < |t.rows| ==> t.rows[i].id <= t.lastId)
  }

  /** Some row of the table has primary key `id`. */
  ghost predicate Has<P(!new)>(t: Table<P>, id: int) {
    exists r :: r in t.rows && r.id == id
  }

  /** The rows of `a` and `b` agree, except possibly those with primary key `id`. */
  ghost predicate SameExcept<P(!new)>(a: seq<Row<P>>, b: seq<Row<P>>, id: int) {
    forall r: Row<P> :: r.id != id ==> (r in a <==> r in b)
  }

  /** The primary key identifies a row: two stored rows with one id are the same row. */
  lemma KeyIsUnique<P(!new)>(t: Table<P>, x: Row<P>, y: Row<P>)
    requires Valid(t) && x in t.rows && y in t.rows && x.id == y.id
    ensures x == y
  {
    var i :| 0 <= i < |t.rows| && t.rows[i] == x;
    var j :| 0 <= j < |t.rows| && t.rows[j] == y;
    assert !(i < j) && !(j < i);
  }

  function Empty<P(!new)>(): (t: Table<P>)
    ensures Valid(t) && forall id :: !Has(t, id)
  {
    Table([], 0)
  }

  /** Position of the row with primary key `id`, or -1. */
  function Find<P(!new)>(rs: seq<Row<P>>, id: int): (k: int)
    ensures -1 <= k < |rs|
    ensures k >= 0 ==> rs[k].id == id
    ensures k < 0 ==> forall i :: 0 <= i < |rs| ==> rs[i].id != id
  {
    if rs == [] then -1
    else if rs[0].id == id then 0
    else
      var k := Find(rs[1..], id);
      if k < 0 then -1 else k + 1
  }

  /** Places `r` at its primary-key position. */
  function InsertSorted<P(!new)>(rs: seq<Row<P>>, r: Row<P>): (out: seq<Row<P>>)
    requires IdsAscending(rs)
    requires forall i :: 0 <= i < |rs| ==> rs[i].id != r.id
    ensures IdsAscending(out)
    ensures |out| == |rs| + 1
    ensures forall x :: x in out <==> x in rs || x == r
  {
    if rs == [] || r.id < rs[0].id then
      assert forall i :: 0 < i < |[r] + rs| ==> ([r] + rs)[i] == rs[i - 1];
      [r] + rs
    else
      var tail := InsertSorted(rs[1..], r);
      assert forall x :: x in rs <==> x == rs[0] || x in rs[1..] by {
        assert rs == [rs[0]] + rs[1..];
      }
      HeadBelowInserted(rs, r, tail);
      ConsAscending(rs[0], tail);
      [rs[0]] + tail
  }

  /** The first row's key is below every key of the rest with `r` inserted, when `r`'s key is above it. */
  lemma HeadBelowInserted<P(!new)>(rs: seq<Row<P>>, r: Row<P>, tail: seq<Row<P>>)
    requires IdsAscending(rs) && rs != [] && rs[0].id < r.id
    requires forall x :: x in tail <==> x in rs[1..] || x == r
    ensures forall i :: 0 <= i < |tail| ==> rs[0].id < tail[i].id
  {
    forall i | 0 <= i < |tail| ensures rs[0].id < tail[i].id {
      assert tail[i] in tail;
      if tail[i] != r {
        var j :| 0 <= j < |rs[1..]| && rs[1..][j] == tail[i];
        assert rs[j + 1] == tail[i];
      }
    }
  }

  /** A row below every key of an ascending sequence can go in front of it. */
  lemma ConsAscending<P(!new)>(h: Row<P>, tail: seq<Row<P>>)
    requires IdsAscending(tail)
    requires forall i :: 0 <= i < |tail| ==> h.id < tail[i].id
    ensures IdsAscending([h] + tail)
  {
    assert forall i :: 0 < i < |[h] + tail| ==> ([h] + tail)[i] == tail[i - 1];
  }

  // ---------------------------------------------------------------------------
  // Writes
  // ---------------------------------------------------------------------------

  /**
   * `@Insert(onConflict = REPLACE)`: a row with id 0 gets a fresh id above
   * every id used so far; a row with another id replaces whatever row had that
   * id. Returns the new table and the row's id; no other row changes.
   */
  function Insert<P(!new)>(t: Table<P>, row: Row<P>): (res: (Table<P>, int))
    requires Valid(t)
    ensures Valid(res.0)
    ensures row.id == 0 ==> res.1 > t.lastId && !Has(t, res.1)
    ensures row.id != 0 ==> res.1 == row.id
    ensures row.(id := res.1) in res.0.rows
    ensures forall x :: x in res.0.rows && x.id == res.1 ==> x == row.(id := res.1)
    ensures SameExcept(t.rows, res.0.rows, res.1)
    ensures |res.0.rows| == if Has(t, res.1) then |t.rows| else |t.rows| + 1
    ensures res.0.lastId >= t.lastId
  {
    var id := if row.id == 0 then t.lastId + 1 else row.id;
    var r := row.(id := id);
    var last := if id > t.lastId then id else t.lastId;
    var k := Find(t.rows, id);
    if k >= 0 then
      var rows := t.rows[k := r];
      ReplaceAtKey(t.rows, k, r);
      var t' := Table(rows, last);
      assert forall i :: 0 <= i < |rows| ==> rows[i].id <= last;
      assert t.rows[k] in t.rows;
      UniqueAfter(t', r);
      (t', id)
    else
      var rows := InsertSorted(t.rows, r);
      var t' := Table(rows, last);
      assert forall i :: 0 <= i < |rows| ==> rows[i].id <= last by {
        forall i | 0 <= i < |rows| ensures rows[i].id <= last {
          assert rows[i] in rows;
          if rows[i] != r {
            var j :| 0 <= j < |t.rows| && t.rows[j] == rows[i];
          }
        }
      }
      UniqueAfter(t', r);
      (t', id)
  }

  /** Replacing the row at position `k` by one with the same key keeps key order and every other row. */
  lemma ReplaceAtKey<P(!new)>(rs: seq<Row<P>>, k: int, r: Row<P>)
    requires IdsAscending(rs) && 0 <= k < |rs| && rs[k].id == r.id
    ensures IdsAscending(rs[k := r])
    ensures r in rs[k := r]
    ensures SameExcept(rs, rs[k := r], r.id)
  {
    var out := rs[k := r];
    assert out[k] == r;
    forall x: Row<P> | x.id != r.id ensures x in rs <==> x in out {
      if x in rs {
        var i :| 0 <= i < |rs| && rs[i] == x;
        assert out[i] == x;
      }
      if x in out {
        var i :| 0 <= i < |out| && out[i] == x;
        assert rs[i] == x;
      }
    }
  }

  lemma UniqueAfter<P(!new)>(t: Table<P>, r: Row<P>)
    requires Valid(t) && r in t.rows
    ensures forall x :: x in t.rows && x.id == r.id ==> x == r
  {
    forall x | x in t.rows && x.id == r.id ensures x == r {
      KeyIsUnique(t, x, r);
    }
  }

  /** `@Update`: overwrites the row with the same id; no-op when there is none. */
  function Update<P(!new)>(t: Table<P>, row: Row<P>): (t': Table<P>)
    requires Valid(t)
    ensures Valid(t')
    ensures Has(t, row.id) ==> row in t'.rows
    ensures !Has(t, row.id) ==> t' == t
    ensures SameExcept(t.rows, t'.rows, row.id)
    ensures |t'.rows| == |t.rows| && t'.lastId == t.lastId
  {
    var k := Find(t.rows, row.id);
    if k >= 0 then
      ReplaceAtKey(t.rows, k, row);
      Table(t.rows[k := row], t.lastId)
    else t
  }

  /**
   * `UPDATE ... SET isEnabled = :isEnabled WHERE id = :id`: changes only the
   * flag of that row; no-op when the id is absent.
   */
  function SetEnabled<P(!new)>(t: Table<P>, id: int, isEnabled: bool): (t': Table<P>)
    requires Valid(t)
    ensures Valid(t')
    ensures forall r :: r in t.rows && r.id == id ==> r.(isEnabled := isEnabled) in t'.rows
    ensures !Has(t, id) ==> t' == t
    ensures SameExcept(t.rows, t'.rows, id)
    ensures |t'.rows| == |t.rows| && t'.lastId == t.lastId
  {
    var k := Find(t.rows, id);
    if k >= 0 then
      var r := t.rows[k].(isEnabled := isEnabled);
      ReplaceAtKey(t.rows, k, r);
      UniqueAfter(t, t.rows[k]);
      Table(t.rows[k := r], t.lastId)
    else t
  }

  /** `DELETE ... WHERE <column> = :value`: removes exactly the rows that satisfy `p`. */
  function DeleteWhere<P(!new)>(t: Table<P>, p: Row<P> -> bool): (t': Table<P>)
    requires Valid(t)
    ensures Valid(t')
    ensures forall r :: r in t'.rows <==> r in t.rows && !p(r)
    ensures t'.lastId == t.lastId
  {
    var rows := Filter(t.rows, r => !p(r));
    SubsequenceKeepsIdOrder(rows, t.rows);
    Table(rows, t.lastId)
  }

  /** `@Delete` and `DELETE ... WHERE id = :id`: removes at most the row with that id. */
  function DeleteById<P(!new)>(t: Table<P>, id: int): (t': Table<P>)
    requires Valid(t)
    ensures Valid(t')
    ensures !Has(t', id)
    ensures SameExcept(t.rows, t'.rows, id)
    ensures t'.lastId == t.lastId
  {
    DeleteWhere(t, (r: Row<P>) => r.id == id)
  }

  // ---------------------------------------------------------------------------
  // Reads
  // ---------------------------------------------------------------------------

  predicate IsEnabled<P(!new)>(r: Row<P>) {
    r.isEnabled
  }

  /**
   * `SELECT * ... WHERE isEnabled = 1`: exactly the enabled rows, each once,
   * in scan order. The query has no `ORDER BY`; ascending id is the order a
   * full scan of the table visits the rows, not something the query promises.
   */
  function GetActive<P(!new)>(t: Table<P>): (rs: seq<Row<P>>)
    requires Valid(t)
    ensures forall r :: r in rs <==> r in t.rows && r.isEnabled
    ensures IdsAscending(rs)
    ensures |rs| <= |t.rows|
    ensures |rs| == |set r | r in t.rows && r.isEnabled|
  {
    var rs := Filter(t.rows, IsEnabled);
    SubsequenceKeepsIdOrder(rs, t.rows);
    DistinctCard(rs);
    assert (set r | r in rs) == (set r | r in t.rows && r.isEnabled);
    rs
  }

  /** Rows with strictly ascending ids are pairwise distinct: as many as the set they form. */
  lemma {:induction false} DistinctCard<P(!new)>(rs: seq<Row<P>>)
    requires IdsAscending(rs)
    ensures |set r | r in rs| == |rs|
    decreases |rs|
  {
    if rs != [] {
      var tail := rs[1..];
      assert IdsAscending(tail) by {
        forall i, j | 0 <= i < j < |tail| ensures tail[i].id < tail[j].id {
          assert tail[i] == rs[i + 1] && tail[j] == rs[j + 1];
        }
      }
      DistinctCard(tail);
      RowSetOfCons(rs);
      assert rs[0] !in (set r | r in tail) by {
        forall k | 0 <= k < |tail| ensures tail[k] != rs[0] {
          assert tail[k] == rs[k + 1];
        }
      }
    }
  }

  lemma RowSetOfCons<P(!new)>(rs: seq<Row<P>>)
    requires rs != []
    ensures (set r | r in rs) == {rs[0]} + (set r | r in rs[1..])
  {
    forall x | x in rs ensures x == rs[0] || x in rs[1..] {
      var k :| 0 <= k < |rs| && rs[k] == x;
      if k > 0 {
        assert rs[1..][k - 1] == x;
      }
    }
  }

  lemma {:induction false} SubsequenceKeepsIdOrder<P(!new)>(a: seq<Row<P>>, b: seq<Row<P>>)
    requires IsSubsequence(a, b)
    requires IdsAscending(b)
    ensures IdsAscending(a)
    ensures forall i :: 0 <= i < |a| ==> exists j :: 0 <= j < |b| && a[i] == b[j]
    decreases |b|
  {
    if a != [] && b != [] {
      if a[0] == b[0] {
        SubsequenceKeepsIdOrder(a[1..], b[1..]);
        forall i | 0 < i < |a| ensures a[0].id < a[i].id {
          var j :| 0 <= j < |b[1..]| && a[1..][i - 1] == b[1..][j];
        }
      } else {
        SubsequenceKeepsIdOrder(a, b[1..]);
      }
      forall i | 0 <= i < |a| ensures exists j :: 0 <= j < |b| && a[i] == b[j] {
        if a[0] == b[0] {
          if i == 0 {
            assert a[i] == b[0];
          } else {
            var j :| 0 <= j < |b[1..]| && a[1..][i - 1] == b[1..][j];
            assert a[i] == b[j + 1];
          }
        } else {
          var j :| 0 <= j < |b[1..]| && a[i] == b[1..][j];
          assert a[i] == b[j + 1];
        }
      }
    }
  }

  /** `SELECT * ... WHERE id = :id`. */
  function GetById<P(!new)>(t: Table<P>, id: int): (r: Option<Row<P>>)
    requires Valid(t)
    ensures r.Some? <==> Has(t, id)
    ensures r.Some? ==> r.value.id == id && r.value in t.rows
  {
    var k := Find(t.rows, id);
    if k >= 0 then Some(t.rows[k]) else None
  }

  // ---------------------------------------------------------------------------
  // ORDER BY createdAt DESC
  // ---------------------------------------------------------------------------

  ghost predicate NewestFirst<P(!new)>(rs: seq<Row<P>>) {
    forall i, j :: 0 <= i < j < |rs| ==> rs[i].createdAt >= rs[j].createdAt
  }

  function InsertByCreated<P(!new)>(r: Row<P>, rs: seq<Row<P>>): (out: seq<Row<P>>)
    requires NewestFirst(rs)
    ensures NewestFirst(out)
    ensures multiset(out) == multiset(rs) + multiset{r}
    ensures |out| == |rs| + 1
    ensures forall i :: 0 <= i < |out| ==> out[i] == r || out[i] in rs
  {
    if rs == [] || rs[0].createdAt <= r.createdAt then [r] + rs
    else
      var tail := InsertByCreated(r, rs[1..]);
      assert rs == [rs[0]] + rs[1..];
      PrependNewest(rs[0], tail, r, rs[1..]);
      [rs[0]] + tail
  }

  lemma PrependNewest<P(!new)>(x: Row<P>, tail: seq<Row<P>>, r: Row<P>, rest: seq<Row<P>>)
    requires NewestFirst(tail)
    requires forall i :: 0 <= i < |tail| ==> tail[i] == r || tail[i] in rest
    requires r.createdAt <= x.createdAt
    requires forall y :: y in rest ==> y.createdAt <= x.createdAt
    ensures NewestFirst([x] + tail)
  {
    var out := [x] + tail;
    forall i, j | 0 <= i < j < |out| ensures out[i].createdAt >= out[j].createdAt {
      if i == 0 {
        assert out[j] == tail[j - 1];
      } else {
        assert out[i] == tail[i - 1] && out[j] == tail[j - 1];
      }
    }
  }

  /** A stable insertion sort on `createdAt`, newest first. */
  function SortNewestFirst<P(!new)>(rs: seq<Row<P>>): (out: seq<Row<P>>)
    ensures NewestFirst(out)
    ensures multiset(out) == multiset(rs)
  {
    if rs == [] then []
    else
      assert rs == [rs[0]] + rs[1..];
      InsertByCreated(rs[0], SortNewestFirst(rs[1..]))
  }

  /** `SELECT * ... ORDER BY createdAt DESC`: every row once, newest first. */
  function GetAll<P(!new)>(t: Table<P>): (rs: seq<Row<P>>)
    requires Valid(t)
    ensures NewestFirst(rs)
    ensures multiset(rs) == multiset(t.rows)
    ensures |rs| == |t.rows|
    ensures forall r :: r in rs <==> r in t.rows
  {
    var rs := SortNewestFirst(t.rows);
    assert forall r :: r in rs <==> r in multiset(rs);
    assert forall r :: r in t.rows <==> r in multiset(t.rows);
    assert |rs| == |multiset(rs)| == |multiset(t.rows)| == |t.rows|;
    rs
  }

  /** `SELECT COUNT(*)`: every row, enabled or not. */
  function Count<P(!new)>(t: Table<P>): (n: nat)
    requires Valid(t)
    ensures n == |GetAll(t)|
    ensures n >= |GetActive(t)|
  {
    |t.rows|
  }

  /** Inserting a row with id 0 always adds one row; a replace by id never does. */
  lemma InsertCount<P(!new)>(t: Table<P>, row: Row<P>)
    requires Valid(t)
    ensures row.id == 0 ==> Count(Insert(t, row).0) == Count(t) + 1
    ensures row.id != 0 && Has(t, row.id) ==> Count(Insert(t, row).0) == Count(t)
  {
  }
}

=== FILE: search_videos.dfy ===
/**
 * The search use case: a blocked query is answered with an empty, flagged
 * page without asking the remote search; otherwise the remote results are
 * mapped to videos and passed through the content filter.
 */
module SearchVideos {
  import opened Wrappers
  import opened Collections
  import opened Results
  import opened Videos
  import FilterRepository
  import ContentFilterEngine

  // ---------------------------------------------------------------------------
  // The wire records of a search response (every field may be absent)
  // ---------------------------------------------------------------------------

  datatype SearchResultId = SearchResultId(
    kind: Option<string>,
    videoId: Option<string>,
    channelId: Option<string>,
    playlistId: Option<string>)

  datatype Thumbnail = Thumbnail(url: Option<string>, width: Option<int>, height: Option<int>)

  datatype Thumbnails = Thumbnails(
    default: Option<Thumbnail>,
    medium: Option<Thumbnail>,
    high: Option<Thumbnail>,
    standard: Option<Thumbnail>,
    maxres: Option<Thumbnail>)

  datatype SearchSnippet = SearchSnippet(
    publishedAt: Option<string>,
    channelId: Option<string>,
    title: Option<string>,
    description: Option<string>,
    thumbnails: Option<Thumbnails>,
    channelTitle: Option<string>,
    liveBroadcastContent: Option<string>)

  datatype SearchResultDto = SearchResultDto(
    kind: Option<string>,
    etag: Option<string>,
    id: Option<SearchResultId>,
    snippet: Option<SearchSnippet>)

  datatype PageInfo = PageInfo(totalResults: Option<int>, resultsPerPage: Option<int>)

  /** One page of a YouTube list response. */
  datatype SearchListResponse = SearchListResponse(
    kind: Option<string>,
    etag: Option<string>,
    nextPageToken: Option<string>,
    prevPageToken: Option<string>,
    pageInfo: Option<PageInfo>,
    items: Option<seq<SearchResultDto>>)

  /** What the use case hands back for one search. */
  datatype SearchVideosResult = SearchVideosResult(
    videos: seq<Video>,
    nextPageToken: Option<string>,
    isSearchBlocked: bool)

  // ---------------------------------------------------------------------------
  // toDomain
  // ---------------------------------------------------------------------------

  /** A chain `a ?: b ?: c`: the first present value, if any. */
  function FirstPresent(candidates: seq<Option<string>>): (r: Option<string>)
    ensures r.None? <==> forall i :: 0 <= i < |candidates| ==> candidates[i].None?
    ensures r.Some? ==> exists i :: 0 <= i < |candidates| && candidates[i] == r
                          && forall j :: 0 <= j < i ==> candidates[j].None?
  {
    if candidates == [] then None
    else if candidates[0].Some? then
      assert candidates[0] == candidates[0];
      candidates[0]
    else
      var r := FirstPresent(candidates[1..]);
      if r.Some? then
        var i :| 0 <= i < |candidates[1..]| && candidates[1..][i] == r
                  && forall j :: 0 <= j < i ==> candidates[1..][j].None?;
        assert candidates[i + 1] == r;
        r
      else r
  }

  /** `t?.url`. */
  function UrlOf(t: Option<Thumbnail>): Option<string> {
    if t.Some? then t.value.url else None
  }

  /** The thumbnail URLs in the order the mapping tries them: high, medium, default. */
  function ThumbnailCandidates(snippet: Option<SearchSnippet>): (cs: seq<Option<string>>)
    ensures |cs| == 3
    ensures snippet.None? || snippet.value.thumbnails.None? ==> forall i :: 0 <= i < 3 ==> cs[i].None?
  {
    if snippet.None? || snippet.value.thumbnails.None? then [None, None, None]
    else
      var t := snippet.value.thumbnails.value;
      [UrlOf(t.high), UrlOf(t.medium), UrlOf(t.default)]
  }

  /** A text field of the snippet, or "" when the snippet or the field is absent. */
  function SnippetText(snippet: Option<SearchSnippet>, field: SearchSnippet -> Option<string>): (r: string)
    ensures snippet.Some? && field(snippet.value).Some? ==> r == field(snippet.value).value
    ensures snippet.None? || field(snippet.value).None? ==> r == []
  {
    if snippet.Some? then field(snippet.value).GetOr([]) else []
  }

  /**
   * `SearchResultDto.toDomain()`: absent text becomes "", the thumbnail is the
   * first present URL of high, medium and default, and the video is live
   * exactly when `liveBroadcastContent` is "live"; the fields a search result
   * does not carry keep the record's defaults.
   */
  function ToDomain(dto: SearchResultDto): (v: Video)
    ensures v.id == (if dto.id.Some? then dto.id.value.videoId.GetOr([]) else [])
    ensures v.title == SnippetText(dto.snippet, (x: SearchSnippet) => x.title)
    ensures v.description == SnippetText(dto.snippet, (x: SearchSnippet) => x.description)
    ensures v.channelId == SnippetText(dto.snippet, (x: SearchSnippet) => x.channelId)
    ensures v.channelTitle == SnippetText(dto.snippet, (x: SearchSnippet) => x.channelTitle)
    ensures v.publishedAt == SnippetText(dto.snippet, (x: SearchSnippet) => x.publishedAt)
    ensures FirstPresent(ThumbnailCandidates(dto.snippet)) == Some(v.thumbnailUrl)
         || (v.thumbnailUrl == [] && FirstPresent(ThumbnailCandidates(dto.snippet)).None?)
    ensures v.isLive <==> dto.snippet.Some? && dto.snippet.value.liveBroadcastContent == Some("live")
    ensures v.channelThumbnailUrl == [] && v.viewCount == 0 && v.likeCount == 0 && v.duration == []
  {
    var sn := dto.snippet;
    NewVideo(
      if dto.id.Some? then dto.id.value.videoId.GetOr([]) else [],
      SnippetText(sn, (x: SearchSnippet) => x.title),
      SnippetText(sn, (x: SearchSnippet) => x.description),
      FirstPresent(ThumbnailCandidates(sn)).GetOr([]),
      SnippetText(sn, (x: SearchSnippet) => x.channelId),
      SnippetText(sn, (x: SearchSnippet) => x.channelTitle),
      SnippetText(sn, (x: SearchSnippet) => x.publishedAt),
      sn.Some? && sn.value.liveBroadcastContent == Some("live"))
  }

  /** A result with no id and no snippet maps to a video of empty fields. */
  lemma EmptyDtoMapsToBlankVideo(kind: Option<string>, etag: Option<string>)
    ensures ToDomain(SearchResultDto(kind, etag, None, None))
         == Video([], [], [], [], [], [], [], [], 0, 0, [], false)
  {
  }

  /** With all three sizes present the high-resolution URL wins; without it, medium. */
  lemma ThumbnailPreference(sn: SearchSnippet, t: Thumbnails, dto: SearchResultDto)
    requires dto.snippet == Some(sn) && sn.thumbnails == Some(t)
    ensures UrlOf(t.high).Some? ==> ToDomain(dto).thumbnailUrl == UrlOf(t.high).value
    ensures UrlOf(t.high).None? && UrlOf(t.medium).Some? ==> ToDomain(dto).thumbnailUrl == UrlOf(t.medium).value
    ensures UrlOf(t.high).None? && UrlOf(t.medium).None? ==> ToDomain(dto).thumbnailUrl == UrlOf(t.default).GetOr([])
  {
    var cs := ThumbnailCandidates(dto.snippet);
    assert cs == [UrlOf(t.high), UrlOf(t.medium), UrlOf(t.default)];
    if UrlOf(t.high).None? {
      assert FirstPresent(cs) == FirstPresent(cs[1..]);
      if UrlOf(t.medium).None? {
        assert FirstPresent(cs[1..]) == FirstPresent(cs[2..]);
        assert FirstPresent(cs[2..]) == UrlOf(t.default);
      }
    }
  }

  // ---------------------------------------------------------------------------
  // invoke
  // ---------------------------------------------------------------------------

  /** The arguments of one call to the remote search. */
  datatype Request = Request(query: string, pageToken: Option<string>, maxResults: int)

  /** The use case's answer and the remote calls it made on the way. */
  datatype Outcome = Outcome(result: Result<SearchVideosResult>, requests: seq<Request>)

  /** The videos of a response page, or none when `items` is absent. */
  function ResponseVideos(r: SearchListResponse): (vs: seq<Video>)
    ensures r.items.None? ==> vs == []
    ensures r.items.Some? ==>
      && |vs| == |r.items.value|
      && forall i :: 0 <= i < |vs| ==> vs[i] == ToDomain(r.items.value[i])
  {
    Map(r.items.GetOr([]), ToDomain)
  }

  /**
   * `invoke(query, pageToken, maxResults)`, with the remote search `search` as
   * a parameter. A blocked query returns an empty page flagged as blocked and
   * makes no request; otherwise exactly one request is made and its outcome
   * decides the answer.
   */
  function Invoke(
    s: FilterRepository.Store,
    query: string,
    pageToken: Option<string>,
    maxResults: int,
    search: Request -> Result<SearchListResponse>): (o: Outcome)
    requires FilterRepository.Valid(s)
    ensures ContentFilterEngine.IsSearchTermBlocked(s, query) ==>
      o.requests == [] && o.result == Success(SearchVideosResult([], None, true))
    ensures !ContentFilterEngine.IsSearchTermBlocked(s, query) ==>
      o.requests == [Request(query, pageToken, maxResults)]
    ensures o.result.Success? ==> (o.result.data.isSearchBlocked <==> o.requests == [])
    ensures o.requests != [] ==> match search(o.requests[0])
      case Success(page) =>
        && o.result.Success?
        && o.result.data.nextPageToken == page.nextPageToken
        && o.result.data.videos == ContentFilterEngine.FilterVideos(s, ResponseVideos(page))
        && IsSubsequence(o.result.data.videos, ResponseVideos(page))
        && (forall v :: v in o.result.data.videos <==>
              v in ResponseVideos(page)
              && !ContentFilterEngine.ChannelRuleFor(s, v.channelId)
              && !ContentFilterEngine.TitleRuleFor(s, v.title)
              && !ContentFilterEngine.DescriptionRuleFor(s, v.description))
      case Error(message, _) => o.result == Error(message, None)
      case Loading => o.result == Loading
  {
    if ContentFilterEngine.IsSearchTermBlocked(s, query) then
      Outcome(Success(SearchVideosResult([], None, true)), [])
    else
      var request := Request(query, pageToken, maxResults);
      var result :=
        match search(request)
        case Success(page) =>
          Success(SearchVideosResult(ContentFilterEngine.FilterVideos(s, ResponseVideos(page)), page.nextPageToken, false))
        case Error(message, _) => Error(message, None)
        case Loading => Loading;
      Outcome(result, [request])
  }

  /** Page size `invoke` asks for when the caller gives none. */
  const DefaultMaxResults := 20

  /**
   * `invoke(query)` with the parameter defaults: the first page, twenty
   * results. An unblocked query sends exactly that request.
   */
  function InvokeFirstPage(
    s: FilterRepository.Store,
    query: string,
    search: Request -> Result<SearchListResponse>): (o: Outcome)
    requires FilterRepository.Valid(s)
    ensures ContentFilterEngine.IsSearchTermBlocked(s, query) <==> o.requests == []
    ensures o.requests != [] ==> o.requests == [Request(query, None, 20)]
  {
    Invoke(s, query, None, DefaultMaxResults, search)
  }

  /** A page without `items` gives an empty, unblocked result that keeps the page token. */
  lemma MissingItemsGiveNoVideos(
    s: FilterRepository.Store, query: string, pageToken: Option<string>, maxResults: int,
    search: Request -> Result<SearchListResponse>, page: SearchListResponse)
    requires FilterRepository.Valid(s)
    requires !ContentFilterEngine.IsSearchTermBlocked(s, query)
    requires search(Request(query, pageToken, maxResults)) == Success(page) && page.items.None?
    ensures Invoke(s, query, pageToken, maxResults, search).result
         == Success(SearchVideosResult([], page.nextPageToken, false))
  {
    var o := Invoke(s, query, pageToken, maxResults, search);
    assert o.requests[0] == Request(query, pageToken, maxResults);
  }

  /**
   * The answer does not depend on the remote search when the query is
   * blocked: any two search functions give the same outcome.
   */
  lemma BlockedQueryIgnoresRemote(
    s: FilterRepository.Store, query: string, pageToken: Option<string>, maxResults: int,
    search1: Request -> Result<SearchListResponse>, search2: Request -> Result<SearchListResponse>)
    requires FilterRepository.Valid(s)
    requires ContentFilterEngine.IsSearchTermBlocked(s, query)
    ensures Invoke(s, query, pageToken, maxResults, search1) == Invoke(s, query, pageToken, maxResults, search2)
  {
  }

  /** Every video handed back passes all enabled rules of the store. */
  lemma ResultVideosPassRules(
    s: FilterRepository.Store, query: string, pageToken: Option<string>, maxResults: int,
    search: Request -> Result<SearchListResponse>)
    requires FilterRepository.Valid(s)
    ensures var o := Invoke(s, query, pageToken, maxResults, search);
      o.result.Success? ==> forall v :: v in o.result.data.videos ==>
        && !ContentFilterEngine.ChannelRuleFor(s, v.channelId)
        && !ContentFilterEngine.TitleRuleFor(s, v.title)
        && !ContentFilterEngine.DescriptionRuleFor(s, v.description)
  {
    var o := Invoke(s, query, pageToken, maxResults, search);
    if o.requests != [] {
      var request := Request(query, pageToken, maxResults);
      assert o.requests[0] == request;
      match search(request) {
        case Success(page) =>
          assert o.result.data.videos == ContentFilterEngine.FilterVideos(s, ResponseVideos(page));
        case Error(_, _) =>
        case Loading =>
      }
    }
  }
}

=== FILE: secure_prefs.dfy ===
/**
 * The app's secure key-value store as the PIN and sign-in code use it: a
 * salted PIN hash, the auth token and the failed-attempt counter. The
 * encrypted backing file is a plain map here; the salt generator, the hash
 * function and the clock are parameters.
 */
module SecurePrefs {
  import opened Wrappers

  const PinHashKey := "pin_hash"
  const PinSaltKey := "pin_salt"
  const AuthTokenKey := "auth_token"
  const FailedAttemptsKey := "failed_attempts"
  const LastFailedAttemptKey := "last_failed_attempt"

  /** Kotlin's `Int` range, in which the attempt counter lives. */
  const IntMin := -0x8000_0000
  const IntMax := 0x7FFF_FFFF

  /** A stored preference value: the three kinds of `put` the store uses. */
  datatype Value = Str(s: string) | IntValue(i: int) | LongValue(l: int)

  datatype Prefs = Prefs(entries: map<string, Value>)

  /** Each key holds the kind of value its writer puts there, and the counter fits in an `Int`. */
  ghost predicate Valid(p: Prefs) {
    && (forall k :: k in p.entries && k in [PinHashKey, PinSaltKey, AuthTokenKey] ==> p.entries[k].Str?)
    && (FailedAttemptsKey in p.entries ==>
          p.entries[FailedAttemptsKey].IntValue? && IntMin <= p.entries[FailedAttemptsKey].i <= IntMax)
    && (LastFailedAttemptKey in p.entries ==> p.entries[LastFailedAttemptKey].LongValue?)
  }

  /** A store on first launch: nothing saved. */
  function Empty(): (p: Prefs)
    ensures Valid(p)
  {
    Prefs(map[])
  }

  /** `getString(key, null)`. */
  function GetString(p: Prefs, key: string): (o: Option<string>)
    ensures o.Some? <==> key in p.entries && p.entries[key].Str?
    ensures o.Some? ==> p.entries[key] == Str(o.value)
  {
    if key in p.entries && p.entries[key].Str? then Some(p.entries[key].s) else None
  }

  /** `getInt(key, default)`. */
  function GetInt(p: Prefs, key: string, default: int): (n: int)
    ensures key in p.entries && p.entries[key].IntValue? ==> n == p.entries[key].i
    ensures key !in p.entries ==> n == default
  {
    if key in p.entries && p.entries[key].IntValue? then p.entries[key].i else default
  }

  // ---------------------------------------------------------------------------
  // PIN
  // ---------------------------------------------------------------------------

  /**
   * `savePin(pin)`: stores `hashPin(pin, salt)` and the salt, where `salt` is
   * the freshly generated one and `hashPin` is `hash`.
   */
  function SavePin(p: Prefs, pin: string, salt: string, hash: (string, string) -> string): (p': Prefs)
    requires Valid(p)
    ensures Valid(p')
    ensures GetString(p', PinHashKey) == Some(hash(pin, salt))
    ensures GetString(p', PinSaltKey) == Some(salt)
    ensures forall k :: k in p.entries && k != PinHashKey && k != PinSaltKey ==> k in p'.entries && p'.entries[k] == p.entries[k]
    ensures forall k :: k in p'.entries ==> k in p.entries || k == PinHashKey || k == PinSaltKey
  {
    Prefs(p.entries[PinHashKey := Str(hash(pin, salt))][PinSaltKey := Str(salt)])
  }

  /**
   * `verifyPin(pin)`: false when no hash or no salt is stored; otherwise
   * whether hashing `pin` with the stored salt gives the stored hash.
   */
  function VerifyPin(p: Prefs, pin: string, hash: (string, string) -> string): (b: bool)
    ensures GetString(p, PinHashKey).None? || GetString(p, PinSaltKey).None? ==> !b
    ensures b <==> exists salt :: GetString(p, PinSaltKey) == Some(salt) && GetString(p, PinHashKey) == Some(hash(pin, salt))
  {
    var storedHash := GetString(p, PinHashKey);
    var salt := GetString(p, PinSaltKey);
    if storedHash.None? || salt.None? then false
    else storedHash.value == hash(pin, salt.value)
  }

  /** `isPinSet()`: a hash is stored. */
  predicate IsPinSet(p: Prefs) {
    PinHashKey in p.entries
  }

  /** `getPin()`: the placeholder "0000" whenever a PIN is set, never the PIN itself. */
  function GetPin(p: Prefs): (o: Option<string>)
    ensures o.Some? <==> IsPinSet(p)
    ensures o.Some? ==> o.value == "0000"
  {
    if IsPinSet(p) then Some("0000") else None
  }

  /** `clearPin()`: removes the hash and the salt. */
  function ClearPin(p: Prefs): (p': Prefs)
    requires Valid(p)
    ensures Valid(p')
    ensures !IsPinSet(p') && GetString(p', PinSaltKey).None?
    ensures forall k :: k in p.entries && k != PinHashKey && k != PinSaltKey ==> k in p'.entries && p'.entries[k] == p.entries[k]
    ensures forall k :: k in p'.entries ==> k in p.entries
  {
    Prefs(p.entries - {PinHashKey, PinSaltKey})
  }

  /** A saved PIN verifies: the same salt hashes it to the same value. */
  lemma SaveThenVerify(p: Prefs, pin: string, salt: string, hash: (string, string) -> string)
    requires Valid(p)
    ensures VerifyPin(SavePin(p, pin, salt, hash), pin, hash)
    ensures IsPinSet(SavePin(p, pin, salt, hash))
  {
  }

  /**
   * If the hash separates PINs under one salt, exactly the saved PIN
   * verifies, and it keeps verifying until the next save or clear.
   */
  lemma VerifyOnlySavedPin(p: Prefs, pin: string, other: string, salt: string, hash: (string, string) -> string)
    requires Valid(p)
    requires forall a, b :: hash(a, salt) == hash(b, salt) ==> a == b
    ensures VerifyPin(SavePin(p, pin, salt, hash), other, hash) <==> other == pin
  {
  }

  /** After `clearPin` no PIN verifies and `getPin` has nothing. */
  lemma ClearedPinNeverVerifies(p: Prefs, pin: string, hash: (string, string) -> string)
    requires Valid(p)
    ensures !VerifyPin(ClearPin(p), pin, hash)
    ensures GetPin(ClearPin(p)) == None
  {
  }

  /** `getPin` gives the same answer whatever PIN was saved. */
  lemma GetPinHidesPin(p: Prefs, a: string, b: string, salt: string, hash: (string, string) -> string)
    requires Valid(p)
    ensures GetPin(SavePin(p, a, salt, hash)) == GetPin(SavePin(p, b, salt, hash)) == Some("0000")
  {
  }

  // ---------------------------------------------------------------------------
  // Auth token
  // ---------------------------------------------------------------------------

  function SaveAuthToken(p: Prefs, token: string): (p': Prefs)
    requires Valid(p)
    ensures Valid(p')
    ensures GetAuthToken(p') == Some(token)
    ensures forall k :: k in p.entries && k != AuthTokenKey ==> k in p'.entries && p'.entries[k] == p.entries[k]
    ensures forall k :: k in p'.entries ==> k in p.entries || k == AuthTokenKey
  {
    Prefs(p.entries[AuthTokenKey := Str(token)])
  }

  function GetAuthToken(p: Prefs): (o: Option<string>)
    ensures o.Some? <==> AuthTokenKey in p.entries && p.entries[AuthTokenKey].Str?
    ensures o.Some? ==> p.entries[AuthTokenKey] == Str(o.value)
  {
    GetString(p, AuthTokenKey)
  }

  function ClearAuthToken(p: Prefs): (p': Prefs)
    requires Valid(p)
    ensures Valid(p')
    ensures GetAuthToken(p') == None
    ensures forall k :: k in p.entries && k != AuthTokenKey ==> k in p'.entries && p'.entries[k] == p.entries[k]
    ensures forall k :: k in p'.entries ==> k in p.entries
  {
    Prefs(p.entries - {AuthTokenKey})
  }

  // ---------------------------------------------------------------------------
  // Failed attempts
  // ---------------------------------------------------------------------------

  /** `getFailedAttempts()`: the stored count, 0 when none is stored. */
  function GetFailedAttempts(p: Prefs): (n: int)
    requires Valid(p)
    ensures IntMin <= n <= IntMax
    ensures FailedAttemptsKey !in p.entries ==> n == 0
    ensures FailedAttemptsKey in p.entries ==> n == p.entries[FailedAttemptsKey].i
  {
    GetInt(p, FailedAttemptsKey, 0)
  }

  /** Kotlin's `Int` addition of 1, which wraps from `IntMax` to `IntMin`. */
  function Inc32(n: int): (r: int)
    requires IntMin <= n <= IntMax
    ensures IntMin <= r <= IntMax
    ensures (r - (n + 1)) % 0x1_0000_0000 == 0
  {
    if n == IntMax then IntMin else n + 1
  }

  /**
   * `incrementFailedAttempts()`: stores and returns the previous count plus
   * one, and stamps the time of the failure.
   */
  function IncrementFailedAttempts(p: Prefs, now: int): (res: (Prefs, int))
    requires Valid(p)
    ensures Valid(res.0)
    ensures GetFailedAttempts(p) < IntMax ==> res.1 == GetFailedAttempts(p) + 1
    ensures GetFailedAttempts(res.0) == res.1
    ensures LastFailedAttemptKey in res.0.entries && res.0.entries[LastFailedAttemptKey] == LongValue(now)
    ensures forall k :: k in p.entries && k != FailedAttemptsKey && k != LastFailedAttemptKey ==> k in res.0.entries && res.0.entries[k] == p.entries[k]
  {
    var n := Inc32(GetFailedAttempts(p));
    (Prefs(p.entries[FailedAttemptsKey := IntValue(n)][LastFailedAttemptKey := LongValue(now)]), n)
  }

  /** `resetFailedAttempts()`: the count back to 0 and the failure time removed. */
  function ResetFailedAttempts(p: Prefs): (p': Prefs)
    requires Valid(p)
    ensures Valid(p')
    ensures GetFailedAttempts(p') == 0
    ensures LastFailedAttemptKey !in p'.entries
    ensures forall k :: k in p.entries && k != FailedAttemptsKey && k != LastFailedAttemptKey ==> k in p'.entries && p'.entries[k] == p.entries[k]
    ensures forall k :: k in p'.entries ==> k in p.entries || k == FailedAttemptsKey
  {
    Prefs(p.entries[FailedAttemptsKey := IntValue(0)] - {LastFailedAttemptKey})
  }

  /** `clearAll()`: the store is empty again. */
  function ClearAll(p: Prefs): (p': Prefs)
    ensures Valid(p')
    ensures !IsPinSet(p') && GetAuthToken(p') == None && GetFailedAttempts(p') == 0
    ensures p'.entries == map[]
  {
    Empty()
  }

  /** Counting from a fresh store, `n` failures leave the count at `n`. */
  lemma {:induction false} FailuresCount(p: Prefs, n: nat, now: int)
    requires Valid(p) && GetFailedAttempts(p) == 0
    requires n <= IntMax
    ensures GetFailedAttempts(Failures(p, n, now)) == n
    decreases n
  {
    if n > 0 {
      FailuresCount(p, n - 1, now);
    }
  }

  /** `n` calls of `incrementFailedAttempts` in a row. */
  function Failures(p: Prefs, n: nat, now: int): (p': Prefs)
    requires Valid(p)
    ensures Valid(p')
    decreases n
  {
    if n == 0 then p else IncrementFailedAttempts(Failures(p, n - 1, now), now).0
  }
}

=== FILE: start_destination.dfy ===
/** The first screen the app shows, decided from the stored PIN and the sign-in state. */
module StartDestination {
  import SP = SecurePrefs

  /** The navigation routes involved in the decision. */
  const SignInRoute := "sign_in"
  const PinSetupRoute := "pin_setup"
  const HomeRoute := "home"

  /**
   * Without a PIN: set one up if signed in, otherwise sign in. With a PIN:
   * home if signed in, otherwise sign in.
   */
  function Decide(isPinSet: bool, isSignedIn: bool): (route: string)
    ensures route == HomeRoute <==> isPinSet && isSignedIn
    ensures route == PinSetupRoute <==> !isPinSet && isSignedIn
    ensures route == SignInRoute <==> !isSignedIn
  {
    if !isPinSet then
      (if isSignedIn then PinSetupRoute else SignInRoute)
    else if isSignedIn then HomeRoute
    else SignInRoute
  }

  /** The decision as the app takes it, reading the PIN state from the secure store. */
  function StartRoute(prefs: SP.Prefs, isSignedIn: bool): (route: string)
    ensures route == HomeRoute <==> SP.IsPinSet(prefs) && isSignedIn
    ensures route == PinSetupRoute <==> !SP.IsPinSet(prefs) && isSignedIn
    ensures route == SignInRoute <==> !isSignedIn
  {
    Decide(SP.IsPinSet(prefs), isSignedIn)
  }

  /** Signing out always leads to the sign-in screen, and clearing the PIN never leads home. */
  lemma ClearedStoreNeverStartsHome(prefs: SP.Prefs, isSignedIn: bool)
    requires SP.Valid(prefs)
    ensures StartRoute(SP.ClearPin(prefs), isSignedIn) != HomeRoute
    ensures StartRoute(SP.ClearAll(prefs), isSignedIn) != HomeRoute
    ensures StartRoute(prefs, false) == SignInRoute
  {
  }

  /** Once a PIN is saved, a signed-in user starts at home. */
  lemma SavedPinStartsHome(prefs: SP.Prefs, pin: string, salt: string, hash: (string, string) -> string)
    requires SP.Valid(prefs)
    ensures StartRoute(SP.SavePin(prefs, pin, salt, hash), true) == HomeRoute
  {
    SP.SaveThenVerify(prefs, pin, salt, hash);
  }
}

=== FILE: text.dfy ===
/**
 * Strings as sequences of UTF-16 code units, and the string operations of the
 * Kotlin standard library and of java.util.regex that the filtering core uses:
 * `lowercase`, `trim`, `startsWith`, `contains`, splitting on `\s+`, and the
 * word-boundary assertion `\b`.
 *
 * Character classes are given exactly on ASCII. Outside ASCII the model treats
 * every character as caseless and as a non-word character; the whitespace set
 * used by `trim` is given in full.
 */
module Text {

  // ---------------------------------------------------------------------------
  // Character classes
  // ---------------------------------------------------------------------------

  /** `Char.lowercaseChar()` on ASCII: 'A'..'Z' become 'a'..'z'. */
  function LowerChar(c: char): char {
    if 'A' <= c <= 'Z' then (c as int + 32) as char else c
  }

  /** `\w` of java.util.regex, which also decides `\b`: letters, digits and '_'. */
  predicate IsWordChar(c: char) {
    ('a' <= c <= 'z') || ('A' <= c <= 'Z') || ('0' <= c <= '9') || c == '_'
  }

  /** `\s` of java.util.regex: space, tab, line feed, vertical tab, form feed, carriage return. */
  predicate IsRegexSpace(c: char) {
    c == ' ' || c == '\t' || c == '\n' || c == '\r' || c as int == 0x0B || c as int == 0x0C
  }

  /**
   * Kotlin's `Char.isWhitespace()`, which `trim()` uses: the controls
   * U+0009..U+000D and U+001C..U+001F and the space, line and paragraph
   * separators of Unicode.
   */
  predicate IsWhitespace(c: char) {
    var n := c as int;
    (0x09 <= n <= 0x0D) || (0x1C <= n <= 0x20) || n == 0xA0 || n == 0x1680
    || (0x2000 <= n <= 0x200A) || n == 0x2028 || n == 0x2029 || n == 0x202F
    || n == 0x205F || n == 0x3000
  }

  predicate IsDigit(c: char) {
    '0' <= c <= '9'
  }

  /** Every `\s` character is trimmed by `trim()`. */
  lemma RegexSpaceIsWhitespace(c: char)
    ensures IsRegexSpace(c) ==> IsWhitespace(c)
  {
  }

  /** Lower-casing keeps a character's class. */
  lemma LowerCharKeepsClass(c: char)
    ensures IsWhitespace(LowerChar(c)) == IsWhitespace(c)
    ensures IsRegexSpace(LowerChar(c)) == IsRegexSpace(c)
    ensures IsWordChar(LowerChar(c)) == IsWordChar(c)
    ensures LowerChar(LowerChar(c)) == LowerChar(c)
    ensures !('A' <= LowerChar(c) <= 'Z')
  {
  }

  // ---------------------------------------------------------------------------
  // lowercase()
  // ---------------------------------------------------------------------------

  /** `String.lowercase()`: every character lower-cased, length unchanged. */
  function Lower(s: string): (r: string)
    ensures |r| == |s|
    ensures forall i :: 0 <= i < |s| ==> r[i] == LowerChar(s[i])
  {
    if s == [] then [] else [LowerChar(s[0])] + Lower(s[1..])
  }

  lemma LowerIdempotent(s: string)
    ensures Lower(Lower(s)) == Lower(s)
  {
    forall i | 0 <= i < |s|
      ensures Lower(Lower(s))[i] == Lower(s)[i]
    {
      LowerCharKeepsClass(s[i]);
    }
  }

  /** A string without upper-case letters is its own lower-case form. */
  lemma LowerOfLowerCase(s: string)
    requires forall i :: 0 <= i < |s| ==> !('A' <= s[i] <= 'Z')
    ensures Lower(s) == s
  {
  }

  lemma LowerConcat(a: string, b: string)
    ensures Lower(a + b) == Lower(a) + Lower(b)
  {
    var l, r := Lower(a + b), Lower(a) + Lower(b);
    assert |l| == |r|;
    forall i | 0 <= i < |l|
      ensures l[i] == r[i]
    {
      if i < |a| {
        assert (a + b)[i] == a[i];
      } else {
        assert (a + b)[i] == b[i - |a|];
      }
    }
  }

  lemma LowerSlice(s: string, i: int, j: int)
    requires 0 <= i <= j <= |s|
    ensures Lower(s[i..j]) == Lower(s)[i..j]
  {
    var a, b := Lower(s[i..j]), Lower(s)[i..j];
    assert |a| == |b|;
    forall k | 0 <= k < |a|
      ensures a[k] == b[k]
    {
      assert a[k] == LowerChar(s[i..j][k]);
    }
  }

  // ---------------------------------------------------------------------------
  // trim()
  // ---------------------------------------------------------------------------

  /** The first index at or after `i` that does not hold whitespace, or `|s|`. */
  function TrimStartIndex(s: string, i: nat): (j: nat)
    requires i <= |s|
    ensures i <= j <= |s|
    ensures forall k :: i <= k < j ==> IsWhitespace(s[k])
    ensures j < |s| ==> !IsWhitespace(s[j])
    decreases |s| - i
  {
    if i == |s| || !IsWhitespace(s[i]) then i else TrimStartIndex(s, i + 1)
  }

  /** The least index `j` in `lo..e` such that `s[j..e]` is all whitespace. */
  function TrimEndIndex(s: string, lo: nat, e: nat): (j: nat)
    requires lo <= e <= |s|
    ensures lo <= j <= e
    ensures forall k :: j <= k < e ==> IsWhitespace(s[k])
    ensures j > lo ==> !IsWhitespace(s[j - 1])
    decreases e
  {
    if e == lo || !IsWhitespace(s[e - 1]) then e else TrimEndIndex(s, lo, e - 1)
  }

  /** `r` is `s[i..i + |r|]`, and everything of `s` around it is whitespace. */
  ghost predicate TrimmedAt(s: string, r: string, i: int) {
    && 0 <= i && i + |r| <= |s| && r == s[i..i + |r|]
    && (forall k :: 0 <= k < i ==> IsWhitespace(s[k]))
    && (forall k :: i + |r| <= k < |s| ==> IsWhitespace(s[k]))
  }

  /**
   * `String.trim()`: the infix of `s` left after removing whitespace from both
   * ends; it is empty exactly when `s` is all whitespace.
   */
  function Trim(s: string): (r: string)
    ensures exists i :: TrimmedAt(s, r, i)
    ensures r != [] ==> !IsWhitespace(r[0]) && !IsWhitespace(r[|r| - 1])
    ensures r == [] <==> forall k :: 0 <= k < |s| ==> IsWhitespace(s[k])
  {
    var i := TrimStartIndex(s, 0);
    var j := TrimEndIndex(s, i, |s|);
    assert TrimmedAt(s, s[i..j], i);
    s[i..j]
  }

  lemma {:induction false} TrimStartIndexLower(s: string, i: nat)
    requires i <= |s|
    ensures TrimStartIndex(Lower(s), i) == TrimStartIndex(s, i)
    decreases |s| - i
  {
    if i < |s| {
      LowerCharKeepsClass(s[i]);
      TrimStartIndexLower(s, i + 1);
    }
  }

  lemma {:induction false} TrimEndIndexLower(s: string, lo: nat, e: nat)
    requires lo <= e <= |s|
    ensures TrimEndIndex(Lower(s), lo, e) == TrimEndIndex(s, lo, e)
    decreases e
  {
    if lo < e {
      LowerCharKeepsClass(s[e - 1]);
      TrimEndIndexLower(s, lo, e - 1);
    }
  }

  /** Lower-casing and trimming commute, since lower-casing keeps whitespace. */
  lemma TrimLowerCommute(s: string)
    ensures Trim(Lower(s)) == Lower(Trim(s))
  {
    var i := TrimStartIndex(s, 0);
    TrimStartIndexLower(s, 0);
    TrimEndIndexLower(s, i, |s|);
    LowerSlice(s, i, TrimEndIndex(s, i, |s|));
  }

  // ---------------------------------------------------------------------------
  // startsWith / contains
  // ---------------------------------------------------------------------------

  /** `p` is a prefix of `s`. */
  ghost predicate IsPrefix(p: string, s: string) {
    |p| <= |s| && s[..|p|] == p
  }

  /** `k` occurs in `s` at index `i`. */
  ghost predicate OccursAt(s: string, k: string, i: int) {
    0 <= i && i + |k| <= |s| && s[i..i + |k|] == k
  }

  /** `k` occurs somewhere in `s`. */
  ghost predicate IsInfix(k: string, s: string) {
    exists i :: OccursAt(s, k, i)
  }

  /** `String.startsWith`, compared character by character. */
  function StartsWith(s: string, p: string): (b: bool)
    ensures b <==> IsPrefix(p, s)
  {
    if p == [] then true
    else if s == [] then false
    else s[0] == p[0] && StartsWith(s[1..], p[1..])
  }

  /** `String.contains`: `k` is tried at every index of `s` from the left. */
  function Contains(s: string, k: string): (b: bool)
    ensures b <==> IsInfix(k, s)
    decreases |s|
  {
    if |k| > |s| then false
    else if StartsWith(s, k) then
      assert OccursAt(s, k, 0);
      true
    else
      InfixStep(s, k);
      Contains(s[1..], k)
  }

  /** An occurrence of `k` in `s` is at index 0 or is an occurrence in `s[1..]`. */
  lemma InfixStep(s: string, k: string)
    requires s != []
    ensures IsInfix(k, s) <==> OccursAt(s, k, 0) || IsInfix(k, s[1..])
  {
    if IsInfix(k, s[1..]) {
      var i :| OccursAt(s[1..], k, i);
      assert OccursAt(s, k, i + 1);
    }
    if IsInfix(k, s) && !OccursAt(s, k, 0) {
      var i :| OccursAt(s, k, i);
      assert OccursAt(s[1..], k, i - 1);
    }
  }

  /** The empty string occurs in every string. */
  lemma EmptyIsInfix(s: string)
    ensures IsInfix([], s)
  {
    assert OccursAt(s, [], 0);
  }

  // ---------------------------------------------------------------------------
  // split("\\s+".toRegex())
  // ---------------------------------------------------------------------------

  /** No `\s` character in `t`. */
  ghost predicate NoRegexSpace(t: string) {
    forall c :: c in t ==> !IsRegexSpace(c)
  }

  /** The index of the first `\s` character of `s` at or after `from`, or `|s|`. */
  function FindSpace(s: string, from: nat): (i: nat)
    requires from <= |s|
    ensures from <= i <= |s|
    ensures i < |s| ==> IsRegexSpace(s[i])
    ensures forall k :: from <= k < i ==> !IsRegexSpace(s[k])
    decreases |s| - from
  {
    if from == |s| || IsRegexSpace(s[from]) then from else FindSpace(s, from + 1)
  }

  /** The end of the run of `\s` characters starting at `from` (greedy `\s+`). */
  function SkipSpaces(s: string, from: nat): (j: nat)
    requires from <= |s|
    ensures from <= j <= |s|
    ensures j < |s| ==> !IsRegexSpace(s[j])
    ensures forall k :: from <= k < j ==> IsRegexSpace(s[k])
    decreases |s| - from
  {
    if from == |s| || !IsRegexSpace(s[from]) then from else SkipSpaces(s, from + 1)
  }

  /**
   * The pieces of `s[from..]` between maximal runs of `\s`, as
   * `split("\\s+".toRegex())` produces them.
   */
  function TokensFrom(s: string, from: nat): (ts: seq<string>)
    requires from <= |s|
    ensures |ts| >= 1
    ensures forall t :: t in ts ==> NoRegexSpace(t)
    decreases |s| - from
  {
    var i := FindSpace(s, from);
    if i == |s| then [s[from..]]
    else [s[from..i]] + TokensFrom(s, SkipSpaces(s, i))
  }

  /**
   * `s.split("\\s+".toRegex())`: the pieces between maximal runs of `\s`.
   * Kotlin keeps the empty piece before a leading run and after a trailing
   * run, so the result is never empty and `Tokens("") == [""]`.
   */
  function Tokens(s: string): (ts: seq<string>)
    ensures |ts| >= 1
    ensures forall t :: t in ts ==> NoRegexSpace(t)
  {
    TokensFrom(s, 0)
  }

  /** Index `p` of `s` begins a whitespace-separated word. */
  ghost predicate WordStart(s: string, p: int) {
    p == 0 || (0 < p <= |s| && IsRegexSpace(s[p - 1]))
  }

  /** Some piece of `ts` starts with `k`. */
  function AnyStartsWith(ts: seq<string>, k: string): (b: bool)
    ensures b <==> exists t :: t in ts && IsPrefix(k, t)
  {
    if ts == [] then false
    else if StartsWith(ts[0], k) then true
    else AnyStartsWith(ts[1..], k)
  }

  /** `k` is empty, or has no `\s` and occurs at the start of a word of `s`. */
  ghost predicate StartsSomeWord(s: string, k: string) {
    k == [] || (NoRegexSpace(k) && exists p :: OccursAt(s, k, p) && WordStart(s, p))
  }

  /** `k` has no `\s`, and occurs at a word start of `s` at or after `from`. */
  ghost predicate StartsWordFrom(s: string, k: string, from: int) {
    NoRegexSpace(k) && exists p :: from <= p && OccursAt(s, k, p) && (p == from || WordStart(s, p))
  }

  lemma PrefixOfSlice(s: string, lo: nat, hi: nat, k: string)
    requires lo <= hi <= |s|
    ensures IsPrefix(k, s[lo..hi]) <==> |k| <= hi - lo && OccursAt(s, k, lo)
  {
    if |k| <= hi - lo {
      assert s[lo..hi][..|k|] == s[lo..lo + |k|];
    }
  }

  /**
   * Some piece of `s` split on `\s+` starts with `k` exactly when `k` is empty,
   * or `k` has no `\s` character and occurs at the start of a word of `s`.
   */
  lemma TokensStartWith(s: string, k: string)
    ensures AnyStartsWith(Tokens(s), k) <==> StartsSomeWord(s, k)
  {
    if k == [] {
      assert IsPrefix(k, Tokens(s)[0]);
    } else {
      TokensFromStartWith(s, k, 0);
      if StartsWordFrom(s, k, 0) {
        var p :| 0 <= p && OccursAt(s, k, p) && (p == 0 || WordStart(s, p));
        assert WordStart(s, p);
      }
    }
  }

  lemma {:induction false} TokensFromStartWith(s: string, k: string, from: nat)
    requires from <= |s| && k != []
    ensures AnyStartsWith(TokensFrom(s, from), k) <==> StartsWordFrom(s, k, from)
    decreases |s| - from
  {
    var i := FindSpace(s, from);
    PrefixOfSlice(s, from, i, k);
    if i == |s| {
      NoSpaceInRun(s, k, from, i);
    } else {
      var j := SkipSpaces(s, i);
      TokensFromStartWith(s, k, j);
      assert TokensFrom(s, from) == [s[from..i]] + TokensFrom(s, j);
      StartsWordFromStep(s, k, from, i, j);
    }
  }

  /**
   * One step of the split: `k` starts a word of `s[from..]` exactly when it
   * fills the front of the first run `s[from..i]`, or starts a word after the
   * spaces `s[i..j]`.
   */
  lemma StartsWordFromStep(s: string, k: string, from: nat, i: nat, j: nat)
    requires from <= i < j <= |s| && k != []
    requires forall m :: from <= m < i ==> !IsRegexSpace(s[m])
    requires forall m :: i <= m < j ==> IsRegexSpace(s[m])
    ensures StartsWordFrom(s, k, from) <==> (OccursAt(s, k, from) && |k| <= i - from) || StartsWordFrom(s, k, j)
  {
    NoSpaceInRun(s, k, from, i);
    if OccursAt(s, k, from) && |k| <= i - from {
      forall c | c in k ensures !IsRegexSpace(c) {
        var m :| 0 <= m < |k| && k[m] == c;
        assert s[from..from + |k|][m] == s[from + m];
      }
    }
    if StartsWordFrom(s, k, j) {
      var p :| j <= p && OccursAt(s, k, p) && (p == j || WordStart(s, p));
      assert IsRegexSpace(s[j - 1]);
    }
    if StartsWordFrom(s, k, from) {
      var p :| from <= p && OccursAt(s, k, p) && (p == from || WordStart(s, p));
      if p != from {
        assert IsRegexSpace(s[p - 1]);
        assert i <= p - 1;
        assert s[p] == k[0] && k[0] in k;
        assert j <= p;
      }
    }
  }

  /**
   * In a run `s[from..i]` with no `\s`, an occurrence of a space-free `k` that
   * starts at a word start or at `from` starts at `from`, and fits in the run
   * when `s[i]` is a space or the run ends `s`.
   */
  lemma NoSpaceInRun(s: string, k: string, from: nat, i: nat)
    requires from <= i <= |s| && k != []
    requires forall m :: from <= m < i ==> !IsRegexSpace(s[m])
    requires i < |s| ==> IsRegexSpace(s[i])
    ensures forall p :: from <= p < i && OccursAt(s, k, p) && (p == from || WordStart(s, p)) ==> p == from
    ensures NoRegexSpace(k) && OccursAt(s, k, from) ==> |k| <= i - from
  {
  }

  // ---------------------------------------------------------------------------
  // \b<literal>\b
  // ---------------------------------------------------------------------------

  /** Index `i` of `s` holds a word character; indices outside `s` do not. */
  function WordAt(s: string, i: int): bool {
    0 <= i < |s| && IsWordChar(s[i])
  }

  /** `\b` holds at position `p` (between `s[p-1]` and `s[p]`). */
  function Boundary(s: string, p: int): bool {
    WordAt(s, p - 1) != WordAt(s, p)
  }

  /** `k` occurs at `i` with a word boundary on both sides. */
  ghost predicate WholeWordAt(s: string, k: string, i: int) {
    OccursAt(s, k, i) && Boundary(s, i) && Boundary(s, i + |k|)
  }

  /** The search `Regex("\\b" + Regex.escape(k) + "\\b").containsMatchIn(s)`, from index `from`. */
  function FindWholeWord(s: string, k: string, from: nat): (b: bool)
    ensures b <==> exists i :: from <= i && WholeWordAt(s, k, i)
    decreases |s| + 1 - from
  {
    if from + |k| > |s| then
      assert forall i :: from <= i ==> !OccursAt(s, k, i);
      false
    else if StartsWith(s[from..], k) && Boundary(s, from) && Boundary(s, from + |k|) then
      assert s[from..][..|k|] == s[from..from + |k|];
      assert WholeWordAt(s, k, from);
      true
    else
      assert s[from..][..|k|] == s[from..from + |k|];
      assert !WholeWordAt(s, k, from);
      FindWholeWord(s, k, from + 1)
  }

  /** The literal `k`, delimited by `\b` on both sides, occurs somewhere in `s`. */
  ghost predicate HasWholeWord(s: string, k: string) {
    exists i :: WholeWordAt(s, k, i)
  }

  /** `Regex("\\b" + Regex.escape(k) + "\\b").containsMatchIn(s)`. */
  function ContainsWholeWord(s: string, k: string): (b: bool)
    ensures b <==> HasWholeWord(s, k)
  {
    FindWholeWord(s, k, 0)
  }

  /** No position of the empty string is a word boundary, so nothing matches in it. */
  lemma NoWholeWordInEmpty(k: string)
    ensures !ContainsWholeWord([], k)
  {
  }

  /**
   * A literal whose last character is not a word character can only be
   * followed, at a match, by a word character: "c++" does not match at the end
   * of "i like c++" nor before a space.
   */
  lemma NonWordEdgeNeedsWordAfter(s: string, k: string, i: int)
    requires k != [] && !IsWordChar(k[|k| - 1])
    requires WholeWordAt(s, k, i)
    ensures i + |k| < |s| && IsWordChar(s[i + |k|])
  {
    assert s[i + |k| - 1] == k[|k| - 1];
  }

  // ---------------------------------------------------------------------------
  // Decimal digits
  // ---------------------------------------------------------------------------

  /** All characters of `s` are ASCII digits. */
  ghost predicate AllDigits(s: string) {
    forall c :: c in s ==> IsDigit(c)
  }

  /** The value of a string of ASCII digits, read in base 10. */
  function DigitsValue(s: string): nat
    requires AllDigits(s)
  {
    if s == [] then 0
    else
      assert s[|s| - 1] in s && forall c :: c in s[..|s| - 1] ==> c in s;
      DigitsValue(s[..|s| - 1]) * 10 + (s[|s| - 1] as int - '0' as int)
  }

  function DigitChar(d: nat): (c: char)
    requires d < 10
    ensures IsDigit(c)
  {
    ('0' as int + d) as char
  }

  /** `Int.toString()` for a non-negative value: its shortest decimal form. */
  function NatToString(n: nat): (s: string)
    ensures |s| >= 1 && AllDigits(s)
    ensures DigitsValue(s) == n
    ensures |s| > 1 ==> s[0] != '0'
    decreases n
  {
    if n < 10 then [DigitChar(n)]
    else
      var h := NatToString(n / 10);
      var s := h + [DigitChar(n % 10)];
      assert s[..|s| - 1] == h;
      s
  }

  /** `Int.toString()`: a minus sign before the digits of a negative value. */
  function IntToString(n: int): (s: string)
    ensures n >= 0 ==> |s| >= 1 && AllDigits(s) && DigitsValue(s) == n
    ensures n < 0 ==> |s| >= 2 && s[0] == '-' && AllDigits(s[1..]) && DigitsValue(s[1..]) == -n
    ensures n >= 0 && |s| > 1 ==> s[0] != '0'
    ensures n < 0 && |s| > 2 ==> s[1] != '0'
  {
    if n < 0 then "-" + NatToString(-n) else NatToString(n)
  }

  /** `String.format("%02d", n)` for a non-negative value: at least two digits. */
  function Pad2(n: nat): (s: string)
    ensures |s| >= 2 && AllDigits(s)
    ensures DigitsValue(s) == n
    ensures |s| > 2 ==> s[0] != '0'
  {
    var d := NatToString(n);
    if |d| < 2 then
      var s := ['0'] + d;
      DigitsValueLeadingZero(d);
      s
    else d
  }

  lemma {:induction false} DigitsValueLeadingZero(d: string)
    requires AllDigits(d)
    ensures AllDigits(['0'] + d) && DigitsValue(['0'] + d) == DigitsValue(d)
    decreases |d|
  {
    if d != [] {
      var z := ['0'] + d;
      assert z[..|z| - 1] == ['0'] + d[..|d| - 1];
      assert forall c :: c in d[..|d| - 1] ==> c in d;
      assert d[|d| - 1] in d;
      DigitsValueLeadingZero(d[..|d| - 1]);
    }
  }
}

=== FILE: video.dfy ===
/** The domain record of a YouTube video. */
module Videos {
  import Duration

  /**
   * A video as the lists show it. Counts are `Long` in the app and are
   * unbounded here; `duration` is an ISO 8601 duration string or "".
   */
  datatype Video = Video(
    id: string,
    title: string,
    description: string,
    thumbnailUrl: string,
    channelId: string,
    channelTitle: string,
    channelThumbnailUrl: string,
    publishedAt: string,
    viewCount: int,
    likeCount: int,
    duration: string,
    isLive: bool)
  {
    /** The duration as `h:mm:ss` or `m:ss`; "" and unparseable text are shown as they are. */
    function FormattedDuration(): (r: string)
      ensures duration == [] ==> r == []
      ensures Duration.ParseIso(duration).None? ==> r == duration
      ensures Duration.ParseIso(duration).Some? ==> r != duration
    {
      var r := Duration.FormatIsoDuration(duration);
      if duration != [] && Duration.ParseIso(duration).Some? then
        Duration.FormatNeverEcho(duration);
        r
      else r
    }
  }

  /** A video with the record's defaults for the fields a search result does not carry. */
  function NewVideo(id: string, title: string, description: string, thumbnailUrl: string, channelId: string, channelTitle: string, publishedAt: string, isLive: bool): (v: Video)
    ensures v.channelThumbnailUrl == [] && v.viewCount == 0 && v.likeCount == 0 && v.duration == []
    ensures v.FormattedDuration() == []
  {
    Video(id, title, description, thumbnailUrl, channelId, channelTitle, [], publishedAt, 0, 0, [], isLive)
  }
}

=== FILE: wrappers.dfy ===
/** Kotlin's nullable types `T?`, written as an explicit option. */
module Wrappers {

  datatype Option<+T> = None | Some(value: T) {

    /** Kotlin's elvis operator `x ?: default`. */
    function GetOr(default: T): T {
      match this
      case Some(v) => v
      case None => default
    }
  }
}
